=== FILE: README.md ===
# cerca verification pipeline in Dafny

cerca checks the bibliography of a paper. It turns every reference into a
`ReferenceItem` record. The records come from the PDF extractor (CERMINE) or
from pasted lines run through the reference parser. Each record then goes
through a cascade of bibliographic databases:

- Crossref always runs.
- OpenAlex, Zenodo and Semantic Scholar run while the score is still below 75.

Each source scores its best candidate against the PDF title and authors, and
may write the candidate back with a PASS, CHECK or FAIL status. After the
cascade, `verified` is set from the final score. The dashboard counts the
verified records. The results can be exported as a diagnostic report with a
diagnosis per doubtful record, or as a `;`-separated CSV file.

The model is a set of pure functions over an immutable `Item` record:

| module | file | models |
|---|---|---|
| `Text` | text.dfy | Java `String` helpers: `trim`, ASCII `toLowerCase`, `contains`, `String.join`, `StringBuilder` joins, `String.valueOf(int)` |
| `Scoring` | scoring.dfy | the composite score and its constants; the fuzzy-matching library as three functions into 0..100 |
| `Record` | record.dfy | `ReferenceItem`: the constructor, the `verified` listener, `setCrossrefData`, `markNotFound`, the verified count |
| `Wire` | wire.dfy | abstract requests and responses; the query term, query cleaning, author line and write-back shared by the search adapters |
| `Crossref`, `OpenAlex`, `Zenodo`, `SemanticScholar` | crossref.dfy, openalex.dfy, zenodo.dfy, scholar.dfy | the four source adapters |
| `RefParser` | parser.dfy | `ReferenceParser.parse` and `clean`, with the label regex written out |
| `Cermine` | cermine.dfy | the mapping of extracted entries to records |
| `Controller` | controller.dfy | `verifyAll`, `recalculateDashboard`, `loadManualReferences` |
| `Report` | report.dfy | `exportReport` and `getDiagnosis` |
| `Csv` | csv.dfy | `exportToCsv` and `escapeCsv`, plus a row reader used to state round trips |

The outside world is passed in as parameters:

- **Network.** A function from a request (endpoint, query term, attempt number) to a reply. A reply is either a thrown exception or a status code with an abstract body. The body is unreadable, a single work, or the first hit of a list (possibly none).
- **Similarity library.** `ratio`, `partialRatio` and `tokenSortRatio`, each a function into 0..100.
- **CRF reference model.** A function from a cleaned citation to its author values and first title value, or None when the model is missing or throws.
- **Sleeps.** Each adapter call returns the sleeps it would perform, as a list of milliseconds.

Java `null` is `Option.None` for the fields where the code can produce it: PDF authors, PDF title and DOI. Runtime exceptions in the report become `Report.Outcome.Crash`.

Three behaviours of the code that a reader might not expect:

- A 403 from Semantic Scholar still costs one sleep, because the code sleeps before every attempt.
- No step marks a record NOT FOUND once every source is exhausted.
- The 75 boundary is exclusive in the adapters and inclusive in the listener and the controller. Each call site is modelled as written.

## Model

| member | source | states |
|---|---|---|
| Record.New | src/main/java/com/cerca/model/ReferenceItem.java:39-50 | a new record keeps the given id, status, authors, title, raw text and DOI, and starts with score 0, empty database title and authors, and verified false |
| Record.ListenerStatus | src/main/java/com/cerca/model/ReferenceItem.java:52-70 | checking gives PASS whatever the score. Unchecking gives PASS iff score ≥ 75, CHECK iff 50 < score < 75, and FAIL iff score ≤ 50 |
| Record.Classify | src/main/java/com/cerca/service/CrossrefService.java:155-165 | the adapters' status for a fresh score: PASS iff > 75, CHECK iff in (50, 75], FAIL iff ≤ 50 |
| Record.ClassifyDisagreesOnlyAt75 | src/main/java/com/cerca/model/ReferenceItem.java:59-63 | the listener and the adapters classify every score alike except exactly 75, which the listener calls PASS and the adapters CHECK |
| Record.SetVerified | src/main/java/com/cerca/model/ReferenceItem.java:52-70 | setting `verified` to its current value changes nothing. A real change recomputes the status through the listener. Nothing other than verified and status changes |
| Record.UncheckRecomputesFromScore | src/main/java/com/cerca/model/ReferenceItem.java:52-68 | unchecking a verified record recomputes its status from the score. Checking it again gives PASS |
| Record.SetCrossrefData | src/main/java/com/cerca/model/ReferenceItem.java:102-106 | exactly the database title, authors and score change. Source fields, status and verified are untouched |
| Record.MarkNotFound | src/main/java/com/cerca/model/ReferenceItem.java:163-168 | score 0 and verified. The status stays NOT FOUND only if the record was verified before; otherwise the listener turns it into PASS |
| Record.MarkNotFoundLosesStatus | src/main/java/com/cerca/model/ReferenceItem.java:163-168 | a fresh record marked not found ends with status PASS, not NOT FOUND |
| Record.MarkNotFoundKeepingStatus | src/main/java/com/cerca/model/ReferenceItem.java:163-168 | corrected version: score 0, verified, and status NOT FOUND whatever the previous state |
| Record.CountVerified | src/main/java/com/cerca/controller/MainController.java:276 | the count is at most the list length. It is 0 iff no record is verified, and the full length iff all are |
| Scoring.Composite | src/main/java/com/cerca/service/CrossrefService.java:139-147 | below the author floor the score is at most 50 and at most the title score (equal to it when the title score ≤ 50). Otherwise it lies between the smaller and the larger of the two similarities |
| Scoring.CompositeMonotoneInTitle | src/main/java/com/cerca/service/OpenAlexService.java:115-120 | a higher title similarity never gives a lower composite score |
| Scoring.LowAuthorNeverDisplayed | src/main/java/com/cerca/service/ZenodoService.java:103-111 | with author similarity below the floor, the score never exceeds 50, so the search adapters never write the candidate back |
| Scoring.TitleSimilarity | src/main/java/com/cerca/service/CrossrefService.java:117-129 | with the "Unknown Title" sentinel the title score is the partial ratio of the lower-cased candidate title against the lower-cased raw text; otherwise it is the full ratio against the lower-cased PDF title |
| Scoring.CandidateCaseIgnored | src/main/java/com/cerca/service/ZenodoService.java:93-99 | lower-casing the candidate title first does not change its title score |
| Scoring.ScorerExamples | src/main/java/com/cerca/service/SemanticScholarService.java:164-169 | title 90 with authors 30 gives 50. Title 90 with authors 80 gives 86 |
| Wire.Names | src/main/java/com/cerca/service/OpenAlexService.java:92-106 | the names taken are exactly those of the authors that have a display name; authors without one are skipped |
| Wire.NamesAppend | src/main/java/com/cerca/service/OpenAlexService.java:92-106 | the names keep the authors' order, one per named author: an author added at the end adds its name at the end, or nothing |
| Wire.NameLineJoinsNames | src/main/java/com/cerca/service/ZenodoService.java:79-90 | the `StringBuilder` author line equals the "; "-join of the present names |
| Wire.SearchTerm | src/main/java/com/cerca/service/ZenodoService.java:33-37 | the term is the PDF title if it is present, not "Unknown Title", and at least 5 long. Otherwise it is the raw text. No term (no request) iff that is shorter than 5 |
| Wire.BlankSymbols | src/main/java/com/cerca/service/ZenodoService.java:40 | same length. Each character outside [a-zA-Z0-9] and `\s` becomes a space; the others are kept |
| Wire.CleanQuery | src/main/java/com/cerca/service/SemanticScholarService.java:63 | the cleaned query has only [a-zA-Z0-9\s] characters and no surrounding trimmable ones. A query of such characters is merely trimmed |
| Wire.CleanQueryIdempotent | src/main/java/com/cerca/service/ZenodoService.java:40 | cleaning a cleaned query changes nothing |
| Wire.Promote | src/main/java/com/cerca/service/OpenAlexService.java:123-140 | a write-back above 50 stores the candidate and score. It gives PASS with verified set when above 75, and CHECK otherwise; verified is never cleared |
| Wire.Judge | src/main/java/com/cerca/service/OpenAlexService.java:112-149 | with author floor 40, the record is written iff the composite exceeds 50, and the stored score is that composite of the given title score and the token-sort ratio of the joined names against the PDF authors. The written score lies in (50, 100]. Null PDF authors write nothing |
| Wire.JudgeHit | src/main/java/com/cerca/service/ZenodoService.java:65-136 | only a first hit can be written. A write needs non-null PDF title and authors. With those and a first hit, the record is written iff the floor-40 composite of the title similarity (partial ratio on the raw text for the sentinel, full ratio otherwise) and the author similarity exceeds 50, and that composite is the stored score. Nothing else about the record changes |
| Crossref.QueryTerm | src/main/java/com/cerca/service/CrossrefService.java:40-44 | the query is a prefix of the PDF title, or of the raw text when the title is null or "Unknown Title". It equals that text when it is at most 200 long, and is cut to 200 otherwise |
| Crossref.CleanText | src/main/java/com/cerca/service/CrossrefService.java:169-177 | null gives "". Otherwise the kept query characters, trimmed, with each space turned into '+'. The result has no spaces, only [a-zA-Z0-9\s] characters and '+', and is no longer than the input |
| Crossref.KeepQueryChars | src/main/java/com/cerca/service/CrossrefService.java:173 | only [a-zA-Z0-9\s] characters remain. A text made of them is unchanged. A single character is kept iff it is one of them, and dropped otherwise |
| Crossref.KeepQueryCharsAppend | src/main/java/com/cerca/service/CrossrefService.java:173 | filtering a concatenation concatenates the filtered parts, so each query character is kept in order and every other one dropped |
| Crossref.SpacesToPlus | src/main/java/com/cerca/service/CrossrefService.java:176 | same length. Each space becomes '+'; every other character stays |
| Crossref.PersonNames | src/main/java/com/cerca/service/CrossrefService.java:104-110 | one trimmed "given family" name per author entry, in order, absent parts as "" |
| Crossref.MarkNotFound | src/main/java/com/cerca/service/CrossrefService.java:179-183 | NOT FOUND with score 0. Verified and everything else are untouched |
| Crossref.Settle | src/main/java/com/cerca/service/CrossrefService.java:150-165 | stores the score with its adapter status. Above 75 it sets verified; it never clears it |
| Crossref.ScoreCandidate | src/main/java/com/cerca/service/CrossrefService.java:94-150 | title ("Unknown" when absent) and author line are written before scoring. Scoring throws iff the PDF title or authors are null. Otherwise the stored score is the floor-50 composite of the title similarity and the token-sort ratio of the author line against the PDF authors, with its status |
| Crossref.ParseAndScore | src/main/java/com/cerca/service/CrossrefService.java:80-91 | an unreadable body throws. An empty list marks NOT FOUND without throwing. A single work, or the first item of a list, is scored as that candidate |
| Crossref.Finish | src/main/java/com/cerca/service/CrossrefService.java:55-68 | a 200 body gives true unless its parsing threw, and the record is then the parse result |
| Crossref.Search | src/main/java/com/cerca/service/CrossrefService.java:39-53 | the search request carries the query term and follows whatever was sent before |
| Crossref.Verify | src/main/java/com/cerca/service/CrossrefService.java:29-69 | one or two requests, no sleeps; found only on a 200. Failure means NOT FOUND with score 0; any other status is the score's; score in range. Verified is never cleared and is set only above 75 |
| Crossref.VerifyOutcome | src/main/java/com/cerca/service/CrossrefService.java:39-62 | the call returns true iff the last reply was a 200 whose parsing did not throw, and the record is then that parse result |
| Crossref.VerifyScore | src/main/java/com/cerca/service/CrossrefService.java:117-150 | when the call succeeds on a work or a first hit, the PDF title and authors were non-null and the stored score is the floor-50 composite of that candidate's title and author similarities |
| Crossref.VerifyRequests | src/main/java/com/cerca/service/CrossrefService.java:33-53 | the identifier lookup is sent first iff the DOI is non-null and contains "10.". The search with the query term follows unless the lookup got a 200 |
| Crossref.EmptyListStillFound | src/main/java/com/cerca/service/CrossrefService.java:55-57 | a 200 body with an empty item list returns true while the record is NOT FOUND with score 0 |
| Crossref.CandidateWrittenWhateverTheScore | src/main/java/com/cerca/service/CrossrefService.java:94-113 | the first hit's title and authors are written even when scoring then throws; the call succeeds iff PDF title and authors are non-null |
| Crossref.LookupExceptionStopsEverything | src/main/java/com/cerca/service/CrossrefService.java:64-68 | an exception in the identifier lookup ends the call after one request, NOT FOUND |
| Crossref.WeakAuthorsFail | src/main/java/com/cerca/service/CrossrefService.java:141-165 | author similarity below 50 always gives FAIL |
| OpenAlex.ParseAndScore | src/main/java/com/cerca/service/OpenAlexService.java:70-149 | the first result is written iff its composite of the full title ratio and the author similarity (floor 40) exceeds 50, and that composite is the stored score |
| OpenAlex.Verify | src/main/java/com/cerca/service/OpenAlexService.java:38-68 | a null or short (< 5) PDF title sends nothing, and there is no raw-text fallback. Otherwise one request with the PDF title. A write needs a 200 with a hit and gives a score in (50, 100], PASS iff > 75. On a 200 the outcome is exactly parseAndScore's on the PDF title |
| OpenAlex.VerifyScore | src/main/java/com/cerca/service/OpenAlexService.java:112-149 | a 200 with a hit is written iff its composite of the full title ratio and the author similarity (floor 40) exceeds 50, and that composite is the stored score |
| OpenAlex.EarlierCandidateIgnored | src/main/java/com/cerca/service/OpenAlexService.java:123-130 | the earlier candidate plays no part, so a hit above 50 overwrites even a better earlier one |
| OpenAlex.IdentifierIgnored | src/main/java/com/cerca/service/OpenAlexService.java:86-89 | the DOI OpenAlex returns never affects the outcome |
| Zenodo.Verify | src/main/java/com/cerca/service/ZenodoService.java:32-63 | no search term means no request. Otherwise one request with the cleaned term. A write needs a 200 with a hit and non-null PDF title and authors, and gives a score in (50, 100], PASS iff > 75. On a 200 with a first hit it is written iff its floor-40 composite exceeds 50, and that composite is stored |
| Zenodo.ShortTitleSearchedRawScoredFull | src/main/java/com/cerca/service/ZenodoService.java:93-99 | a short title that is not the sentinel is searched by raw text but scored with the full ratio against the short title |
| Zenodo.SentinelScoredPartial | src/main/java/com/cerca/service/ZenodoService.java:93-108 | with the "Unknown Title" sentinel the hit is scored with the partial ratio against the raw text |
| SemanticScholar.RateLimitedCount | src/main/java/com/cerca/service/SemanticScholarService.java:91-98 | at most one 429 per request |
| SemanticScholar.Tries | src/main/java/com/cerca/service/SemanticScholarService.java:61-110 | from attempt `a`, at most 3 - a requests, and at least one while an attempt is left |
| SemanticScholar.TriesNumbered | src/main/java/com/cerca/service/SemanticScholarService.java:61-87 | the requests are numbered consecutively from the starting attempt, all with the same cleaned term |
| SemanticScholar.TriesStop | src/main/java/com/cerca/service/SemanticScholarService.java:89-105 | every reply but the last was a 429, another code or an exception; the loop ends before its last attempt only on a 200 or a 403 |
| SemanticScholar.TriesSleepCount | src/main/java/com/cerca/service/SemanticScholarService.java:66-98 | one sleep per request plus one more per 429 |
| SemanticScholar.TriesBackoff | src/main/java/com/cerca/service/SemanticScholarService.java:66-98 | the sleep before attempt k is the starting wait times 2^n, n the number of 429s among the earlier replies, and a 429 to attempt k repeats that sleep once |
| SemanticScholar.TriesWaits | src/main/java/com/cerca/service/SemanticScholarService.java:66-98 | the sleeps start at the current wait, never decrease and never fall below it, and follow that doubling back-off |
| SemanticScholar.Settle | src/main/java/com/cerca/service/SemanticScholarService.java:89-111 | found only when the last reply was a 200, and then the outcome is that body's parse result; otherwise the record is untouched. A found record scores above 50, is PASS above 75 and CHECK otherwise, and verified is set only above 75. On a 200 with a first hit it is found iff that hit's floor-40 composite exceeds 50, and that composite is stored |
| SemanticScholar.Verify | src/main/java/com/cerca/service/SemanticScholarService.java:43-59 | an empty API key or no search term sends nothing, sleeps nothing and leaves the record as it was. A record that is not found is unchanged. A found one scores above 50, is PASS above 75 and CHECK otherwise, and verified is set only above 75 |
| SemanticScholar.VerifyOutcome | src/main/java/com/cerca/service/SemanticScholarService.java:154-186 | with a key and a search term at least one request is sent; a found record had a 200 last, and on a 200 with a first hit the record is found iff the hit's floor-40 composite of title and author similarity exceeds 50, with that composite stored |
| SemanticScholar.VerifyRequests | src/main/java/com/cerca/service/SemanticScholarService.java:50-98 | with a key and a search term, 1 to 3 requests numbered from 0 with the cleaned term; one sleep per request plus one per 429, the first of 3000, never decreasing; the sleep before attempt k is 3000 times 2^n for the n earlier 429s, repeated once after a 429 |
| SemanticScholar.BackoffThenSuccess | src/main/java/com/cerca/service/SemanticScholarService.java:91-98 | 429, 429 then a good 200 sleeps 3000, 3000, 6000, 6000, 12000 and is found |
| SemanticScholar.ForbiddenStopsAtOnce | src/main/java/com/cerca/service/SemanticScholarService.java:99-102 | a 403 stops after one request and one sleep, not found |
| SemanticScholar.ExhaustedAfterThree | src/main/java/com/cerca/service/SemanticScholarService.java:103-111 | three other failures give three requests, three sleeps of 3000, not found |
| SemanticScholar.ExternalIdIgnored | src/main/java/com/cerca/service/SemanticScholarService.java:140-152 | the DOI, arXiv id and url of a hit never affect the outcome |
| RefParser.DigitRun | src/main/java/com/cerca/utils/ReferenceParser.java:40 | the maximal run of digits at a position |
| RefParser.SpaceRun | src/main/java/com/cerca/utils/ReferenceParser.java:40 | the maximal run of `\s` characters at a position |
| RefParser.MatchLabel | src/main/java/com/cerca/utils/ReferenceParser.java:40 | the regex `^[\[\(]?\d+[\]\)]?[.,:]?\s*` matches iff the text starts with a digit, or with '[' or '(' followed by a digit; the match lies within the text |
| RefParser.MatchLabelShape | src/main/java/com/cerca/utils/ReferenceParser.java:40 | the match is an optional bracket, at least one digit, an optional closer, optional punctuation, then all following spaces |
| RefParser.MatchLabelGreedy | src/main/java/com/cerca/utils/ReferenceParser.java:40 | each part of the match is greedy: the digit run is not followed by a digit, a missing closer is not followed by one, and missing punctuation is not followed by '.', ',' or ':' |
| RefParser.StripLabel | src/main/java/com/cerca/utils/ReferenceParser.java:40 | exactly the matched label is removed: the text after the match when the label pattern matches, the text unchanged otherwise. A text not starting with a bracket or digit is unchanged |
| RefParser.BracketedLabelStripped | src/test/java/com/cerca/utils/ReferenceParserTest.java:23 | "[80] N. Rytilä" loses its "[80] " label |
| RefParser.LeadingYearStripped | src/main/java/com/cerca/utils/ReferenceParser.java:40 | a leading "2020. " is stripped as a label too |
| RefParser.FinalTerminator | src/main/java/com/cerca/utils/ReferenceParser.java:72 | the final line terminator before which `$` also matches is at most two characters long |
| RefParser.PunctRunBefore | src/main/java/com/cerca/utils/ReferenceParser.java:72 | the maximal run of '.', ',' and ';' ending at a position |
| RefParser.StripTrailingPunct | src/main/java/com/cerca/utils/ReferenceParser.java:72 | removes exactly the maximal punctuation run at the end, or before a final line terminator. Without a terminator the result does not end in such punctuation |
| RefParser.Clean | src/main/java/com/cerca/utils/ReferenceParser.java:70-73 | null gives "". Otherwise the trailing punctuation run is removed and the rest trimmed, so the result has no leading or trailing trimmable characters |
| RefParser.CleanExample | src/main/java/com/cerca/utils/ReferenceParser.java:72 | "A title.,;" and "A title ;" both clean to "A title" |
| RefParser.Parse | src/main/java/com/cerca/utils/ReferenceParser.java:35-67 | a blank input gives ("Unknown", "Unknown"). Authors are non-null iff the model gives a non-empty list, joined by ", ". The title is the model's title, or the cleaned line when the model has none or an empty one; either way it goes through `clean` |
| RefParser.UnlabelledLineOnlyTrimmed | src/main/java/com/cerca/utils/ReferenceParser.java:40 | a line starting with neither bracket nor digit reaches the model merely trimmed |
| Cermine.EntryTitle | src/main/java/com/cerca/service/CermineService.java:46-47 | a missing title becomes "Unknown Title"; a present one is kept |
| Cermine.EntryAuthors | src/main/java/com/cerca/service/CermineService.java:53-56 | no authors gives "Unknown Authors". One author is itself. Otherwise the authors are "; "-joined |
| Cermine.Extract | src/main/java/com/cerca/service/CermineService.java:40-66 | one record per entry, in order, ids 1..n, WAITING. The record carries the entry's text and DOI (possibly null), its title and author line, and the new-record defaults |
| Cermine.ExtractedFieldsNeverNull | src/main/java/com/cerca/service/CermineService.java:46-56 | extracted records never carry null authors or title |
| Cermine.ExtractAppend | src/main/java/com/cerca/service/CermineService.java:59-66 | one more entry adds its record at the end with the next id |
| Controller.Run | src/main/java/com/cerca/controller/MainController.java:307-324 | no adapter changes a record's source fields |
| Controller.Stage | src/main/java/com/cerca/controller/MainController.java:312-325 | a later source runs iff the current score is below 75 (and, for Zenodo, the raw text mentions "zenodo"); otherwise nothing happens |
| Controller.StageFollows | src/main/java/com/cerca/controller/MainController.java:312-325 | one more stage keeps the cascade well-formed: source order, each call on the previous result, eligibility, source fields kept |
| Controller.StagesFollow | src/main/java/com/cerca/controller/MainController.java:312-325 | the three later stages, in order, keep the cascade well-formed |
| Controller.StagesGate | src/main/java/com/cerca/controller/MainController.java:312-325 | OpenAlex ran iff Crossref left the score below 75. A skipped Zenodo (for a citation mentioning it) or a skipped Semantic Scholar means the final score is at least 75 |
| Controller.CascadeOf | src/main/java/com/cerca/controller/MainController.java:301-325 | Crossref runs first, exactly once, on the record marked SEARCHING; later sources follow in order, each on the previous result, only while eligible, and the source fields are kept. OpenAlex runs iff Crossref left the score below 75. A skipped Zenodo (for a citation mentioning it) or a skipped Semantic Scholar means the final score is at least 75 |
| Controller.VerifyOne | src/main/java/com/cerca/controller/MainController.java:301-334 | the record goes through that cascade, then verified := score ≥ 75 through the listener. So afterwards verified holds iff the score is at least 75, and the source fields are kept |
| Controller.RunKeepsInvariant | src/main/java/com/cerca/controller/MainController.java:307-324 | every adapter keeps the score in 0..100 and sets verified only with PASS above 75 |
| Controller.TrailInvariant | src/main/java/com/cerca/controller/MainController.java:301-325 | along the cascade, scores stay in range and verified follows only a PASS |
| Controller.FreshPassIsPass | src/main/java/com/cerca/controller/MainController.java:327-334 | an unverified record that ends at 75 or more is PASS and verified |
| Controller.CrossrefAloneSuffices | src/main/java/com/cerca/controller/MainController.java:312 | when Crossref already gives 75, no other source is asked |
| Controller.ZenodoOnlyWhenMentioned | src/main/java/com/cerca/controller/MainController.java:318-320 | a citation that does not mention Zenodo never reaches it |
| Controller.VerifyEach | src/main/java/com/cerca/controller/MainController.java:301-342 | every record goes through the cascade, in list order; afterwards verified iff score ≥ 75 |
| Controller.Tally | src/main/java/com/cerca/controller/MainController.java:352-358 | passed = number of verified records, and passed + failed = total, both in 0..total |
| Controller.Dashboard | src/main/java/com/cerca/controller/MainController.java:268-282 | an empty list shows nothing. Otherwise the tally |
| Controller.VerifyAll | src/main/java/com/cerca/controller/MainController.java:293-365 | an empty list is left alone with no dashboard. Otherwise every record goes through the cascade and the dashboard shows their tally |
| Controller.CountVerifiedByScore | src/main/java/com/cerca/controller/MainController.java:327-334 | when verified means score ≥ 75, the verified count is the number of scores ≥ 75 |
| Controller.PassedCountsHighScores | src/main/java/com/cerca/controller/MainController.java:351-358 | after verifyAll, "passed" is the number of records scoring at least 75 |
| Controller.Toggle | src/main/java/com/cerca/controller/MainController.java:284-290 | ticking a box changes that record's verified and no other record |
| Controller.ToggleCount | src/main/java/com/cerca/controller/MainController.java:268-290 | ticking an unticked box adds one to passed, unticking a ticked one removes one, and otherwise the count stays |
| Controller.DashboardExample | src/main/java/com/cerca/controller/MainController.java:274-280 | five records with three verified give total 5, passed 3, failed 2 |
| Text.IndexOf | src/main/java/com/cerca/controller/MainController.java:410 | the position of the first occurrence of the character: none before it, and it is the end of the text iff the character does not occur |
| Controller.Pieces | src/main/java/com/cerca/controller/MainController.java:410 | the pieces between "\r?\n" separators: at least one, none contains '\n'; each is the text up to a '\n' less a final '\r' (DropCarriageReturn) |
| Controller.PiecesJoin | src/main/java/com/cerca/controller/MainController.java:410 | for every text, joining the pieces with '\n' gives the text with each '\r' that stands right before a '\n' deleted (Controller.DropCrBeforeNl, defined character by character), so nothing else is lost or reordered |
| Controller.PiecesRejoin | src/main/java/com/cerca/controller/MainController.java:410 | without '\r', joining the pieces with '\n' gives back the text |
| Controller.DropTrailingEmpty | src/main/java/com/cerca/controller/MainController.java:410 | removes exactly the trailing empty pieces |
| Controller.SplitLines | src/main/java/com/cerca/controller/MainController.java:410 | a text without '\n' comes back as the single line itself (empty text included); otherwise the lines are the pieces with the trailing empty ones dropped. No line contains '\n' |
| Controller.Kept | src/main/java/com/cerca/controller/MainController.java:413-416 | every kept line has trimmed length ≥ 5, and no more lines come out than went in |
| Controller.KeptMembers | src/main/java/com/cerca/controller/MainController.java:413-416 | exactly the lines with trimmed length ≥ 5 are kept: each such line is among the kept ones, and every kept one was a pasted line |
| Controller.KeptAppend | src/main/java/com/cerca/controller/MainController.java:413-416 | kept lines stay in their original order |
| Controller.ManualLines | src/main/java/com/cerca/controller/MainController.java:410-416 | the lines are exactly the kept lines of the split text: each has trimmed length ≥ 5 and no '\n' |
| Controller.LoadManual | src/main/java/com/cerca/controller/MainController.java:405-428 | the list is replaced by one record per kept line of the split text (Controller.NumberedRecords), ids 1..k in order. Record i has the i-th kept line, untrimmed, as raw text, WAITING, DOI "", empty database title and authors, and the new-record defaults |
| Controller.ManualItem | src/main/java/com/cerca/controller/MainController.java:418-421 | the record for line i has id i + 1, the line as raw text, WAITING, DOI "", not verified, score 0, and empty database title and authors |
| Controller.ManualRecordParsed | src/main/java/com/cerca/controller/MainController.java:418-421 | each pasted record carries the authors and title the parser made of its line |
| Controller.ManualRecordsSearchByText | src/main/java/com/cerca/controller/MainController.java:420-421 | a pasted record's DOI is "", so Crossref never tries the identifier lookup for it |
| Report.FirstWord | src/main/java/com/cerca/service/ReportService.java:95 | `split(" ")[0]` fails iff the text is all spaces. Otherwise it is the prefix before the first space |
| Report.RemoveCommas | src/main/java/com/cerca/service/ReportService.java:95 | no commas remain. A text without commas is unchanged |
| Report.ByScore | src/main/java/com/cerca/service/ReportService.java:101-106 | below 50, TITLE MISMATCH with diff 100 − score; otherwise LOW CONFIDENCE |
| Report.Diagnose | src/main/java/com/cerca/service/ReportService.java:80-107 | NO MATCH iff the database title is empty, taking precedence over everything. DOI HIJACKING iff a non-empty DOI and score < 40. A null-pointer failure iff the PDF authors are null. An index failure iff they are spaces only with score > 60. AUTHOR MISMATCH iff score > 60, both author strings are non-empty, and the first lower-cased PDF author word without commas is not in the database authors. TITLE MISMATCH and LOW CONFIDENCE split at 50 |
| Report.ModerateScoreLowConfidence | src/main/java/com/cerca/service/ReportService.java:94-106 | a matched record scoring 50..60 gets LOW CONFIDENCE |
| Report.PrefixContained | src/main/java/com/cerca/service/ReportService.java:96 | a prefix of a string is contained in it |
| Report.SameAuthorsNoMismatch | src/main/java/com/cerca/service/ReportService.java:91-99 | identical comma-free author strings never give AUTHOR MISMATCH |
| Report.Reviewed | src/main/java/com/cerca/service/ReportService.java:43-45 | exactly the records with score < 80 that are not verified get a block |
| Report.ReviewedAppend | src/main/java/com/cerca/service/ReportService.java:43-45 | the filter keeps list order and multiplicity: a record added at the end is reviewed at the end, or not at all |
| Report.ReviewedAtMostUnverified | src/main/java/com/cerca/service/ReportService.java:16-18 | the blocks are at most "review needed" (total − verified) |
| Report.ReviewedAllUnverified | src/main/java/com/cerca/service/ReportService.java:16-45 | when every score is below 80, the blocks number exactly total − verified |
| Report.NothingReviewedWhenAllVerified | src/main/java/com/cerca/service/ReportService.java:39-40 | with every record verified no block is emitted |
| Report.BlockOf | src/main/java/com/cerca/service/ReportService.java:46-66 | the block shows id, diagnosis, PDF title and authors. The database part appears iff the database title is non-empty, and the DOI line iff the DOI is non-empty |
| Report.Blocks | src/main/java/com/cerca/service/ReportService.java:43-70 | the blocks fail iff some record's diagnosis fails; otherwise one block per record, in order |
| Report.Build | src/main/java/com/cerca/service/ReportService.java:13-70 | the summary is total, verified and total − verified, summing up. Review needed 0 means no blocks. Block k is the block of the k-th filtered record built with that record's diagnosis (id, texts and reasons), and the filter keeps list order (Report.ReviewedAppend). The export aborts iff a filtered record's diagnosis fails |
| Report.NullAuthorsAbort | src/main/java/com/cerca/service/ReportService.java:91 | one filtered record with a title match, no hijack and null authors aborts the whole export |
| Report.Export | src/main/java/com/cerca/service/ReportService.java:13-78 | the report is written iff no record that needs review has a diagnosis that throws. The written summary counts all records, the verified ones and the rest; block k of the written diagnostics is the block of the k-th record needing review, built with its diagnosis |
| Csv.DoubleChars | src/main/java/com/cerca/service/CsvService.java:49 | doubling quotes keeps the set of characters, and leaves a quote-free text unchanged |
| Csv.HalveDouble | src/main/java/com/cerca/service/CsvService.java:49 | halving doubled quotes gives back the original |
| Csv.Escape | src/main/java/com/cerca/service/CsvService.java:47-54 | null gives "". The quote-doubled text is wrapped in quotes iff it contains ',', '"' or '\n'; otherwise the text is unchanged |
| Csv.EscapeRoundTrip | src/main/java/com/cerca/service/CsvService.java:49-53 | unwrapping and halving quotes recovers the original (null as "") |
| Csv.SemicolonNotQuoted | src/main/java/com/cerca/service/CsvService.java:50 | "A; B" is written unquoted although ';' is the row delimiter |
| Csv.Values | src/main/java/com/cerca/service/CsvService.java:21-38 | the nine values a row stands for, in header order, null as "" |
| Csv.Fields | src/main/java/com/cerca/service/CsvService.java:27-38 | nine fields; verified and score are written raw, the others through escapeCsv |
| Csv.Export | src/main/java/com/cerca/service/CsvService.java:17-44 | the file starts with the header line |
| Csv.ExportAppend | src/main/java/com/cerca/service/CsvService.java:24-42 | rows follow the records in list order, each ended by the line separator |
| Csv.ParseRow | src/main/java/com/cerca/service/CsvService.java:21 | a row reader for the `;`-separated, '"'-quoted format always yields at least one field |
| Csv.BareCut | src/main/java/com/cerca/service/CsvService.java:53 | a field without ';' is read back up to the next delimiter |
| Csv.QuotedCut | src/main/java/com/cerca/service/CsvService.java:49-51 | a quoted, quote-doubled field is read back exactly |
| Csv.EscapeField | src/main/java/com/cerca/service/CsvService.java:47-54 | corrected escapeCsv: it also quotes a ';'. It agrees with escapeCsv on every text without ';' |
| Csv.FieldCut | src/main/java/com/cerca/service/CsvService.java:47-54 | every field escaped the corrected way is read back exactly |
| Csv.RowRoundTrip | src/main/java/com/cerca/service/CsvService.java:27-38 | fields escaped the corrected way and joined with ';' read back as the same fields |
| Csv.CorrectedRow | src/main/java/com/cerca/service/CsvService.java:27-38 | corrected row: reading it back gives the nine values |
| Csv.RowAgreesWithoutSemicolons | src/main/java/com/cerca/service/CsvService.java:27-38 | when no value contains ';', the row as written equals the corrected row |
| Csv.RowRoundTripWithoutSemicolons | src/main/java/com/cerca/service/CsvService.java:27-38 | when no value contains ';', the row as written reads back as its nine values |
| Csv.SemicolonSplitsRow | src/main/java/com/cerca/service/CsvService.java:36 | database authors "A; B" make the row read back as ten fields: "A" and " B" |
| Text.Trim | src/main/java/com/cerca/utils/ReferenceParser.java:40 | `trim` gives an infix, starting after the leading characters ≤ ' ', that neither starts nor ends with such a character; it gives "" iff all are such |
| Text.TrimRemovesOnlyTrimmable | src/main/java/com/cerca/utils/ReferenceParser.java:40 | every character `trim` removes, before and after the infix it keeps, is ≤ ' ', so it keeps exactly the text between the first and the last other character |
| Text.ToLower | src/main/java/com/cerca/controller/MainController.java:318 | same length, with the ASCII capitals lower-cased character by character and everything else kept |
| Text.IntToString | src/main/java/com/cerca/service/CsvService.java:27-30 | a '-' sign iff negative, then digits only |
| Text.NatToStringRoundTrip | src/main/java/com/cerca/service/CsvService.java:30 | reading the decimal digits of a score back gives the score |
| Text.AccumulateIsJoin | src/main/java/com/cerca/service/OpenAlexService.java:92-106 | the `StringBuilder` loop with a separator before each non-first part equals `String.join` when no part is empty |

## Left out

- HTTP, URL encoding and JSON parsing: a response is an abstract status code and body. The User-Agent header, the `mailto` addresses and the API key header are not modelled.
- The similarity library (`FuzzySearch`): three functions into 0..100, nothing more is known about them. A null argument is taken to throw.
- Floating point: the composite `(int)(t*0.6 + a*0.4)` is the integer `(6t + 4a) / 10`. They can differ where the double product rounds just below an integer. The dashboard's pass-rate percentage is float and is not modelled.
- Threading: `CompletableFuture`, and the `Platform.runLater` updates (the SEARCHING... status, the search adapters' write-backs, the final setVerified) are applied at once, in program order. In the program the cascade's score checks can race with write-backs still queued.
- Thread.sleep: the sleeps are returned as a list of durations. The 150 ms pause between records in verifyAll is not modelled.
- The JavaFX UI (MainView, dialogs, statusColor, progress bar, labels), App, LogService and ConfigService are not modelled. The log lines carry no logic.
- The CERMINE PDF extractor and the CRF reference model are foreign. The extractor's output is a list of entries; the CRF model is a parameter. The parser test's expected author strings come from the CRF model and cannot be stated.
- Report.Export: returns the document (clock reading, file name, summary and blocks); its characters are `Document.Text()`, and no property of the rendered text is proved.
- RefParser.Parse: a CRF exception raised after the authors were read would keep those authors with the fallback title; the model treats a model call as all or nothing.
- `setEmail` calls on the adapters (MainController.java:80-81) are not modelled, since the adapters define no such method.
- exportData's file dialog and the choice between report and CSV by file extension are not modelled; the report export returns the document it renders, the CSV export returns its text.
- Lower-casing is ASCII-only; Java's `toLowerCase` also maps non-ASCII letters.
- Lengths count characters (Unicode scalar values); Java's `length()` and `substring` count UTF-16 code units. The results differ only for text outside the Basic Multilingual Plane, and the affected members are listed below.
- Crossref.QueryTerm: the 200 cut counts characters, not UTF-16 code units, so it never splits a surrogate pair as `substring(0, 200)` can.
- OpenAlex.Verify: the length ≥ 5 guard on the PDF title counts characters, not UTF-16 code units.
- Wire.SearchTerm: the length ≥ 5 guards on the PDF title and the raw text count characters, not UTF-16 code units.
- Controller.Kept: the trimmed length ≥ 5 filter counts characters, not UTF-16 code units.
- The PASS label that OpenAlex and Semantic Scholar write is garbled in the source encoding ("âœ… PASS"). It is modelled as the same PASS status the other adapters use.
- rawText is never null in the records the program builds, so it is a plain string. A null `rawReference` in `parse` cannot arise from loadManualReferences.
- ReferenceItem.markNotFound is never called by the program; it is modelled with its corrected version (see Findings) but nothing calls either.

## Findings

| source | as written | input that shows it | evidently intended | confidence | as-written member | corrected member |
|---|---|---|---|---|---|---|
| src/main/java/com/cerca/service/CsvService.java:50 | fields are quoted only for ',', '"' or '\n', though the row delimiter is ';' | database authors "A; B" (the "; " join every search adapter writes) give a row of ten fields, with "A" and " B" in separate columns | a field containing ';' is quoted too, so every row reads back as its nine values | high, not executed | Csv.SemicolonSplitsRow | Csv.CorrectedRow |
| src/main/java/com/cerca/model/ReferenceItem.java:163-168 | markNotFound sets NOT FOUND and then calls setVerified(true), whose listener overwrites the status with PASS | any record not yet verified, e.g. a fresh one: it ends PASS with score 0 | the record ends verified with score 0 and status NOT FOUND | high, not executed | Record.MarkNotFoundLosesStatus | Record.MarkNotFoundKeepingStatus |

=== FILE: cermine.dfy ===
/**
  CermineService: one record per bibliography entry the PDF extractor
  found. The extractor itself is outside this model; its output is a
  sequence of entries, each with the raw text and the optional fields the
  service reads.
 */
module Cermine {
  import opened Text
  import opened Scoring
  import opened Record

  /** What the service reads from one extracted entry: the raw text, the
      first title and DOI values (possibly null) and the author values. */
  datatype BibEntry = BibEntry(text: string, title: Option<string>, doi: Option<string>, authors: seq<string>)

  /** Stands in for the authors when the extractor found none. */
  const UnknownAuthors: string := "Unknown Authors"

  /** The title of an entry, the "Unknown Title" sentinel when it has none. */
  function EntryTitle(e: BibEntry): (t: string)
    ensures e.title.None? ==> t == UnknownTitle
    ensures e.title.Some? ==> t == e.title.value
  {
    e.title.GetOr(UnknownTitle)
  }

  /** The authors of an entry joined by "; ", the sentinel when there are none. */
  function EntryAuthors(e: BibEntry): (a: string)
    ensures |e.authors| == 0 ==> a == UnknownAuthors
    ensures |e.authors| == 1 ==> a == e.authors[0]
    ensures |e.authors| > 0 ==> a == Join(e.authors, "; ")
  {
    if |e.authors| == 0 then UnknownAuthors else Join(e.authors, "; ")
  }

  /** The record built for the entry at position `index` (ids count from 1). */
  function ToItem(e: BibEntry, index: nat): Item {
    New(index + 1, Waiting, Some(EntryAuthors(e)), Some(EntryTitle(e)), e.text, e.doi)
  }

  /** extractReferences after the extraction: one record per entry, in order. */
  function Extract(entries: seq<BibEntry>): (items: seq<Item>)
    ensures |items| == |entries|
    ensures forall i :: 0 <= i < |entries| ==> items[i].id == i + 1
    ensures forall i :: 0 <= i < |entries| ==>
      items[i].status == Waiting && items[i].rawText == entries[i].text && items[i].doi == entries[i].doi
    ensures forall i :: 0 <= i < |entries| ==>
      items[i].pdfTitle == Some(EntryTitle(entries[i])) && items[i].authors == Some(EntryAuthors(entries[i]))
    ensures forall i :: 0 <= i < |entries| ==>
      items[i].matchScore == 0 && !items[i].verified && items[i].dbTitle == "" && items[i].dbAuthors == ""
  {
    seq(|entries|, i requires 0 <= i < |entries| => ToItem(entries[i], i))
  }

  /** The extractor's records never carry null authors or a null title, so
      the adapters that dereference them never throw on these records. */
  lemma ExtractedFieldsNeverNull(entries: seq<BibEntry>)
    ensures forall it :: it in Extract(entries) ==> it.authors.Some? && it.pdfTitle.Some?
  {
    var items := Extract(entries);
    forall it | it in items
      ensures it.authors.Some? && it.pdfTitle.Some?
    {
      var i :| 0 <= i < |items| && items[i] == it;
    }
  }

  /** Appending an entry appends its record with the next id. */
  lemma ExtractAppend(entries: seq<BibEntry>, e: BibEntry)
    ensures Extract(entries + [e]) == Extract(entries) + [ToItem(e, |entries|)]
  {
    var a := Extract(entries + [e]);
    var b := Extract(entries) + [ToItem(e, |entries|)];
    assert |a| == |b|;
    forall i | 0 <= i < |a|
      ensures a[i] == b[i]
    {
      if i < |entries| {
        assert (entries + [e])[i] == entries[i];
      }
    }
  }
}

=== FILE: controller.dfy ===
/**
  MainController: the verification cascade over the loaded records, the
  dashboard counts, and the manual entry of pasted citations. Updates that
  the program defers to the UI thread are applied in program order here.
 */
module Controller {
  import opened Text
  import opened Scoring
  import opened Record
  import opened Wire
  import Crossref
  import OpenAlex
  import Zenodo
  import SemanticScholar
  import RefParser

  /** The score at which the cascade stops and the record counts as verified. */
  const CascadeThreshold: int := 75

  datatype Source = CrossrefSource | OpenAlexSource | ZenodoSource | ScholarSource {
    /** The position of the source in the cascade. */
    function Rank(): int {
      match this
      case CrossrefSource => 0
      case OpenAlexSource => 1
      case ZenodoSource => 2
      case ScholarSource => 3
    }
  }

  /** The lower-cased raw citation mentions "zenodo". */
  predicate MentionsZenodo(it: Item) {
    Contains(ToLower(it.rawText), "zenodo")
  }

  /** One adapter call on the record. */
  function Run(src: Source, it: Item, send: Network, fz: Fuzzy, apiKey: string): (v: Visit)
    ensures SameSource(v.item, it)
  {
    match src
    case CrossrefSource => Crossref.Verify(it, send, fz)
    case OpenAlexSource => OpenAlex.Verify(it, send, fz)
    case ZenodoSource => Zenodo.Verify(it, send, fz)
    case ScholarSource => SemanticScholar.Verify(it, send, fz, apiKey)
  }

  /** A later source runs while the score is below 75; Zenodo also needs a
      raw citation that mentions it. */
  predicate Eligible(src: Source, it: Item) {
    it.matchScore < CascadeThreshold && (src == ZenodoSource ==> MentionsZenodo(it))
  }

  /** The sources called so far, and the record before each call and after
      the last one. */
  datatype Cascade = Cascade(called: seq<Source>, trail: seq<Item>) {
    predicate Valid() {
      |trail| == |called| + 1
    }

    function Current(): Item
      requires Valid()
    {
      trail[|trail| - 1]
    }
  }

  /** One conditional step of the cascade. */
  function Stage(c: Cascade, src: Source, send: Network, fz: Fuzzy, apiKey: string): (r: Cascade)
    requires c.Valid()
    ensures r.Valid()
    ensures Eligible(src, c.Current()) ==>
      r == Cascade(c.called + [src], c.trail + [Run(src, c.Current(), send, fz, apiKey).item])
    ensures !Eligible(src, c.Current()) ==> r == c
  {
    if Eligible(src, c.Current()) then
      Cascade(c.called + [src], c.trail + [Run(src, c.Current(), send, fz, apiKey).item])
    else c
  }

  /** A record after the cascade, with the cascade that produced it. */
  datatype Checked = Checked(item: Item, cascade: Cascade)

  /** The record's `verified` was set only by a source that scored above 75
      and marked it PASS, unless it was verified to begin with. */
  predicate VerifiedByScore(it: Item, wasVerified: bool) {
    it.verified ==> wasVerified || (it.status == Pass && it.matchScore > PassThreshold)
  }

  /** The sources are called in strictly increasing cascade order. */
  predicate InOrder(called: seq<Source>) {
    forall i, j :: 0 <= i < j < |called| ==> called[i].Rank() < called[j].Rank()
  }

  /** Each source was called on the record the previous one left. */
  predicate Chained(c: Cascade, send: Network, fz: Fuzzy, apiKey: string)
    requires c.Valid()
  {
    forall k :: 0 <= k < |c.called| ==> c.trail[k + 1] == Run(c.called[k], c.trail[k], send, fz, apiKey).item
  }

  /** Every source after the first was eligible when it was called. */
  predicate Gated(c: Cascade)
    requires c.Valid()
  {
    forall k :: 1 <= k < |c.called| ==> Eligible(c.called[k], c.trail[k])
  }

  /** Nothing but the candidate fields changed along the trail. */
  predicate KeptSource(c: Cascade, it: Item) {
    forall k :: 0 <= k < |c.trail| ==> SameSource(c.trail[k], it)
  }

  /** `c` is a run of the cascade on `it`: Crossref first on the record
      marked SEARCHING, then sources in cascade order, each called on the
      record the previous one left, each later one only while eligible;
      nothing but the candidate fields changes along the way. */
  predicate Follows(c: Cascade, it: Item, send: Network, fz: Fuzzy, apiKey: string) {
    c.Valid() && |c.called| >= 1 && c.called[0] == CrossrefSource
    && c.trail[0] == it.(status := Searching)
    && InOrder(c.called) && Chained(c, send, fz, apiKey) && Gated(c) && KeptSource(c, it)
  }

  lemma StageInOrder(called: seq<Source>, src: Source)
    requires InOrder(called)
    requires forall k :: 0 <= k < |called| ==> called[k].Rank() < src.Rank()
    ensures InOrder(called + [src])
  {
    var r := called + [src];
    forall i, j | 0 <= i < j < |r|
      ensures r[i].Rank() < r[j].Rank()
    {
      assert r[i] == called[i];
    }
  }

  lemma StageChained(c: Cascade, src: Source, send: Network, fz: Fuzzy, apiKey: string)
    requires c.Valid() && Chained(c, send, fz, apiKey)
    ensures var r := Cascade(c.called + [src], c.trail + [Run(src, c.Current(), send, fz, apiKey).item]);
      r.Valid() && Chained(r, send, fz, apiKey)
  {
    var n := |c.called|;
    var r := Cascade(c.called + [src], c.trail + [Run(src, c.Current(), send, fz, apiKey).item]);
    forall k | 0 <= k < |r.called|
      ensures r.trail[k + 1] == Run(r.called[k], r.trail[k], send, fz, apiKey).item
    {
      if k < n {
        assert r.trail[k + 1] == c.trail[k + 1] && r.called[k] == c.called[k] && r.trail[k] == c.trail[k];
      }
    }
  }

  lemma StageGated(c: Cascade, src: Source, next: Item)
    requires c.Valid() && Gated(c) && Eligible(src, c.Current())
    ensures var r := Cascade(c.called + [src], c.trail + [next]);
      r.Valid() && Gated(r)
  {
    var n := |c.called|;
    var r := Cascade(c.called + [src], c.trail + [next]);
    forall k | 1 <= k < |r.called|
      ensures Eligible(r.called[k], r.trail[k])
    {
      if k < n {
        assert r.called[k] == c.called[k] && r.trail[k] == c.trail[k];
      }
    }
  }

  lemma StageKeptSource(trail: seq<Item>, it: Item, next: Item)
    requires |trail| >= 1 && KeptSource(Cascade([], trail), it)
    requires SameSource(next, trail[|trail| - 1])
    ensures KeptSource(Cascade([], trail + [next]), it)
  {
    var r := trail + [next];
    forall k | 0 <= k < |r|
      ensures SameSource(r[k], it)
    {
      if k < |trail| {
        assert r[k] == trail[k];
      } else {
        assert SameSource(trail[|trail| - 1], it);
      }
    }
  }

  lemma StageFollows(c: Cascade, src: Source, it: Item, send: Network, fz: Fuzzy, apiKey: string)
    requires Follows(c, it, send, fz, apiKey) && src != CrossrefSource
    requires forall k :: 0 <= k < |c.called| ==> c.called[k].Rank() < src.Rank()
    ensures Follows(Stage(c, src, send, fz, apiKey), it, send, fz, apiKey)
  {
    if Eligible(src, c.Current()) {
      var next := Run(src, c.Current(), send, fz, apiKey).item;
      StageInOrder(c.called, src);
      StageChained(c, src, send, fz, apiKey);
      StageGated(c, src, next);
      assert KeptSource(Cascade([], c.trail), it);
      StageKeptSource(c.trail, it, next);
      assert KeptSource(Cascade(c.called + [src], c.trail + [next]), it);
    }
  }

  /** The three conditional stages after Crossref, as verifyAll orders them. */
  function Stages(c1: Cascade, send: Network, fz: Fuzzy, apiKey: string): (c4: Cascade)
    requires c1.Valid()
    ensures c4.Valid()
  {
    var c2 := Stage(c1, OpenAlexSource, send, fz, apiKey);
    var c3 := Stage(c2, ZenodoSource, send, fz, apiKey);
    Stage(c3, ScholarSource, send, fz, apiKey)
  }

  lemma StagesFollow(c1: Cascade, it: Item, send: Network, fz: Fuzzy, apiKey: string)
    requires Follows(c1, it, send, fz, apiKey) && c1.called == [CrossrefSource]
    ensures Follows(Stages(c1, send, fz, apiKey), it, send, fz, apiKey)
  {
    var c2 := Stage(c1, OpenAlexSource, send, fz, apiKey);
    StageFollows(c1, OpenAlexSource, it, send, fz, apiKey);
    assert forall k :: 0 <= k < |c2.called| ==> c2.called[k].Rank() <= 1;
    var c3 := Stage(c2, ZenodoSource, send, fz, apiKey);
    StageFollows(c2, ZenodoSource, it, send, fz, apiKey);
    assert forall k :: 0 <= k < |c3.called| ==> c3.called[k].Rank() <= 2;
    StageFollows(c3, ScholarSource, it, send, fz, apiKey);
  }

  /** Which sources the stages called, read off the scores they saw. */
  lemma StagesGate(c1: Cascade, it: Item, send: Network, fz: Fuzzy, apiKey: string)
    requires c1.Valid() && c1.called == [CrossrefSource] && c1.Current().rawText == it.rawText
    ensures var c4 := Stages(c1, send, fz, apiKey);
      && c4.trail[1] == c1.trail[1]
      && (OpenAlexSource in c4.called <==> c1.Current().matchScore < CascadeThreshold)
      && (ZenodoSource !in c4.called && MentionsZenodo(it) ==> c4.Current().matchScore >= CascadeThreshold)
      && (ScholarSource !in c4.called ==> c4.Current().matchScore >= CascadeThreshold)
  {
    var c2 := Stage(c1, OpenAlexSource, send, fz, apiKey);
    var c3 := Stage(c2, ZenodoSource, send, fz, apiKey);
    var c4 := Stage(c3, ScholarSource, send, fz, apiKey);
    assert c2.Current().rawText == it.rawText by {
      if Eligible(OpenAlexSource, c1.Current()) {
        assert SameSource(Run(OpenAlexSource, c1.Current(), send, fz, apiKey).item, c1.Current());
      }
    }
    assert OpenAlexSource in c2.called <==> Eligible(OpenAlexSource, c1.Current());
    assert OpenAlexSource in c3.called <==> OpenAlexSource in c2.called;
    assert OpenAlexSource in c4.called <==> OpenAlexSource in c3.called;
  }

  /** The cascade verifyAll runs on one record: Crossref on the record
      marked SEARCHING, then the three conditional stages. */
  function CascadeOf(it: Item, send: Network, fz: Fuzzy, apiKey: string): (c: Cascade)
    ensures Follows(c, it, send, fz, apiKey)
    ensures OpenAlexSource in c.called <==> c.trail[1].matchScore < CascadeThreshold
    ensures ZenodoSource !in c.called && MentionsZenodo(it) ==> c.Current().matchScore >= CascadeThreshold
    ensures ScholarSource !in c.called ==> c.Current().matchScore >= CascadeThreshold
  {
    var s0 := it.(status := Searching);
    var c1 := Cascade([CrossrefSource], [s0, Crossref.Verify(s0, send, fz).item]);
    StagesFollow(c1, it, send, fz, apiKey);
    StagesGate(c1, it, send, fz, apiKey);
    Stages(c1, send, fz, apiKey)
  }

  /** The loop body of verifyAll for one record: the cascade, then
      verified := score >= 75 through the listener. */
  function VerifyOne(it: Item, send: Network, fz: Fuzzy, apiKey: string): (r: Checked)
    ensures Follows(r.cascade, it, send, fz, apiKey)
    ensures r.item == SetVerified(r.cascade.Current(), r.cascade.Current().matchScore >= CascadeThreshold)
    ensures r.item.verified <==> r.item.matchScore >= CascadeThreshold
    ensures SameSource(r.item, it)
  {
    var c := CascadeOf(it, send, fz, apiKey);
    var last := c.Current();
    Checked(SetVerified(last, last.matchScore >= CascadeThreshold), c)
  }

  /** Every adapter keeps the score in range and sets `verified` only with a
      PASS above 75 (or leaves it as it was). */
  lemma RunKeepsInvariant(src: Source, it: Item, send: Network, fz: Fuzzy, apiKey: string, wasVerified: bool)
    requires 0 <= it.matchScore <= 100
    requires src != CrossrefSource ==> it.matchScore < CascadeThreshold
    requires src == CrossrefSource ==> it.verified == wasVerified
    requires VerifiedByScore(it, wasVerified)
    ensures var out := Run(src, it, send, fz, apiKey).item;
      0 <= out.matchScore <= 100 && VerifiedByScore(out, wasVerified)
  {
  }

  /** Scores stay in range and `verified` only follows a PASS, along the trail. */
  lemma TrailInvariant(it: Item, send: Network, fz: Fuzzy, apiKey: string)
    requires 0 <= it.matchScore <= 100
    ensures var c := VerifyOne(it, send, fz, apiKey).cascade;
      forall k :: 1 <= k < |c.trail| ==> 0 <= c.trail[k].matchScore <= 100 && VerifiedByScore(c.trail[k], it.verified)
  {
    var c := VerifyOne(it, send, fz, apiKey).cascade;
    var k := 0;
    while k < |c.called|
      invariant 0 <= k <= |c.called|
      invariant forall j :: 1 <= j <= k ==> 0 <= c.trail[j].matchScore <= 100 && VerifiedByScore(c.trail[j], it.verified)
    {
      if k == 0 {
        RunKeepsInvariant(CrossrefSource, c.trail[0], send, fz, apiKey, it.verified);
      } else {
        RunKeepsInvariant(c.called[k], c.trail[k], send, fz, apiKey, it.verified);
      }
      k := k + 1;
    }
  }

  /** A record that was not verified before and reaches 75 ends as PASS. */
  lemma FreshPassIsPass(it: Item, send: Network, fz: Fuzzy, apiKey: string)
    requires !it.verified && 0 <= it.matchScore <= 100
    ensures var r := VerifyOne(it, send, fz, apiKey).item;
      r.matchScore >= CascadeThreshold ==> r.status == Pass && r.verified
  {
    TrailInvariant(it, send, fz, apiKey);
  }

  /** When Crossref already reaches 75, no other source is asked. */
  lemma CrossrefAloneSuffices(it: Item, send: Network, fz: Fuzzy, apiKey: string)
    requires Crossref.Verify(it.(status := Searching), send, fz).item.matchScore >= CascadeThreshold
    ensures VerifyOne(it, send, fz, apiKey).cascade.called == [CrossrefSource]
  {
  }

  /** A raw citation that never mentions Zenodo never reaches Zenodo. */
  lemma ZenodoOnlyWhenMentioned(it: Item, send: Network, fz: Fuzzy, apiKey: string)
    requires !MentionsZenodo(it)
    ensures ZenodoSource !in VerifyOne(it, send, fz, apiKey).cascade.called
  {
  }

  /** The records after the loop of verifyAll, in list order. */
  function VerifyEach(items: seq<Item>, send: Network, fz: Fuzzy, apiKey: string): (r: seq<Item>)
    ensures |r| == |items|
    ensures forall i :: 0 <= i < |items| ==> r[i] == VerifyOne(items[i], send, fz, apiKey).item
    ensures forall i :: 0 <= i < |items| ==> (r[i].verified <==> r[i].matchScore >= CascadeThreshold)
    ensures forall i :: 0 <= i < |items| ==> SameSource(r[i], items[i])
  {
    seq(|items|, i requires 0 <= i < |items| => VerifyOne(items[i], send, fz, apiKey).item)
  }

  /** The dashboard numbers. */
  datatype Summary = Summary(total: int, passed: int, failed: int)

  /** total, passed = the verified records, failed = the rest. */
  function Tally(items: seq<Item>): (s: Summary)
    ensures s.total == |items| && s.passed == CountVerified(items)
    ensures s.passed + s.failed == s.total
    ensures 0 <= s.passed <= s.total && 0 <= s.failed <= s.total
  {
    Summary(|items|, CountVerified(items), |items| - CountVerified(items))
  }

  /** recalculateDashboard: nothing to show for an empty list. */
  function Dashboard(items: seq<Item>): (s: Option<Summary>)
    ensures s.None? <==> |items| == 0
    ensures s.Some? ==> s.value == Tally(items)
  {
    if |items| == 0 then None else Some(Tally(items))
  }

  /** The records and the dashboard after verifyAll. */
  datatype Batch = Batch(items: seq<Item>, summary: Option<Summary>)

  /** verifyAll: nothing happens for an empty list; otherwise every record
      goes through the cascade and the dashboard shows the counts. */
  function VerifyAll(items: seq<Item>, send: Network, fz: Fuzzy, apiKey: string): (b: Batch)
    ensures |items| == 0 ==> b == Batch(items, None)
    ensures |items| > 0 ==> b.items == VerifyEach(items, send, fz, apiKey) && b.summary == Some(Tally(b.items))
  {
    if |items| == 0 then Batch(items, None)
    else
      var done := VerifyEach(items, send, fz, apiKey);
      Batch(done, Dashboard(done))
  }

  /** The number of records scoring at least `bound`. */
  function CountAtLeast(items: seq<Item>, bound: int): (n: nat)
    ensures n <= |items|
    decreases |items|
  {
    if |items| == 0 then 0
    else (if items[0].matchScore >= bound then 1 else 0) + CountAtLeast(items[1..], bound)
  }

  lemma {:induction false} CountVerifiedByScore(items: seq<Item>)
    requires forall i :: 0 <= i < |items| ==> (items[i].verified <==> items[i].matchScore >= CascadeThreshold)
    ensures CountVerified(items) == CountAtLeast(items, CascadeThreshold)
    decreases |items|
  {
    if |items| > 0 {
      assert forall i :: 0 <= i < |items| - 1 ==> items[1..][i] == items[i + 1];
      CountVerifiedByScore(items[1..]);
    }
  }

  /** After verifyAll, "passed" is the number of records scoring at least 75. */
  lemma PassedCountsHighScores(items: seq<Item>, send: Network, fz: Fuzzy, apiKey: string)
    requires |items| > 0
    ensures var b := VerifyAll(items, send, fz, apiKey);
      b.summary.Some? && b.summary.value.passed == CountAtLeast(b.items, CascadeThreshold)
  {
    CountVerifiedByScore(VerifyEach(items, send, fz, apiKey));
  }

  /** The user ticks or unticks one record's box; the dashboard listener
      recomputes the counts. */
  function Toggle(items: seq<Item>, k: int, v: bool): (r: seq<Item>)
    requires 0 <= k < |items|
    ensures |r| == |items| && r[k].verified == v
    ensures forall i :: 0 <= i < |items| && i != k ==> r[i] == items[i]
  {
    items[k := SetVerified(items[k], v)]
  }

  /** Ticking an unticked box adds one to "passed"; unticking a ticked one
      removes one; anything else leaves the count alone. */
  lemma {:induction false} ToggleCount(items: seq<Item>, k: int, v: bool)
    requires 0 <= k < |items|
    ensures CountVerified(Toggle(items, k, v)) ==
      CountVerified(items) + (if v && !items[k].verified then 1 else if !v && items[k].verified then -1 else 0)
    decreases |items|
  {
    var t := Toggle(items, k, v);
    if k > 0 {
      assert t[1..] == Toggle(items[1..], k - 1, v);
      ToggleCount(items[1..], k - 1, v);
    } else {
      assert t[1..] == items[1..];
    }
  }

  /** The example of the dashboard: five records of which three are verified. */
  lemma DashboardExample(a: Item, b: Item, c: Item, d: Item, e: Item)
    requires a.verified && b.verified && !c.verified && d.verified && !e.verified
    ensures Dashboard([a, b, c, d, e]) == Some(Summary(5, 3, 2))
  {
    var s := [a, b, c, d, e];
    assert [e][1..] == [];
    assert CountVerified([e]) == 0;
    assert [d, e][1..] == [e];
    assert CountVerified([d, e]) == 1;
    assert [c, d, e][1..] == [d, e];
    assert CountVerified([c, d, e]) == 1;
    assert [b, c, d, e][1..] == [c, d, e];
    assert CountVerified([b, c, d, e]) == 2;
    assert s[1..] == [b, c, d, e];
    assert CountVerified(s) == 3;
  }

  /** The piece before a "\r?\n" separator loses its final '\r'. */
  function DropCarriageReturn(p: string): string {
    if |p| > 0 && p[|p| - 1] == '\r' then p[..|p| - 1] else p
  }

  /** The pieces between the "\r?\n" separators, all of them kept. */
  function Pieces(s: string): (r: seq<string>)
    ensures |r| >= 1
    ensures forall k :: 0 <= k < |r| ==> !HasChar(r[k], '\n')
    decreases |s|
  {
    var n := IndexOf(s, '\n');
    if n == |s| then [s]
    else
      var rest := Pieces(s[n + 1..]);
      var head := DropCarriageReturn(s[..n]);
      assert !HasChar(head, '\n') by {
        assert forall i :: 0 <= i < |head| ==> head[i] == s[i];
      }
      [head] + rest
  }

  /** Without carriage returns the pieces put back together with '\n' give the text. */
  lemma {:induction false} PiecesRejoin(s: string)
    requires !HasChar(s, '\r')
    ensures Join(Pieces(s), "\n") == s
    decreases |s|
  {
    var n := IndexOf(s, '\n');
    if n < |s| {
      var head := s[..n];
      var tail := s[n + 1..];
      SplitAtNewline(s, n);
      PiecesRejoin(tail);
      JoinCons(head, Pieces(tail), "\n");
    }
  }

  /** Cutting a text without '\r' at a '\n' gives a head the separator
      leaves alone and a tail without '\r'. */
  lemma SplitAtNewline(s: string, n: nat)
    requires n < |s| && s[n] == '\n' && !HasChar(s, '\r')
    ensures DropCarriageReturn(s[..n]) == s[..n]
    ensures !HasChar(s[n + 1..], '\r')
    ensures s == s[..n] + "\n" + s[n + 1..]
  {
    var tail := s[n + 1..];
    assert forall i :: 0 <= i < |tail| ==> tail[i] == s[n + 1 + i];
    if n > 0 {
      assert s[..n][n - 1] == s[n - 1];
    }
  }

  lemma JoinCons(head: string, rest: seq<string>, sep: string)
    requires |rest| >= 1
    ensures Join([head] + rest, sep) == head + sep + Join(rest, sep)
  {
    assert ([head] + rest)[1..] == rest;
  }

  /** The text with every '\r' that stands right before a '\n' deleted. */
  function DropCrBeforeNl(s: string): (r: string)
    ensures |r| <= |s|
    decreases |s|
  {
    if |s| == 0 then ""
    else if |s| >= 2 && s[0] == '\r' && s[1] == '\n' then DropCrBeforeNl(s[1..])
    else [s[0]] + DropCrBeforeNl(s[1..])
  }

  /** The pieces are the text's lines: joined again with '\n' they give the
      text less the '\r' of each "\r\n" separator, whatever the text. */
  lemma {:induction false} PiecesJoin(s: string)
    ensures Join(Pieces(s), "\n") == DropCrBeforeNl(s)
    decreases |s|
  {
    var n := IndexOf(s, '\n');
    if n == |s| {
      NoNewlineKept(s);
    } else {
      var tail := s[n + 1..];
      var head := DropCarriageReturn(s[..n]);
      PiecesCons(s, n);
      PiecesJoin(tail);
      JoinCons(head, Pieces(tail), "\n");
      DropCrAtNewline(s, n);
    }
  }

  lemma PiecesCons(s: string, n: nat)
    requires n == IndexOf(s, '\n') && n < |s|
    ensures Pieces(s) == [DropCarriageReturn(s[..n])] + Pieces(s[n + 1..])
  {
  }

  /** Without a '\n' there is nothing to delete. */
  lemma {:induction false} NoNewlineKept(s: string)
    requires !HasChar(s, '\n')
    ensures DropCrBeforeNl(s) == s
    decreases |s|
  {
    if |s| > 0 {
      assert !HasChar(s[1..], '\n') by {
        assert forall i :: 0 <= i < |s| - 1 ==> s[1..][i] == s[i + 1];
      }
      NoNewlineKept(s[1..]);
      assert s == [s[0]] + s[1..];
    }
  }

  /** Up to the first '\n', the deletion only touches a '\r' right before it. */
  lemma {:induction false} DropCrAtNewline(s: string, n: nat)
    requires n < |s| && s[n] == '\n' && forall i :: 0 <= i < n ==> s[i] != '\n'
    ensures DropCrBeforeNl(s) == DropCarriageReturn(s[..n]) + "\n" + DropCrBeforeNl(s[n + 1..])
    decreases n
  {
    var t := s[1..];
    if n == 0 {
      DropCrKeep(s);
      assert s[..n] == [];
    } else if n == 1 && s[0] == '\r' {
      DropCrSkip(s);
      DropCrKeep(t);
      assert s[..n] == ['\r'];
      assert t[1..] == s[n + 1..];
    } else {
      DropCrKeep(s);
      DropCrAtNewline(t, n - 1);
      assert t[n..] == s[n + 1..];
      assert t[..n - 1] == s[1..n];
      CarriageReturnCons(s, n);
    }
  }

  lemma DropCrKeep(s: string)
    requires |s| > 0 && !(|s| >= 2 && s[0] == '\r' && s[1] == '\n')
    ensures DropCrBeforeNl(s) == [s[0]] + DropCrBeforeNl(s[1..])
  {
  }

  lemma DropCrSkip(s: string)
    requires |s| >= 2 && s[0] == '\r' && s[1] == '\n'
    ensures DropCrBeforeNl(s) == DropCrBeforeNl(s[1..])
  {
  }

  /** Dropping a final '\r' from a piece of at least two characters, or of
      one character that is not '\r', keeps its first character. */
  lemma CarriageReturnCons(s: string, n: nat)
    requires 1 <= n <= |s| && !(n == 1 && s[0] == '\r')
    ensures DropCarriageReturn(s[..n]) == [s[0]] + DropCarriageReturn(s[1..n])
  {
    var p := s[..n];
    assert p == [s[0]] + s[1..n];
    if n > 1 {
      assert p[n - 1] == s[1..n][n - 2];
      if p[n - 1] == '\r' {
        assert p[..n - 1] == [s[0]] + s[1..n][..n - 2];
      }
    }
  }

  function DropTrailingEmpty(ps: seq<string>): (r: seq<string>)
    ensures |r| <= |ps| && r == ps[..|r|]
    ensures forall k :: |r| <= k < |ps| ==> ps[k] == ""
    ensures |r| == 0 || r[|r| - 1] != ""
    decreases |ps|
  {
    if |ps| == 0 || ps[|ps| - 1] != "" then ps else DropTrailingEmpty(ps[..|ps| - 1])
  }

  /** text.split("\\r?\\n"): with no separator the text itself; otherwise the
      pieces, trailing empty ones removed. */
  function SplitLines(text: string): (r: seq<string>)
    ensures forall k :: 0 <= k < |r| ==> !HasChar(r[k], '\n')
    ensures !HasChar(text, '\n') ==> r == [text]
    ensures HasChar(text, '\n') ==> r == DropTrailingEmpty(Pieces(text))
  {
    if !HasChar(text, '\n') then [text] else DropTrailingEmpty(Pieces(text))
  }

  /** The pasted lines that are kept: trimmed length at least 5, in order. */
  function Kept(lines: seq<string>): (r: seq<string>)
    ensures |r| <= |lines|
    ensures forall k :: 0 <= k < |r| ==> |Trim(r[k])| >= 5
    decreases |lines|
  {
    if |lines| == 0 then []
    else
      var rest := Kept(lines[1..]);
      if |Trim(lines[0])| >= 5 then [lines[0]] + rest else rest
  }

  /** Exactly the lines with trimmed length at least 5 are kept. */
  lemma {:induction false} KeptMembers(lines: seq<string>)
    ensures forall l :: l in lines && |Trim(l)| >= 5 ==> l in Kept(lines)
    ensures forall l :: l in Kept(lines) ==> l in lines
    decreases |lines|
  {
    if |lines| > 0 {
      KeptMembers(lines[1..]);
      assert forall l :: l in lines ==> l == lines[0] || l in lines[1..];
    }
  }

  /** Keeping lines preserves their order: a line added at the end is kept
      at the end, or dropped. */
  lemma {:induction false} KeptAppend(lines: seq<string>, l: string)
    ensures Kept(lines + [l]) == Kept(lines) + (if |Trim(l)| >= 5 then [l] else [])
    decreases |lines|
  {
    if |lines| > 0 {
      assert (lines + [l])[1..] == lines[1..] + [l];
      KeptAppend(lines[1..], l);
    } else {
      assert ([] + [l])[1..] == [];
    }
  }

  /** The record's authors and title are what the parser makes of its raw text. */
  predicate ParsedFromRaw(it: Item, crf: RefParser.CrfModel) {
    var p := RefParser.Parse(it.rawText, crf);
    it.authors == p.authors && it.pdfTitle == Some(p.title)
  }

  /** The record made for the kept line at position `index`. */
  function ManualItem(line: string, index: nat, crf: RefParser.CrfModel): (it: Item)
    ensures it.id == index + 1 && it.rawText == line
    ensures it.status == Waiting && it.doi == Some("") && !it.verified && it.matchScore == 0
    ensures it.dbTitle == "" && it.dbAuthors == ""
  {
    var p := RefParser.Parse(line, crf);
    New(index + 1, Waiting, p.authors, Some(p.title), line, Some(""))
  }

  /** The lines of the pasted text that become records. */
  function ManualLines(text: string): (lines: seq<string>)
    ensures forall i :: 0 <= i < |lines| ==> |Trim(lines[i])| >= 5 && !HasChar(lines[i], '\n')
    ensures lines == Kept(SplitLines(text))
  {
    KeptLinesHaveNoNewline(SplitLines(text));
    Kept(SplitLines(text))
  }

  /** One record per line, numbered from 1. */
  function NumberedRecords(lines: seq<string>, crf: RefParser.CrfModel): (items: seq<Item>)
    ensures |items| == |lines|
    ensures forall i :: 0 <= i < |items| ==> items[i] == ManualItem(lines[i], i, crf)
  {
    seq(|lines|, i requires 0 <= i < |lines| => ManualItem(lines[i], i, crf))
  }

  /** loadManualReferences: the list is replaced by one record per kept
      line, numbered from 1, parsed, with the line itself as raw text and
      an empty DOI. */
  function LoadManual(text: string, crf: RefParser.CrfModel): (items: seq<Item>)
    ensures |items| == |ManualLines(text)|
    ensures forall i :: 0 <= i < |items| ==> items[i].id == i + 1 && items[i].rawText == ManualLines(text)[i]
    ensures forall i :: 0 <= i < |items| ==> |Trim(items[i].rawText)| >= 5 && !HasChar(items[i].rawText, '\n')
    ensures |items| == |Kept(SplitLines(text))|
    ensures forall i :: 0 <= i < |items| ==> items[i].rawText == Kept(SplitLines(text))[i]
    ensures forall i :: 0 <= i < |items| ==>
      items[i].status == Waiting && items[i].doi == Some("") && !items[i].verified && items[i].matchScore == 0
    ensures forall i :: 0 <= i < |items| ==> items[i].dbTitle == "" && items[i].dbAuthors == ""
  {
    NumberedRecords(ManualLines(text), crf)
  }

  /** Each pasted record carries the authors and title the parser made of its line. */
  lemma ManualRecordParsed(text: string, crf: RefParser.CrfModel, i: int)
    requires 0 <= i < |LoadManual(text, crf)|
    ensures ParsedFromRaw(LoadManual(text, crf)[i], crf)
  {
    assert LoadManual(text, crf)[i] == ManualItem(ManualLines(text)[i], i, crf);
  }

  lemma KeptLinesHaveNoNewline(lines: seq<string>)
    requires forall k :: 0 <= k < |lines| ==> !HasChar(lines[k], '\n')
    ensures forall k :: 0 <= k < |Kept(lines)| ==> !HasChar(Kept(lines)[k], '\n')
  {
    var r := Kept(lines);
    KeptMembers(lines);
    forall k | 0 <= k < |r|
      ensures !HasChar(r[k], '\n')
    {
      assert r[k] in r;
      var j :| 0 <= j < |lines| && lines[j] == r[k];
    }
  }

  /** A pasted record never takes the identifier lookup: its DOI is empty. */
  lemma ManualRecordsSearchByText(text: string, crf: RefParser.CrfModel)
    ensures forall it :: it in LoadManual(text, crf) ==> !Crossref.HasDoi(it.doi)
  {
    forall it | it in LoadManual(text, crf)
      ensures !Crossref.HasDoi(it.doi)
    {
      assert it.doi == Some("");
      assert !Contains("", "10.");
    }
  }
}

=== FILE: crossref.dfy ===
/**
  CrossrefService: an identifier lookup when the record carries a DOI,
  otherwise (or when that lookup is not a 200) a bibliographic search.
  Unlike the other adapters it writes the candidate title and authors
  before scoring, whatever the score, and turns every failure into
  NOT FOUND with score 0.
 */
module Crossref {
  import opened Text
  import opened Scoring
  import opened Record
  import opened Wire

  /** Longest free-text query sent. */
  const MaxQueryLength: int := 200

  /** The identifier lookup is tried iff the detected DOI is non-null and contains "10.". */
  predicate HasDoi(doi: Option<string>) {
    doi.Some? && Contains(doi.value, "10.")
  }

  /** The free-text query: the PDF title, or the raw citation when the title
      is null or the "Unknown Title" sentinel, cut to its first 200 characters. */
  function QueryTerm(it: Item): (q: string)
    ensures |q| <= MaxQueryLength
    ensures var src := if it.pdfTitle.None? || it.pdfTitle.value == UnknownTitle then it.rawText else it.pdfTitle.value;
      IsPrefix(q, src) && (|src| <= MaxQueryLength ==> q == src) && (|src| > MaxQueryLength ==> |q| == MaxQueryLength)
  {
    var src := if it.pdfTitle.None? || it.pdfTitle.value == UnknownTitle then it.rawText else it.pdfTitle.value;
    if |src| > MaxQueryLength then src[..MaxQueryLength] else src
  }

  /** cleanText, used only in the request log line: symbols outside
      [a-zA-Z0-9\s] are dropped, the rest is trimmed and every space
      becomes '+'; null gives "". */
  function CleanText(text: Option<string>): (r: string)
    ensures text.None? ==> r == ""
    ensures forall i :: 0 <= i < |r| ==> r[i] != ' ' && (IsQueryChar(r[i]) || r[i] == '+')
    ensures |r| <= |text.GetOr("")|
    ensures text.Some? ==> r == SpacesToPlus(Trim(KeepQueryChars(text.value)))
  {
    if text.None? then ""
    else
      var kept := KeepQueryChars(text.value);
      TrimKeepsQueryChars(kept);
      PlusOnlyQueryChars(Trim(kept));
      SpacesToPlus(Trim(kept))
  }

  lemma TrimKeepsQueryChars(s: string)
    requires forall i :: 0 <= i < |s| ==> IsQueryChar(s[i])
    ensures |Trim(s)| <= |s|
    ensures forall i :: 0 <= i < |Trim(s)| ==> IsQueryChar(Trim(s)[i])
  {
    TrimChars(s);
  }

  lemma PlusOnlyQueryChars(s: string)
    requires forall i :: 0 <= i < |s| ==> IsQueryChar(s[i])
    ensures var r := SpacesToPlus(s);
      forall i :: 0 <= i < |r| ==> r[i] != ' ' && (IsQueryChar(r[i]) || r[i] == '+')
  {
  }

  /** The characters of `s` in [a-zA-Z0-9\s], in order; every other one is dropped. */
  function KeepQueryChars(s: string): (r: string)
    ensures |r| <= |s|
    ensures forall i :: 0 <= i < |r| ==> IsQueryChar(r[i])
    ensures (forall i :: 0 <= i < |s| ==> IsQueryChar(s[i])) ==> r == s
    ensures |s| == 1 ==> (r == s <==> IsQueryChar(s[0])) && (r == [] <==> !IsQueryChar(s[0]))
  {
    if |s| == 0 then ""
    else if IsQueryChar(s[0]) then [s[0]] + KeepQueryChars(s[1..])
    else KeepQueryChars(s[1..])
  }

  /** The filter works character by character: filtering a concatenation
      concatenates the filtered parts, so every query character is kept in
      order and every other one dropped. */
  lemma {:induction false} KeepQueryCharsAppend(a: string, b: string)
    ensures KeepQueryChars(a + b) == KeepQueryChars(a) + KeepQueryChars(b)
    decreases |a|
  {
    if |a| > 0 {
      assert (a + b)[0] == a[0];
      assert (a + b)[1..] == a[1..] + b;
      KeepQueryCharsAppend(a[1..], b);
    } else {
      assert a + b == b;
    }
  }

  function SpacesToPlus(s: string): (r: string)
    ensures |r| == |s|
    ensures forall i :: 0 <= i < |s| ==> r[i] == (if s[i] == ' ' then '+' else s[i])
  {
    seq(|s|, i requires 0 <= i < |s| => if s[i] == ' ' then '+' else s[i])
  }

  /** One Crossref author: trim(given + " " + family), absent parts as "". */
  function PersonName(p: Person): string {
    Trim(p.given.GetOr("") + " " + p.family.GetOr(""))
  }

  function PersonNames(people: seq<Person>): (r: seq<string>)
    ensures |r| == |people|
    ensures forall i :: 0 <= i < |people| ==> r[i] == PersonName(people[i])
  {
    seq(|people|, i requires 0 <= i < |people| => PersonName(people[i]))
  }

  /** The Crossref author line: every author entry, "; "-separated. */
  function AuthorLine(people: seq<Person>): string {
    Accumulate("", PersonNames(people), "; ")
  }

  /** Crossref's private markNotFound: NOT FOUND and score 0, `verified` untouched. */
  function MarkNotFound(it: Item): (r: Item)
    ensures r.status == NotFound && r.matchScore == 0 && r.verified == it.verified
    ensures SameSource(r, it) && r.dbTitle == it.dbTitle && r.dbAuthors == it.dbAuthors
  {
    it.(status := NotFound, matchScore := 0)
  }

  /** Crossref's score(): store the composite, then PASS (and verified)
      above 75, CHECK above 50, FAIL otherwise; never un-verifies. */
  function Settle(it: Item, score: Percent): (r: Item)
    ensures r.matchScore == score && r.status == Classify(score)
    ensures r.verified == (it.verified || score > PassThreshold)
    ensures SameSource(r, it) && r.dbTitle == it.dbTitle && r.dbAuthors == it.dbAuthors
  {
    var w := it.(matchScore := score, status := Classify(score));
    if score > PassThreshold then SetVerified(w, true) else w
  }

  /** The outcome of parseAndScore: the item as far as it got, and whether
      it threw (so that verifyItem's handler marks it not found). */
  datatype Parsed = Parsed(item: Item, thrown: bool)

  /** Scoring of one candidate: title and authors are written first; the
      title similarity then dereferences the PDF title and the author
      similarity the PDF authors (null throws); author floor 50. */
  function ScoreCandidate(it: Item, c: Candidate, fz: Fuzzy): (p: Parsed)
    ensures p.item.dbTitle == CandidateTitle(c) && p.item.dbAuthors == AuthorLine(c.people)
    ensures p.thrown <==> it.pdfTitle.None? || it.authors.None?
    ensures p.thrown ==> p.item == it.(dbTitle := CandidateTitle(c), dbAuthors := AuthorLine(c.people))
    ensures !p.thrown ==> 0 <= p.item.matchScore <= 100 && p.item.status == Classify(p.item.matchScore)
    ensures !p.thrown ==> p.item.matchScore == Composite(
      TitleSimilarity(fz, CandidateTitle(c), it.pdfTitle.value, it.rawText),
      fz.tokenSortRatio(AuthorLine(c.people), it.authors.value),
      CrossrefAuthorFloor)
    ensures !p.thrown ==> p.item.verified == (it.verified || p.item.matchScore > PassThreshold)
    ensures SameSource(p.item, it)
  {
    var title := CandidateTitle(c);
    var authors := AuthorLine(c.people);
    var written := it.(dbTitle := title, dbAuthors := authors);
    if it.pdfTitle.None? || it.authors.None? then Parsed(written, true)
    else
      var t := TitleSimilarity(fz, title, it.pdfTitle.value, it.rawText);
      var a := fz.tokenSortRatio(authors, it.authors.value);
      Parsed(Settle(written, Composite(t, a, CrossrefAuthorFloor)), false)
  }

  /** parseAndScore: a single work or the first item of the list is scored;
      an empty list marks the item not found WITHOUT throwing, while a
      message without an items array throws (Malformed). */
  function ParseAndScore(it: Item, body: Body, fz: Fuzzy): (p: Parsed)
    ensures body.Malformed? ==> p == Parsed(it, true)
    ensures body == Hits(None) ==> p == Parsed(MarkNotFound(it), false)
    ensures body.Work? ==> p == ScoreCandidate(it, body.work, fz)
    ensures body.Hits? && body.top.Some? ==> p == ScoreCandidate(it, body.top.value, fz)
    ensures SameSource(p.item, it)
  {
    match body
    case Malformed => Parsed(it, true)
    case Hits(None) => Parsed(MarkNotFound(it), false)
    case Hits(Some(c)) => ScoreCandidate(it, c, fz)
    case Work(c) => ScoreCandidate(it, c, fz)
  }

  /** What every outcome of verifyItem keeps: failure is NOT FOUND with
      score 0, any other status is the score's, the score is in range, and
      verified is never cleared and set only above 75. */
  predicate Judged(it: Item, v: Visit) {
    && (!v.found ==> v.item.status == NotFound && v.item.matchScore == 0)
    && (v.item.status != NotFound ==> v.item.status == Classify(v.item.matchScore))
    && (v.item.status == NotFound ==> v.item.matchScore == 0)
    && 0 <= v.item.matchScore <= 100
    && (it.verified ==> v.item.verified)
    && (v.item.verified ==> it.verified || v.item.matchScore > PassThreshold)
    && SameSource(v.item, it)
  }

  /** The end of verifyItem once a 200 body is in hand: true unless parsing
      threw, in which case the handler marks the item not found. */
  function Finish(it: Item, body: Body, sent: seq<Request>, fz: Fuzzy): (v: Visit)
    ensures v.sent == sent && v.waits == []
    ensures v.found <==> !ParseAndScore(it, body, fz).thrown
    ensures v.found ==> v.item == ParseAndScore(it, body, fz).item
    ensures Judged(it, v)
  {
    var p := ParseAndScore(it, body, fz);
    if p.thrown then Visit(MarkNotFound(p.item), false, sent, [])
    else Visit(p.item, true, sent, [])
  }

  /** The bibliographic search, after `before` (the lookup, if any). */
  function Search(it: Item, before: seq<Request>, send: Network, fz: Fuzzy): (v: Visit)
    ensures v.sent == before + [Request(CrossrefQuery, QueryTerm(it), 0)]
    ensures Judged(it, v)
  {
    var req := Request(CrossrefQuery, QueryTerm(it), 0);
    var reply := send(req);
    if IsOk(reply) then Finish(it, reply.body, before + [req], fz)
    else Visit(MarkNotFound(it), false, before + [req], [])
  }

  /** verifyItem. */
  function Verify(it: Item, send: Network, fz: Fuzzy): (v: Visit)
    ensures 1 <= |v.sent| <= 2 && v.waits == []
    ensures v.found ==> IsOk(send(v.sent[|v.sent| - 1]))
    ensures Judged(it, v)
  {
    if HasDoi(it.doi) then
      var req := Request(CrossrefWork, it.doi.value, 0);
      var reply := send(req);
      if reply.Thrown? then Visit(MarkNotFound(it), false, [req], [])
      else if reply.code == 200 then Finish(it, reply.body, [req], fz)
      else Search(it, [req], send, fz)
    else Search(it, [], send, fz)
  }

  /** The requests of verifyItem: the identifier lookup first iff the DOI
      is usable, and the bibliographic search with the query term after it
      unless the lookup got a 200. */
  lemma VerifyRequests(it: Item, send: Network, fz: Fuzzy)
    ensures var v := Verify(it, send, fz);
      && (v.sent[0].endpoint == CrossrefWork <==> HasDoi(it.doi))
      && (HasDoi(it.doi) ==> v.sent[0] == Request(CrossrefWork, it.doi.value, 0))
      && (HasDoi(it.doi) && IsOk(send(v.sent[0])) ==> |v.sent| == 1)
      && (v.sent[|v.sent| - 1].endpoint == CrossrefQuery ==> v.sent[|v.sent| - 1] == Request(CrossrefQuery, QueryTerm(it), 0))
      && (|v.sent| == 2 ==> v.sent[1].endpoint == CrossrefQuery)
  {
  }

  /** The outcome of verifyItem: true iff the last reply was a 200 whose
      parsing did not throw, and then the record as parseAndScore left it;
      a scored candidate stores its floor-50 composite. */
  lemma VerifyOutcome(it: Item, send: Network, fz: Fuzzy)
    ensures var v := Verify(it, send, fz);
      var last := send(v.sent[|v.sent| - 1]);
      && (v.found <==> IsOk(last) && !ParseAndScore(it, last.body, fz).thrown)
      && (v.found ==> v.item == ParseAndScore(it, last.body, fz).item)
  {
  }

  /** A found record scored on a candidate stores the floor-50 composite of
      the title similarity (partial ratio on the raw citation iff the PDF
      title is the sentinel) and the author similarity. */
  lemma VerifyScore(it: Item, send: Network, fz: Fuzzy, c: Candidate)
    requires var v := Verify(it, send, fz);
      var last := send(v.sent[|v.sent| - 1]);
      v.found && (last.body == Work(c) || last.body == Hits(Some(c)))
    ensures it.pdfTitle.Some? && it.authors.Some?
    ensures Verify(it, send, fz).item.matchScore == Composite(
      TitleSimilarity(fz, CandidateTitle(c), it.pdfTitle.value, it.rawText),
      fz.tokenSortRatio(AuthorLine(c.people), it.authors.value),
      CrossrefAuthorFloor)
  {
    VerifyOutcome(it, send, fz);
  }

  /** verifyItem returns true whenever a 200 body arrived that parses, even
      when its item list is empty; the item is then NOT FOUND with score 0. */
  lemma EmptyListStillFound(it: Item, send: Network, fz: Fuzzy)
    requires !HasDoi(it.doi)
    requires send(Request(CrossrefQuery, QueryTerm(it), 0)) == Response(200, Hits(None))
    ensures var v := Verify(it, send, fz);
      v.found && v.item.status == NotFound && v.item.matchScore == 0
  {
  }

  /** The title and authors of the first search hit are written whatever the
      score, also when scoring then throws on a null PDF title or authors. */
  lemma CandidateWrittenWhateverTheScore(it: Item, send: Network, fz: Fuzzy, c: Candidate)
    requires !HasDoi(it.doi)
    requires send(Request(CrossrefQuery, QueryTerm(it), 0)) == Response(200, Hits(Some(c)))
    ensures var v := Verify(it, send, fz);
      v.item.dbTitle == CandidateTitle(c) && v.item.dbAuthors == AuthorLine(c.people)
    ensures var v := Verify(it, send, fz);
      v.found <==> it.pdfTitle.Some? && it.authors.Some?
  {
  }

  /** An exception from the identifier lookup ends the call: no search follows. */
  lemma LookupExceptionStopsEverything(it: Item, send: Network, fz: Fuzzy)
    requires HasDoi(it.doi)
    requires send(Request(CrossrefWork, it.doi.value, 0)) == Thrown
    ensures var v := Verify(it, send, fz);
      |v.sent| == 1 && !v.found && v.item == MarkNotFound(it)
  {
  }

  /** Authors that agree less than the floor keep the Crossref score at or
      below 50, so the status is FAIL (never PASS or CHECK). */
  lemma WeakAuthorsFail(it: Item, c: Candidate, fz: Fuzzy)
    requires it.pdfTitle.Some? && it.authors.Some?
    requires fz.tokenSortRatio(AuthorLine(c.people), it.authors.value) < CrossrefAuthorFloor
    ensures ScoreCandidate(it, c, fz).item.status == Fail
  {
  }
}

=== FILE: csv.dfy ===
/**
  CsvService: the export as ';'-separated rows of nine fields. The text
  fields go through escapeCsv, which doubles quotes and wraps the field in
  quotes when it holds ',', '"' or a newline. A reader of the file is
  modelled by ParseRow, the usual quoted-field reading of one row.
 */
module Csv {
  import opened Text
  import opened Record

  const Header: string := "ID;Verified;Status;Match Score;PDF Title;PDF Authors;Crossref Title;Crossref Authors;DOI"

  /** The row delimiter. */
  const Delimiter: char := ';'

  lemma HasCharConcat(a: string, b: string, c: char)
    ensures HasChar(a + b, c) <==> HasChar(a, c) || HasChar(b, c)
  {
    if HasChar(a + b, c) {
      var i :| 0 <= i < |a + b| && (a + b)[i] == c;
      if i >= |a| {
        assert b[i - |a|] == c;
      }
    }
    if HasChar(a, c) {
      var i :| 0 <= i < |a| && a[i] == c;
      assert (a + b)[i] == c;
    }
    if HasChar(b, c) {
      var i :| 0 <= i < |b| && b[i] == c;
      assert (a + b)[|a| + i] == c;
    }
  }

  /** replaceAll("\"", "\"\""): every quote doubled, every other character kept. */
  function Double(s: string): string
    decreases |s|
  {
    if |s| == 0 then ""
    else (if s[0] == '"' then "\"\"" else [s[0]]) + Double(s[1..])
  }

  /** Doubling adds no new kind of character and removes none. */
  lemma {:induction false} DoubleChars(s: string)
    ensures forall c :: HasChar(Double(s), c) <==> HasChar(s, c)
    ensures !HasChar(s, '"') ==> Double(s) == s
    decreases |s|
  {
    if |s| > 0 {
      DoubleChars(s[1..]);
      var head := if s[0] == '"' then "\"\"" else [s[0]];
      assert s == [s[0]] + s[1..];
      forall c
        ensures HasChar(Double(s), c) <==> HasChar(s, c)
      {
        HasCharConcat(head, Double(s[1..]), c);
        HasCharConcat([s[0]], s[1..], c);
      }
      if !HasChar(s, '"') {
        HasCharConcat([s[0]], s[1..], '"');
      }
    }
  }

  /** The reading side of Double: every pair of quotes becomes one quote. */
  function Halve(s: string): string
    decreases |s|
  {
    if |s| == 0 then ""
    else if |s| >= 2 && s[0] == '"' && s[1] == '"' then "\"" + Halve(s[2..])
    else [s[0]] + Halve(s[1..])
  }

  lemma {:induction false} HalveDouble(s: string)
    ensures Halve(Double(s)) == s
    decreases |s|
  {
    if |s| > 0 {
      HalveDouble(s[1..]);
      var d := Double(s[1..]);
      if s[0] == '"' {
        assert Double(s) == "\"\"" + d;
        assert (("\"\"" + d)[2..]) == d;
      } else {
        assert Double(s) == [s[0]] + d;
        assert ([s[0]] + d)[1..] == d;
      }
    }
  }

  /** The characters for which escapeCsv quotes a field. */
  predicate NeedsQuotes(s: string) {
    HasChar(s, ',') || HasChar(s, '"') || HasChar(s, '\n')
  }

  function Quote(s: string): string {
    "\"" + s + "\""
  }

  /** escapeCsv as written: null gives ""; quotes are doubled; the field is
      wrapped iff it holds ',', '"' or '\n' (but not ';'). */
  function Escape(data: Option<string>): (r: string)
    ensures data.None? ==> r == ""
    ensures data.Some? && NeedsQuotes(data.value) ==> r == Quote(Double(data.value))
    ensures data.Some? && !NeedsQuotes(data.value) ==> r == data.value
  {
    if data.None? then ""
    else
      var escaped := Double(data.value);
      DoubleChars(data.value);
      if HasChar(escaped, ',') || HasChar(escaped, '"') || HasChar(escaped, '\n') then Quote(escaped)
      else escaped
  }

  /** Reading one escaped field on its own: outer quotes off, quote pairs halved. */
  function Unescape(s: string): string {
    if |s| >= 2 && s[0] == '"' && s[|s| - 1] == '"' then Halve(s[1..|s| - 1]) else s
  }

  /** escapeCsv loses nothing: unescaping gives back the value (null as ""). */
  lemma EscapeRoundTrip(data: Option<string>)
    ensures Unescape(Escape(data)) == data.GetOr("")
  {
    if data.Some? {
      var s := data.value;
      if NeedsQuotes(s) {
        var q := Quote(Double(s));
        assert q[1..|q| - 1] == Double(s);
        HalveDouble(s);
      } else {
        assert |s| == 0 || s[0] != '"';
      }
    }
  }

  /** A semicolon alone never triggers quoting. */
  lemma SemicolonNotQuoted()
    ensures Escape(Some("A; B")) == "A; B"
  {
    var s := "A; B";
    assert !HasChar(s, ',') && !HasChar(s, '"') && !HasChar(s, '\n');
  }

  /** The nine columns of a row, in header order, as the item holds them
      (null as None). */
  function Columns(it: Item): (c: seq<Option<string>>)
    ensures |c| == 9
  {
    [Some(IntToString(it.id)), Some(if it.verified then "true" else "false"), Some(it.status.Label()),
     Some(IntToString(it.matchScore)), it.pdfTitle, it.authors,
     Some(it.dbTitle), Some(it.dbAuthors), it.doi]
  }

  /** Verified (column 1) and score (column 3) are appended without escaping. */
  predicate IsRawColumn(k: int) {
    k == 1 || k == 3
  }

  /** The values a reader of a row should get back, null written as "". */
  function Values(it: Item): (v: seq<string>)
    ensures |v| == 9
    ensures forall k :: 0 <= k < 9 ==> v[k] == Columns(it)[k].GetOr("")
  {
    var c := Columns(it);
    seq(9, k requires 0 <= k < 9 => c[k].GetOr(""))
  }

  /** The nine fields of a row as written. */
  function Fields(it: Item): (f: seq<string>)
    ensures |f| == 9
    ensures forall k :: 0 <= k < 9 && !IsRawColumn(k) ==> f[k] == Escape(Columns(it)[k])
    ensures forall k :: 0 <= k < 9 && IsRawColumn(k) ==> f[k] == Columns(it)[k].GetOr("")
  {
    var c := Columns(it);
    seq(9, k requires 0 <= k < 9 => if IsRawColumn(k) then c[k].GetOr("") else Escape(c[k]))
  }

  /** One data row: the nine fields joined by ';'. */
  function Row(it: Item): string {
    Join(Fields(it), [Delimiter])
  }

  /** The whole file: the header, then one row per item; `newline` is the
      platform line separator the writer uses after each row. */
  function Export(items: seq<Item>, newline: string): (r: string)
    ensures |items| == 0 ==> r == Header + "\n"
    ensures IsPrefix(Header + "\n", r)
    decreases |items|
  {
    if |items| == 0 then Header + "\n"
    else
      var before := Export(items[..|items| - 1], newline);
      var r := before + Row(items[|items| - 1]) + newline;
      assert r[..|Header| + 1] == before[..|Header| + 1];
      r
  }

  /** Rows come out in list order: one more item adds its row at the end. */
  lemma ExportAppend(items: seq<Item>, it: Item, newline: string)
    ensures Export(items + [it], newline) == Export(items, newline) + Row(it) + newline
  {
    assert (items + [it])[..|items|] == items;
  }

  /** One field cut from the front of a row: its value, and the rest of the
      row after the delimiter (None at the end of the row). */
  datatype Cut = Cut(field: string, rest: Option<string>)

  function Prepend(c: char, cut: Cut): Cut {
    Cut([c] + cut.field, cut.rest)
  }

  /** An unquoted field: everything up to the first ';'. */
  function ParseBare(s: string): (c: Cut)
    ensures c.rest.Some? ==> |c.rest.value| < |s|
    decreases |s|
  {
    if |s| == 0 then Cut("", None)
    else if s[0] == Delimiter then Cut("", Some(s[1..]))
    else Prepend(s[0], ParseBare(s[1..]))
  }

  /** The inside of a quoted field: "" stands for one quote; a lone quote
      closes the field, and whatever follows up to ';' is appended bare. */
  function ParseQuoted(s: string): (c: Cut)
    ensures c.rest.Some? ==> |c.rest.value| < |s|
    decreases |s|
  {
    if |s| == 0 then Cut("", None)
    else if s[0] == '"' then
      if |s| >= 2 && s[1] == '"' then Prepend('"', ParseQuoted(s[2..]))
      else ParseBare(s[1..])
    else Prepend(s[0], ParseQuoted(s[1..]))
  }

  function ParseField(s: string): (c: Cut)
    ensures c.rest.Some? ==> |c.rest.value| < |s|
  {
    if |s| > 0 && s[0] == '"' then ParseQuoted(s[1..]) else ParseBare(s)
  }

  /** The fields a ';'-delimited CSV reader sees in one row. */
  function ParseRow(s: string): (r: seq<string>)
    ensures |r| >= 1
    decreases |s|
  {
    var c := ParseField(s);
    if c.rest.None? then [c.field] else [c.field] + ParseRow(c.rest.value)
  }

  /** What follows a field in a row: nothing, or the delimiter and the rest. */
  function Tail(rest: Option<string>): string {
    if rest.None? then "" else [Delimiter] + rest.value
  }

  lemma {:induction false} BareCut(f: string, rest: Option<string>)
    requires !HasChar(f, Delimiter)
    ensures ParseBare(f + Tail(rest)) == Cut(f, rest)
    decreases |f|
  {
    if |f| > 0 {
      assert f == [f[0]] + f[1..];
      HasCharConcat([f[0]], f[1..], Delimiter);
      BareCut(f[1..], rest);
      assert (f + Tail(rest))[1..] == f[1..] + Tail(rest);
      assert [f[0]] + f[1..] == f;
    } else {
      assert f + Tail(rest) == Tail(rest);
    }
  }

  lemma QuotedEnd(rest: Option<string>)
    ensures ParseQuoted("\"" + Tail(rest)) == Cut("", rest)
  {
    var s := "\"" + Tail(rest);
    assert s[1..] == "" + Tail(rest);
    BareCut("", rest);
  }

  lemma {:induction false} QuotedCut(f: string, rest: Option<string>)
    ensures ParseQuoted(Double(f) + ("\"" + Tail(rest))) == Cut(f, rest)
    decreases |f|
  {
    var t := "\"" + Tail(rest);
    if |f| == 0 {
      assert Double(f) + t == t;
      QuotedEnd(rest);
    } else {
      QuotedCut(f[1..], rest);
      QuotedStep(f, t);
      assert [f[0]] + f[1..] == f;
    }
  }

  lemma QuotedStep(f: string, t: string)
    requires |f| > 0
    ensures ParseQuoted(Double(f) + t) == Prepend(f[0], ParseQuoted(Double(f[1..]) + t))
  {
    var d := Double(f[1..]);
    var s := Double(f) + t;
    if f[0] == '"' {
      assert s == "\"\"" + (d + t);
      assert s[2..] == d + t;
    } else {
      assert s == [f[0]] + (d + t);
      assert s[1..] == d + t;
    }
  }

  /** escapeCsv with the delimiter added to the quoting characters. */
  predicate NeedsQuotesInRow(s: string) {
    NeedsQuotes(s) || HasChar(s, Delimiter)
  }

  /** The corrected escaping: a field is also quoted when it holds ';'. */
  function EscapeField(data: Option<string>): (r: string)
    ensures data.None? ==> r == ""
    ensures data.Some? && NeedsQuotesInRow(data.value) ==> r == Quote(Double(data.value))
    ensures data.Some? && !NeedsQuotesInRow(data.value) ==> r == data.value
    ensures data.Some? && !HasChar(data.value, Delimiter) ==> r == Escape(data)
  {
    if data.None? then ""
    else if NeedsQuotesInRow(data.value) then Quote(Double(data.value))
    else data.value
  }

  /** Every escaped field is read back whole, with the rest of the row intact. */
  lemma FieldCut(f: string, rest: Option<string>)
    ensures ParseField(EscapeField(Some(f)) + Tail(rest)) == Cut(f, rest)
  {
    if NeedsQuotesInRow(f) {
      QuotedFieldCut(f, rest);
    } else {
      PlainFieldCut(f, rest);
    }
  }

  lemma QuotedFieldCut(f: string, rest: Option<string>)
    ensures ParseField(Quote(Double(f)) + Tail(rest)) == Cut(f, rest)
  {
    var d := Double(f);
    var t := d + ("\"" + Tail(rest));
    assert Quote(d) + Tail(rest) == "\"" + t;
    OpenQuote(t);
    QuotedCut(f, rest);
  }

  lemma OpenQuote(t: string)
    ensures ParseField("\"" + t) == ParseQuoted(t)
  {
    assert ("\"" + t)[1..] == t;
  }

  lemma PlainFieldCut(f: string, rest: Option<string>)
    requires !NeedsQuotesInRow(f)
    ensures ParseField(f + Tail(rest)) == Cut(f, rest)
  {
    BareCut(f, rest);
    if |f| > 0 {
      assert f[0] != '"' by { assert !HasChar(f, '"'); }
    }
  }

  function EscapeAll(fs: seq<string>): (r: seq<string>)
    ensures |r| == |fs|
    ensures forall i :: 0 <= i < |fs| ==> r[i] == EscapeField(Some(fs[i]))
  {
    seq(|fs|, i requires 0 <= i < |fs| => EscapeField(Some(fs[i])))
  }

  /** With the corrected escaping a row is read back as exactly its values. */
  lemma {:induction false} RowRoundTrip(fs: seq<string>)
    requires |fs| >= 1
    ensures ParseRow(Join(EscapeAll(fs), [Delimiter])) == fs
    decreases |fs|
  {
    var es := EscapeAll(fs);
    if |fs| == 1 {
      FieldCut(fs[0], None);
      assert Join(es, [Delimiter]) == es[0] + Tail(None);
    } else {
      var tailEs := EscapeAll(fs[1..]);
      assert es[1..] == tailEs;
      var rest := Join(tailEs, [Delimiter]);
      var row := Join(es, [Delimiter]);
      assert row == es[0] + Tail(Some(rest));
      FieldCut(fs[0], Some(rest));
      ParseRowStep(row, fs[0], rest);
      RowRoundTrip(fs[1..]);
      assert [fs[0]] + fs[1..] == fs;
    }
  }

  lemma ParseRowStep(s: string, f: string, rest: string)
    requires ParseField(s) == Cut(f, Some(rest))
    ensures ParseRow(s) == [f] + ParseRow(rest)
  {
  }

  /** Letters, digits, spaces and '-' need no escaping. */
  predicate IsPlainChar(c: char) {
    IsAsciiAlnum(c) || c == ' ' || c == '-'
  }

  lemma PlainValue(s: string)
    requires forall i :: 0 <= i < |s| ==> IsPlainChar(s[i])
    ensures !NeedsQuotesInRow(s)
  {
    assert forall i :: 0 <= i < |s| ==> s[i] != ',' && s[i] != '"' && s[i] != '\n' && s[i] != Delimiter;
  }

  lemma PlainOptional(o: Option<string>)
    requires !HasChar(o.GetOr(""), Delimiter)
    ensures Escape(o) == EscapeField(Some(o.GetOr("")))
  {
  }

  /** The raw columns hold only letters, digits and '-'. */
  lemma RawColumnsPlain(it: Item)
    ensures !NeedsQuotesInRow(Values(it)[1]) && !NeedsQuotesInRow(Values(it)[3])
  {
    var v := Values(it);
    assert v[1] == "true" || v[1] == "false";
    PlainValue(v[1]);
    PlainValue(v[3]);
  }

  /** A row written with the corrected escaping. */
  function CorrectedRow(it: Item): (r: string)
    ensures ParseRow(r) == Values(it)
  {
    RowRoundTrip(Values(it));
    Join(EscapeAll(Values(it)), [Delimiter])
  }

  /** Each field written as escapeCsv writes it agrees with the corrected
      escaping as long as no value holds a ';'. */
  lemma RowAgreesWithoutSemicolons(it: Item)
    requires forall k :: 0 <= k < 9 ==> !HasChar(Values(it)[k], Delimiter)
    ensures Row(it) == CorrectedRow(it)
  {
    var v := Values(it);
    var c := Columns(it);
    var e := EscapeAll(v);
    var f := Fields(it);
    RawColumnsPlain(it);
    forall k | 0 <= k < 9
      ensures f[k] == e[k]
    {
      if !IsRawColumn(k) {
        PlainOptional(c[k]);
      }
    }
    assert f == e;
  }

  /** As written, the export reads back correctly unless a value holds ';'. */
  lemma RowRoundTripWithoutSemicolons(it: Item)
    requires forall k :: 0 <= k < 9 ==> !HasChar(Values(it)[k], Delimiter)
    ensures ParseRow(Row(it)) == Values(it)
  {
    RowAgreesWithoutSemicolons(it);
  }

  lemma {:induction false} JoinAppend(p: seq<string>, q: seq<string>, sep: string)
    requires |p| > 0 && |q| > 0
    ensures Join(p + q, sep) == Join(p, sep) + sep + Join(q, sep)
    decreases |p|
  {
    if |p| > 1 {
      JoinAppend(p[1..], q, sep);
      assert (p + q)[1..] == p[1..] + q;
    } else {
      assert (p + q)[1..] == q;
    }
  }

  /** The row of a fresh item whose Crossref authors are "A; B". */
  lemma SplitRowText(it: Item)
    requires it == New(1, Waiting, None, None, "raw", None).(dbAuthors := "A; B")
    ensures Row(it) == Join(["1", "false", "WAITING", "0", "", "", "", "A", " B", ""], [Delimiter])
  {
    var head := ["1", "false", "WAITING", "0", "", "", ""];
    FreshFields(it);
    JoinAppend(head, ["A; B", ""], [Delimiter]);
    JoinAppend(head, ["A", " B", ""], [Delimiter]);
    assert head + ["A", " B", ""] == ["1", "false", "WAITING", "0", "", "", "", "A", " B", ""];
    assert Join(["A; B", ""], [Delimiter]) == "A; B;";
    assert Join(["A", " B", ""], [Delimiter]) == "A; B;";
  }

  lemma FreshFields(it: Item)
    requires it == New(1, Waiting, None, None, "raw", None).(dbAuthors := "A; B")
    ensures Fields(it) == ["1", "false", "WAITING", "0", "", "", "", "A; B", ""]
  {
    var f := Fields(it);
    var want := ["1", "false", "WAITING", "0", "", "", "", "A; B", ""];
    var c := Columns(it);
    assert IntToString(1) == "1" && IntToString(0) == "0";
    assert c == [Some("1"), Some("false"), Some("WAITING"), Some("0"), None, None, Some(""), Some("A; B"), None];
    PlainValue("1");
    PlainValue("WAITING");
    SemicolonNotQuoted();
    forall k | 0 <= k < 9
      ensures f[k] == want[k]
    {
      if !IsRawColumn(k) {
        assert f[k] == Escape(c[k]);
      }
    }
  }

  /** The default Crossref author line "A; B" splits its row: a reader sees
      ten fields, the Crossref authors are cut to "A" and the DOI column
      receives " B". */
  lemma SemicolonSplitsRow()
    ensures var it := New(1, Waiting, None, None, "raw", None).(dbAuthors := "A; B");
      |ParseRow(Row(it))| == 10
      && ParseRow(Row(it))[7] == "A"
      && ParseRow(Row(it))[8] == " B"
  {
    var it := New(1, Waiting, None, None, "raw", None).(dbAuthors := "A; B");
    var fs := ["1", "false", "WAITING", "0", "", "", "", "A", " B", ""];
    SplitRowText(it);
    SplitFieldsPlain(fs);
    RowRoundTrip(fs);
  }

  lemma SplitFieldsPlain(fs: seq<string>)
    requires fs == ["1", "false", "WAITING", "0", "", "", "", "A", " B", ""]
    ensures EscapeAll(fs) == fs
  {
    forall k | 0 <= k < |fs|
      ensures forall i :: 0 <= i < |fs[k]| ==> IsPlainChar(fs[k][i])
    {
    }
    forall k | 0 <= k < |fs|
      ensures EscapeAll(fs)[k] == fs[k]
    {
      PlainValue(fs[k]);
      UnquotedField(fs[k]);
    }
  }

  lemma UnquotedField(s: string)
    requires !NeedsQuotesInRow(s)
    ensures EscapeField(Some(s)) == s
  {
  }
}

=== FILE: openalex.dfy ===
/**
  OpenAlexService: a single title search, only for a PDF title of at least
  5 characters (no raw-text fallback), scored with the full ratio and an
  author floor of 40, written back only above 50.
 */
module OpenAlex {
  import opened Text
  import opened Scoring
  import opened Record
  import opened Wire

  /** parseAndScore: the first result, if any, judged against the PDF title. */
  function ParseAndScore(it: Item, pdfTitle: string, body: Body, fz: Fuzzy): (r: Scored)
    ensures !r.found ==> r.item == it
    ensures body.Hits? && body.top.Some? && it.authors.Some? ==>
      var c := body.top.value;
      var score := Composite(fz.ratio(ToLower(CandidateTitle(c)), ToLower(pdfTitle)),
                             fz.tokenSortRatio(NameLine(c.people), it.authors.value), SearchAuthorFloor);
      (r.found <==> score > DisplayThreshold) && (r.found ==> r.item.matchScore == score)
  {
    match body
    case Hits(Some(c)) => Judge(it, c, fz.ratio(ToLower(CandidateTitle(c)), ToLower(pdfTitle)), fz)
    case _ => Scored(it, false)
  }

  /** verify. */
  function Verify(it: Item, send: Network, fz: Fuzzy): (v: Visit)
    ensures it.pdfTitle.None? || |it.pdfTitle.value| < 5 ==> v == Visit(it, false, [], [])
    ensures it.pdfTitle.Some? && |it.pdfTitle.value| >= 5 ==>
      v.sent == [Request(OpenAlexSearch, it.pdfTitle.value, 0)] && v.waits == []
    ensures v.found ==> IsOk(send(v.sent[0])) && send(v.sent[0]).body.Hits? && send(v.sent[0]).body.top.Some?
    ensures it.pdfTitle.Some? && |it.pdfTitle.value| >= 5 && IsOk(send(v.sent[0])) ==>
      Scored(v.item, v.found) == ParseAndScore(it, it.pdfTitle.value, send(v.sent[0]).body, fz)
    ensures !v.found ==> v.item == it
    ensures v.found ==> DisplayThreshold < v.item.matchScore <= 100
    ensures v.found ==> v.item.status == (if v.item.matchScore > PassThreshold then Pass else Check)
    ensures v.found ==> v.item.verified == (it.verified || v.item.matchScore > PassThreshold)
    ensures v.found ==> exists c :: send(v.sent[0]) == Response(200, Hits(Some(c)))
                         && v.item.dbTitle == CandidateTitle(c) && v.item.dbAuthors == NameLine(c.people)
    ensures SameSource(v.item, it)
  {
    if it.pdfTitle.None? || |it.pdfTitle.value| < 5 then Visit(it, false, [], [])
    else
      var req := Request(OpenAlexSearch, it.pdfTitle.value, 0);
      var reply := send(req);
      var r := if IsOk(reply) then ParseAndScore(it, it.pdfTitle.value, reply.body, fz) else Scored(it, false);
      Visit(r.item, r.found, [req], [])
  }

  /** A 200 carrying a hit is written back iff the hit's composite of the
      full title ratio and the author similarity (floor 40) exceeds 50, and
      that composite is the stored score. */
  lemma VerifyScore(it: Item, send: Network, fz: Fuzzy, c: Candidate)
    requires it.pdfTitle.Some? && |it.pdfTitle.value| >= 5 && it.authors.Some?
    requires send(Request(OpenAlexSearch, it.pdfTitle.value, 0)) == Response(200, Hits(Some(c)))
    ensures var v := Verify(it, send, fz);
      var score := Composite(fz.ratio(ToLower(CandidateTitle(c)), ToLower(it.pdfTitle.value)),
                             fz.tokenSortRatio(NameLine(c.people), it.authors.value), SearchAuthorFloor);
      (v.found <==> score > DisplayThreshold) && (v.found ==> v.item.matchScore == score)
  {
    var v := Verify(it, send, fz);
    assert v.sent[0] == Request(OpenAlexSearch, it.pdfTitle.value, 0);
  }

  /** The earlier candidate plays no part: an item that differs only in
      its database title, authors and score gets the same result, so a hit
      above 50 replaces even a better earlier candidate. */
  lemma EarlierCandidateIgnored(it: Item, t: string, a: string, s: int, send: Network, fz: Fuzzy)
    ensures var v1 := Verify(it, send, fz);
      var v2 := Verify(it.(dbTitle := t, dbAuthors := a, matchScore := s), send, fz);
      v1.found == v2.found && v1.sent == v2.sent
      && (v1.found ==> v1.item.dbTitle == v2.item.dbTitle && v1.item.dbAuthors == v2.item.dbAuthors
                       && v1.item.matchScore == v2.item.matchScore)
  {
  }

  /** The identifier OpenAlex returns never reaches the item: two candidates
      that differ only in doi, arxiv or url give the same outcome. */
  lemma IdentifierIgnored(it: Item, send1: Network, send2: Network, fz: Fuzzy, c: Candidate, d: Option<string>)
    requires it.pdfTitle.Some? && |it.pdfTitle.value| >= 5
    requires send1(Request(OpenAlexSearch, it.pdfTitle.value, 0)) == Response(200, Hits(Some(c)))
    requires send2(Request(OpenAlexSearch, it.pdfTitle.value, 0)) == Response(200, Hits(Some(c.(doi := d))))
    ensures Verify(it, send1, fz) == Verify(it, send2, fz)
  {
  }
}

=== FILE: parser.dfy ===
/**
  ReferenceParser: turns one pasted citation line into (authors, title).
  A leading citation label such as "[12]", "(3)", "7." is removed with the
  regex ^[\[\(]?\d+[\]\)]?[.,:]?\s* ; the CRF reference model (outside
  this model) then proposes authors and a title; without a title the
  cleaned line itself is the title; `clean` strips trailing punctuation.
 */
module RefParser {
  import opened Text

  /** The pair the parser returns; `authors` may be null. */
  datatype ParsedData = ParsedData(authors: Option<string>, title: string)

  /** What the CRF model reads from a citation: its author values (possibly
      none) and its first title value (possibly null). */
  datatype ModelEntry = ModelEntry(authors: seq<string>, title: Option<string>)

  /** The CRF model: None when it is not loaded or throws. */
  type CrfModel = string -> Option<ModelEntry>

  predicate IsOpen(c: char) {
    c == '[' || c == '('
  }

  predicate IsClose(c: char) {
    c == ']' || c == ')'
  }

  predicate IsLabelPunct(c: char) {
    c == '.' || c == ',' || c == ':'
  }

  /** The length of the digit run starting at `i`. */
  function DigitRun(s: string, i: nat): (n: nat)
    requires i <= |s|
    ensures i + n <= |s|
    ensures forall k :: i <= k < i + n ==> IsDigit(s[k])
    ensures i + n == |s| || !IsDigit(s[i + n])
    decreases |s| - i
  {
    if i < |s| && IsDigit(s[i]) then 1 + DigitRun(s, i + 1) else 0
  }

  /** The length of the `\s` run starting at `i`. */
  function SpaceRun(s: string, i: nat): (n: nat)
    requires i <= |s|
    ensures i + n <= |s|
    ensures forall k :: i <= k < i + n ==> IsRegexSpace(s[k])
    ensures i + n == |s| || !IsRegexSpace(s[i + n])
    decreases |s| - i
  {
    if i < |s| && IsRegexSpace(s[i]) then 1 + SpaceRun(s, i + 1) else 0
  }

  /** The five parts of a label match: an optional opening bracket, the
      digits, an optional closing bracket, optional punctuation, spaces. */
  datatype LabelMatch = LabelMatch(open: nat, digits: nat, close: nat, punct: nat, space: nat) {
    function Length(): nat {
      open + digits + close + punct + space
    }
  }

  /** The regex match at the start of `s`, None when the regex does not match
      (every part after the digits is optional, so the greedy first choice
      never has to backtrack). */
  function MatchLabel(s: string): (m: Option<LabelMatch>)
    ensures m.None? <==> !(|s| > 0 && (IsDigit(s[0]) || (IsOpen(s[0]) && |s| > 1 && IsDigit(s[1]))))
    ensures m.Some? ==> m.value.Length() <= |s|
  {
    var open := if |s| > 0 && IsOpen(s[0]) then 1 else 0;
    var digits := DigitRun(s, open);
    if digits == 0 then None
    else
      var j := open + digits;
      var close := if j < |s| && IsClose(s[j]) then 1 else 0;
      var punct := if j + close < |s| && IsLabelPunct(s[j + close]) then 1 else 0;
      var space := SpaceRun(s, j + close + punct);
      Some(LabelMatch(open, digits, close, punct, space))
  }

  /** A match is an optional opening bracket, at least one digit, an
      optional closing bracket, optional punctuation, then every space
      that follows. */
  lemma MatchLabelShape(s: string)
    requires MatchLabel(s).Some?
    ensures var p := MatchLabel(s).value;
      && p.open <= 1 && p.digits >= 1 && p.close <= 1 && p.punct <= 1
      && (p.open == 1 <==> IsOpen(s[0]))
      && (forall k :: p.open <= k < p.open + p.digits ==> IsDigit(s[k]))
      && (p.close == 1 ==> IsClose(s[p.open + p.digits]))
      && (p.punct == 1 ==> IsLabelPunct(s[p.open + p.digits + p.close]))
      && (forall k :: p.Length() - p.space <= k < p.Length() ==> IsRegexSpace(s[k]))
      && (p.Length() == |s| || !IsRegexSpace(s[p.Length()]))
  {
    var p := MatchLabel(s).value;
    var i := p.open + p.digits + p.close + p.punct;
    assert p.space == SpaceRun(s, i);
    assert p.digits == DigitRun(s, p.open);
  }

  /** The match is the greedy one: it takes the whole digit run, and the
      closing bracket and the punctuation whenever they are there. */
  lemma MatchLabelGreedy(s: string)
    requires MatchLabel(s).Some?
    ensures var p := MatchLabel(s).value;
      && (p.open + p.digits == |s| || !IsDigit(s[p.open + p.digits]))
      && (p.close == 0 ==> p.open + p.digits == |s| || !IsClose(s[p.open + p.digits]))
      && (p.punct == 0 ==> p.open + p.digits + p.close == |s| || !IsLabelPunct(s[p.open + p.digits + p.close]))
  {
    var p := MatchLabel(s).value;
    assert p.digits == DigitRun(s, p.open);
  }

  /** The input with its leading label (if any) removed. */
  function StripLabel(s: string): (r: string)
    ensures |r| <= |s| && r == s[|s| - |r|..]
    ensures !(|s| > 0 && (IsDigit(s[0]) || IsOpen(s[0]))) ==> r == s
    ensures MatchLabel(s).None? ==> r == s
    ensures MatchLabel(s).Some? ==> r == s[MatchLabel(s).value.Length()..]
  {
    match MatchLabel(s)
    case None => s
    case Some(m) => s[m.Length()..]
  }

  /** The first label form of the parser test: "[80] N. Rytilä, ..." loses "[80] ". */
  lemma BracketedLabelStripped(s: string)
    requires s == "[80] N. Rytil\U{E4}"
    ensures StripLabel(s) == "N. Rytil\U{E4}"
  {
    assert DigitRun(s, 3) == 0;
    assert DigitRun(s, 2) == 1;
    assert DigitRun(s, 1) == 2;
    assert SpaceRun(s, 5) == 0;
    assert SpaceRun(s, 4) == 1;
    assert MatchLabel(s) == Some(LabelMatch(1, 2, 1, 0, 1));
  }

  /** A leading year is stripped too: "2020. Title" becomes "Title". */
  lemma LeadingYearStripped(s: string)
    requires s == "2020. Title"
    ensures StripLabel(s) == "Title"
  {
    assert DigitRun(s, 4) == 0;
    assert DigitRun(s, 3) == 1;
    assert DigitRun(s, 2) == 2;
    assert DigitRun(s, 1) == 3;
    assert DigitRun(s, 0) == 4;
    assert SpaceRun(s, 6) == 0;
    assert SpaceRun(s, 5) == 1;
    assert MatchLabel(s) == Some(LabelMatch(0, 4, 0, 1, 1));
  }

  predicate IsTrailPunct(c: char) {
    c == '.' || c == ',' || c == ';'
  }

  /** Java's line terminators, before the last of which `$` also matches. */
  predicate IsLineTerminator(c: char) {
    c == '\n' || c == '\r' || c == '\U{85}' || c == '\U{2028}' || c == '\U{2029}'
  }

  /** How many characters at the end form a final line terminator ("\r\n" counts as one). */
  function FinalTerminator(s: string): (n: nat)
    ensures n <= 2 && n <= |s|
  {
    if |s| >= 2 && s[|s| - 2] == '\r' && s[|s| - 1] == '\n' then 2
    else if |s| >= 1 && IsLineTerminator(s[|s| - 1]) then 1
    else 0
  }

  /** The length of the run of '.', ',' and ';' that ends just before `end`. */
  function PunctRunBefore(s: string, end: nat): (n: nat)
    requires end <= |s|
    ensures n <= end
    ensures forall k :: end - n <= k < end ==> IsTrailPunct(s[k])
    ensures n == end || !IsTrailPunct(s[end - n - 1])
  {
    if end > 0 && IsTrailPunct(s[end - 1]) then 1 + PunctRunBefore(s, end - 1) else 0
  }

  /** replaceAll("[.,;]+$", ""): the maximal punctuation run that ends at
      the end of the input, or just before a final line terminator, is
      removed; nothing else changes. */
  function StripTrailingPunct(s: string): (r: string)
    ensures var e := |s| - FinalTerminator(s); var n := PunctRunBefore(s, e);
      r == s[..e - n] + s[e..]
      && (e - n == 0 || !IsTrailPunct(s[e - n - 1]))
      && (forall k :: e - n <= k < e ==> IsTrailPunct(s[k]))
    ensures FinalTerminator(s) == 0 ==> r == [] || !IsTrailPunct(r[|r| - 1])
  {
    var e := |s| - FinalTerminator(s);
    var n := PunctRunBefore(s, e);
    s[..e - n] + s[e..]
  }

  /** clean: trailing punctuation removed, then trimmed; null gives "". */
  function Clean(input: Option<string>): (r: string)
    ensures input.None? ==> r == ""
    ensures r == [] || (!IsTrimmable(r[0]) && !IsTrimmable(r[|r| - 1]))
    ensures input.Some? ==> r == Trim(StripTrailingPunct(input.value))
  {
    if input.None? then "" else Trim(StripTrailingPunct(input.value))
  }

  /** Trailing dots, commas and semicolons go, and so do the spaces before them. */
  lemma CleanExample(s: string, t: string)
    requires s == "A title.,;" && t == "A title ;"
    ensures Clean(Some(s)) == "A title"
    ensures Clean(Some(t)) == "A title"
  {
    assert PunctRunBefore(s, 7) == 0;
    assert PunctRunBefore(s, 8) == 1;
    assert PunctRunBefore(s, 9) == 2;
    assert PunctRunBefore(s, 10) == 3;
    assert StripTrailingPunct(s) == "A title";
    assert PunctRunBefore(t, 8) == 0;
    assert PunctRunBefore(t, 9) == 1;
    assert StripTrailingPunct(t) == "A title ";
    assert TrimStart("A title ") == "A title ";
  }

  /** parse. */
  function Parse(raw: string, crf: CrfModel): (p: ParsedData)
    ensures Trim(raw) == "" ==> p == ParsedData(Some("Unknown"), "Unknown")
    ensures Trim(raw) != "" ==>
      var entry := crf(Trim(StripLabel(raw)));
      && (p.authors.Some? <==> entry.Some? && |entry.value.authors| > 0)
      && (p.authors.Some? ==> p.authors.value == Join(entry.value.authors, ", "))
      && (entry.None? || entry.value.title.None? || entry.value.title.value == "" ==>
            p.title == Clean(Some(Trim(StripLabel(raw)))))
      && (entry.Some? && entry.value.title.Some? && entry.value.title.value != "" ==>
            p.title == Clean(entry.value.title))
  {
    if Trim(raw) == "" then ParsedData(Some("Unknown"), "Unknown")
    else
      var cleanRef := Trim(StripLabel(raw));
      var entry := crf(cleanRef);
      var authors := if entry.Some? && |entry.value.authors| > 0 then Some(Join(entry.value.authors, ", ")) else None;
      var title := if entry.Some? && entry.value.title.Some? && entry.value.title.value != "" then entry.value.title.value else cleanRef;
      ParsedData(authors, Clean(Some(title)))
  }

  /** A line that starts with neither a bracket nor a digit reaches the model
      (and, without a model title, the title) merely trimmed. */
  lemma UnlabelledLineOnlyTrimmed(raw: string, crf: CrfModel)
    requires Trim(raw) != ""
    requires !(|raw| > 0 && (IsDigit(raw[0]) || IsOpen(raw[0])))
    requires crf(Trim(raw)).None?
    ensures Parse(raw, crf) == ParsedData(None, Clean(Some(Trim(raw))))
  {
  }
}

=== FILE: record.dfy ===
/**
  ReferenceItem: one citation under verification, as an immutable record
  with update functions. The JavaFX change listener on `verified` is
  folded into SetVerified, which runs it only when the value changes.
 */
module Record {
  import opened Text

  /** The status column. Its colour is presentation and is not modelled. */
  datatype Status = Waiting | Searching | Pass | Check | Fail | NotFound {
    /** The text shown for the status (and written to the CSV export). */
    function Label(): string {
      match this
      case Waiting => "WAITING"
      case Searching => "SEARCHING..."
      case Pass => "\U{2705} PASS"
      case Check => "! CHECK"
      case Fail => "\U{274C} FAIL"
      case NotFound => "\U{274C} NOT FOUND"
    }
  }

  /** The PDF-side fields (authors, pdfTitle, doi may be null), the raw
      citation, and the best database candidate written so far. */
  datatype Item = Item(
    id: int,
    status: Status,
    authors: Option<string>,
    pdfTitle: Option<string>,
    rawText: string,
    doi: Option<string>,
    dbTitle: string,
    dbAuthors: string,
    matchScore: int,
    verified: bool)

  /** The fields that only the constructor sets: everything an adapter or
      the listener may not change. */
  predicate SameSource(a: Item, b: Item) {
    a.id == b.id && a.authors == b.authors && a.pdfTitle == b.pdfTitle
    && a.rawText == b.rawText && a.doi == b.doi
  }

  predicate ValidScore(it: Item) {
    0 <= it.matchScore <= 100
  }

  /** The constructor: no database candidate, score 0, not verified. */
  function New(id: int, status: Status, authors: Option<string>, pdfTitle: Option<string>,
               rawText: string, doi: Option<string>): (r: Item)
    ensures r.id == id && r.status == status && r.authors == authors
    ensures r.pdfTitle == pdfTitle && r.rawText == rawText && r.doi == doi
    ensures r.matchScore == 0 && r.dbTitle == "" && r.dbAuthors == "" && !r.verified
  {
    Item(id, status, authors, pdfTitle, rawText, doi, "", "", 0, false)
  }

  /** What the `verified` listener writes: PASS when checked; when
      unchecked, the score decides with an INCLUSIVE 75. */
  function ListenerStatus(checked: bool, score: int): (s: Status)
    ensures checked ==> s == Pass
    ensures !checked ==> (s == Pass <==> score >= 75)
    ensures !checked ==> (s == Check <==> 50 < score < 75)
    ensures !checked ==> (s == Fail <==> score <= 50)
  {
    if checked then Pass
    else if score >= 75 then Pass
    else if score > 50 then Check
    else Fail
  }

  /** The adapters' classification of a fresh score, with an EXCLUSIVE 75. */
  function Classify(score: int): (s: Status)
    ensures s == Pass <==> score > 75
    ensures s == Check <==> 50 < score <= 75
    ensures s == Fail <==> score <= 50
  {
    if score > 75 then Pass else if score > 50 then Check else Fail
  }

  /** The listener and the adapters classify every score alike except 75,
      which the listener calls PASS and the adapters CHECK. */
  lemma ClassifyDisagreesOnlyAt75(score: int)
    ensures ListenerStatus(false, score) != Classify(score) <==> score == 75
    ensures score == 75 ==> ListenerStatus(false, score) == Pass && Classify(score) == Check
  {
  }

  /** setVerified: stores the value and, when it changed, lets the listener
      recompute the status. Nothing but `verified` and `status` changes. */
  function SetVerified(it: Item, v: bool): (r: Item)
    ensures r.verified == v
    ensures it.verified == v ==> r == it
    ensures it.verified != v ==> r.status == ListenerStatus(v, it.matchScore)
    ensures r == it.(verified := v, status := r.status)
  {
    if it.verified == v then it
    else it.(verified := v, status := ListenerStatus(v, it.matchScore))
  }

  /** Toggling the box twice from an unchecked state ends unchecked, with
      the status recomputed from the score whatever it was before. */
  lemma UncheckRecomputesFromScore(it: Item)
    requires it.verified
    ensures SetVerified(it, false).status == ListenerStatus(false, it.matchScore)
    ensures SetVerified(SetVerified(it, false), true).status == Pass
  {
  }

  /** setCrossrefData: the database title, authors and score, nothing else. */
  function SetCrossrefData(it: Item, title: string, authors: string, score: int): (r: Item)
    ensures r.dbTitle == title && r.dbAuthors == authors && r.matchScore == score
    ensures SameSource(r, it) && r.status == it.status && r.verified == it.verified
  {
    it.(dbTitle := title, dbAuthors := authors, matchScore := score)
  }

  /** ReferenceItem.markNotFound as written: status NOT FOUND and score 0,
      then setVerified(true), whose listener overwrites the status with
      PASS whenever the item was not verified before. */
  function MarkNotFound(it: Item): (r: Item)
    ensures r.matchScore == 0 && r.verified
    ensures !it.verified ==> r.status == Pass
    ensures it.verified ==> r.status == NotFound
    ensures SameSource(r, it) && r.dbTitle == it.dbTitle && r.dbAuthors == it.dbAuthors
  {
    SetVerified(it.(status := NotFound, matchScore := 0), true)
  }

  /** The NOT FOUND status is lost for any unverified item. */
  lemma MarkNotFoundLosesStatus()
    ensures var it := New(1, Waiting, None, Some("T"), "raw", None);
      MarkNotFound(it).status == Pass && MarkNotFound(it).status != NotFound
  {
  }

  /** markNotFound with the evident intent: the item ends verified with
      score 0 AND status NOT FOUND, whatever its previous state. */
  function MarkNotFoundKeepingStatus(it: Item): (r: Item)
    ensures r.matchScore == 0 && r.verified && r.status == NotFound
    ensures SameSource(r, it) && r.dbTitle == it.dbTitle && r.dbAuthors == it.dbAuthors
  {
    SetVerified(it, true).(status := NotFound, matchScore := 0)
  }

  /** How many items are verified: the dashboard's "passed" and the
      report's "Verified" count. */
  function CountVerified(items: seq<Item>): (n: nat)
    ensures n <= |items|
    ensures n == 0 <==> forall i :: 0 <= i < |items| ==> !items[i].verified
    ensures n == |items| <==> forall i :: 0 <= i < |items| ==> items[i].verified
    decreases |items|
  {
    if |items| == 0 then 0
    else
      var rest := CountVerified(items[1..]);
      assert forall i :: 1 <= i < |items| ==> items[i] == items[1..][i - 1];
      (if items[0].verified then 1 else 0) + rest
  }
}

=== FILE: report.dfy ===
/**
  ReportService: the integrity diagnostic report. A summary of the counts, then one
  diagnostic block for every item scoring below 80 that is not verified,
  each with a diagnosis from a fixed rule chain. A runtime exception in the
  rule chain (null PDF authors, an author string of spaces only) aborts
  the whole export; the clock reading and the file name are parameters.
 */
module Report {
  import opened Text
  import opened Record

  /** The unchecked exceptions getDiagnosis can raise. */
  datatype Fault = NullPointer | IndexOutOfBounds

  /** A computation that either completes or aborts with a fault. */
  datatype Outcome<T> = Done(value: T) | Crash(fault: Fault)

  datatype Diagnosis = NoMatch | DoiHijacking | AuthorMismatch | TitleMismatch(diff: int) | LowConfidence {
    function Message(): string {
      match this
      case NoMatch => "NO MATCH FOUND. This paper does not appear in the Crossref/Zenodo databases."
      case DoiHijacking => "POTENTIAL DOI HIJACKING. The DOI provided points to a completely different paper."
      case AuthorMismatch => "AUTHOR MISMATCH. Titles are similar, but the author lists do not match."
      case TitleMismatch(d) => "SIGNIFICANT TITLE MISMATCH. Database record differs by " + IntToString(d) + "%."
      case LowConfidence => "LOW CONFIDENCE MATCH. Verify spelling or formatting."
    }
  }

  /** The detected DOI is non-null and non-empty. */
  predicate HasDoiText(it: Item) {
    it.doi.Some? && it.doi.value != ""
  }

  /** A non-empty DOI with a score below 40. */
  predicate Hijacked(it: Item) {
    HasDoiText(it) && it.matchScore < 40
  }

  predicate AllSpaces(s: string) {
    forall i :: 0 <= i < |s| ==> s[i] == ' '
  }

  /** split(" ")[0] of a non-empty string: the text before the first space.
      Java drops trailing empty pieces, so a string of spaces only splits
      into nothing and the index fails (None). */
  function FirstWord(s: string): (r: Option<string>)
    requires |s| > 0
    ensures r.None? <==> AllSpaces(s)
    ensures r.Some? ==> IsPrefix(r.value, s)
    ensures r.Some? ==> (forall i :: 0 <= i < |r.value| ==> r.value[i] != ' ')
    ensures r.Some? ==> |r.value| == |s| || s[|r.value|] == ' '
  {
    if AllSpaces(s) then None else Some(s[..IndexOf(s, ' ')])
  }

  /** replaceAll(",", ""). */
  function RemoveCommas(s: string): (r: string)
    ensures |r| <= |s|
    ensures forall i :: 0 <= i < |r| ==> r[i] != ','
    ensures (forall i :: 0 <= i < |s| ==> s[i] != ',') ==> r == s
    decreases |s|
  {
    if |s| == 0 then ""
    else
      var rest := RemoveCommas(s[1..]);
      assert (forall i :: 0 <= i < |s| ==> s[i] != ',') ==> (forall i :: 0 <= i < |s[1..]| ==> s[1..][i] != ',');
      assert s == [s[0]] + s[1..];
      if s[0] == ',' then rest else [s[0]] + rest
  }

  /** The end of the rule chain: a title mismatch below 50, low confidence otherwise. */
  function ByScore(score: int): (d: Diagnosis)
    ensures score < 50 ==> d == TitleMismatch(100 - score)
    ensures score >= 50 ==> d == LowConfidence
  {
    if score < 50 then TitleMismatch(100 - score) else LowConfidence
  }

  /** getDiagnosis. */
  function Diagnose(it: Item): (r: Outcome<Diagnosis>)
    ensures r == Done(NoMatch) <==> it.dbTitle == ""
    ensures r == Done(DoiHijacking) <==> it.dbTitle != "" && Hijacked(it)
    ensures r == Crash(NullPointer) <==> it.dbTitle != "" && !Hijacked(it) && it.authors.None?
    ensures r == Crash(IndexOutOfBounds) <==>
      it.dbTitle != "" && !Hijacked(it) && it.authors.Some? && it.matchScore > 60
      && it.authors.value != "" && it.dbAuthors != "" && AllSpaces(it.authors.value)
    ensures r == Done(AuthorMismatch) <==>
      it.dbTitle != "" && !Hijacked(it) && it.matchScore > 60 && it.authors.Some?
      && it.authors.value != "" && it.dbAuthors != "" && !AllSpaces(ToLower(it.authors.value))
      && !Contains(ToLower(it.dbAuthors), RemoveCommas(FirstWord(ToLower(it.authors.value)).value))
    ensures r.Done? && r.value.TitleMismatch? ==>
      it.dbTitle != "" && !Hijacked(it) && it.matchScore < 50 && r.value.diff == 100 - it.matchScore
    ensures r == Done(LowConfidence) ==> it.dbTitle != "" && !Hijacked(it) && it.matchScore >= 50
  {
    if it.dbTitle == "" then Done(NoMatch)
    else if Hijacked(it) then Done(DoiHijacking)
    else if it.authors.None? then Crash(NullPointer)
    else
      var pdfAuth := ToLower(it.authors.value);
      var dbAuth := ToLower(it.dbAuthors);
      assert AllSpaces(pdfAuth) <==> AllSpaces(it.authors.value);
      if it.matchScore > 60 && pdfAuth != "" && dbAuth != "" then
        match FirstWord(pdfAuth)
        case None => Crash(IndexOutOfBounds)
        case Some(w) => if !Contains(dbAuth, RemoveCommas(w)) then Done(AuthorMismatch) else Done(ByScore(it.matchScore))
      else Done(ByScore(it.matchScore))
  }

  /** A candidate with a title, no hijacked DOI and a score in [50, 60] is
      always "low confidence": the author check starts above 60. */
  lemma ModerateScoreLowConfidence(it: Item)
    requires it.dbTitle != "" && !Hijacked(it) && it.authors.Some?
    requires 50 <= it.matchScore <= 60
    ensures Diagnose(it) == Done(LowConfidence)
  {
  }

  lemma PrefixContained(p: string, s: string)
    requires IsPrefix(p, s)
    ensures Contains(s, p)
  {
  }

  /** Identical comma-free author strings never give an author mismatch. */
  lemma SameAuthorsNoMismatch(it: Item)
    requires it.authors == Some(it.dbAuthors)
    requires forall i :: 0 <= i < |it.dbAuthors| ==> it.dbAuthors[i] != ','
    ensures Diagnose(it) != Done(AuthorMismatch)
  {
    var pdfAuth := ToLower(it.dbAuthors);
    if it.dbTitle != "" && !Hijacked(it) && it.matchScore > 60 && pdfAuth != "" && !AllSpaces(pdfAuth) {
      var w := FirstWord(pdfAuth).value;
      assert forall i :: 0 <= i < |w| ==> w[i] == pdfAuth[i];
      assert RemoveCommas(w) == w;
      PrefixContained(w, pdfAuth);
    }
  }

  /** An item gets a diagnostic block iff it scores below 80 and is not verified. */
  predicate NeedsReview(it: Item) {
    it.matchScore < 80 && !it.verified
  }

  /** The items that get a block, in list order. */
  function Reviewed(items: seq<Item>): (r: seq<Item>)
    ensures |r| <= |items|
    ensures forall x :: x in r <==> x in items && NeedsReview(x)
    decreases |items|
  {
    if |items| == 0 then []
    else
      var rest := Reviewed(items[1..]);
      assert forall x :: x in items <==> x == items[0] || x in items[1..];
      if NeedsReview(items[0]) then [items[0]] + rest else rest
  }

  /** The filter keeps list order and multiplicity: an item added at the
      end is reviewed at the end, or not at all. */
  lemma {:induction false} ReviewedAppend(items: seq<Item>, x: Item)
    ensures Reviewed(items + [x]) == Reviewed(items) + (if NeedsReview(x) then [x] else [])
    decreases |items|
  {
    if |items| > 0 {
      assert (items + [x])[1..] == items[1..] + [x];
      ReviewedAppend(items[1..], x);
    } else {
      assert ([] + [x])[1..] == [];
    }
  }

  /** Every block is for an unverified item, so there are never more blocks
      than items counted as needing review. */
  lemma {:induction false} ReviewedAtMostUnverified(items: seq<Item>)
    ensures |Reviewed(items)| <= |items| - CountVerified(items)
    decreases |items|
  {
    if |items| > 0 {
      ReviewedAtMostUnverified(items[1..]);
    }
  }

  /** When every score is below 80, the unverified items are exactly the reviewed ones. */
  lemma {:induction false} ReviewedAllUnverified(items: seq<Item>)
    requires forall i :: 0 <= i < |items| ==> items[i].matchScore < 80
    ensures |Reviewed(items)| == |items| - CountVerified(items)
    decreases |items|
  {
    if |items| > 0 {
      assert forall i :: 0 <= i < |items| - 1 ==> items[1..][i] == items[i + 1];
      ReviewedAllUnverified(items[1..]);
    }
  }

  lemma {:induction false} NothingReviewedWhenAllVerified(items: seq<Item>)
    requires forall i :: 0 <= i < |items| ==> items[i].verified
    ensures Reviewed(items) == []
    decreases |items|
  {
    if |items| > 0 {
      assert forall i :: 0 <= i < |items| - 1 ==> items[1..][i] == items[i + 1];
      NothingReviewedWhenAllVerified(items[1..]);
    }
  }

  /** The database part of a block, printed only when a title was found. */
  datatype DbPart = DbPart(title: string, authors: string, similarity: int)

  datatype Block = Block(
    id: int,
    diagnosis: Diagnosis,
    pdfTitle: Option<string>,
    pdfAuthors: Option<string>,
    db: Option<DbPart>,
    doi: Option<string>)

  /** One diagnostic block. */
  function BlockOf(it: Item, d: Diagnosis): (b: Block)
    ensures b.id == it.id && b.diagnosis == d
    ensures b.pdfTitle == it.pdfTitle && b.pdfAuthors == it.authors
    ensures b.db.Some? <==> it.dbTitle != ""
    ensures b.db.Some? ==> b.db.value == DbPart(it.dbTitle, it.dbAuthors, it.matchScore)
    ensures b.doi.Some? <==> HasDoiText(it)
    ensures b.doi.Some? ==> b.doi == it.doi
  {
    Block(it.id, d, it.pdfTitle, it.authors,
          if it.dbTitle != "" then Some(DbPart(it.dbTitle, it.dbAuthors, it.matchScore)) else None,
          if HasDoiText(it) then it.doi else None)
  }

  /** The blocks of the given items, in order; the first fault aborts. */
  function Blocks(items: seq<Item>): (r: Outcome<seq<Block>>)
    ensures r.Crash? <==> exists k :: 0 <= k < |items| && Diagnose(items[k]).Crash?
    ensures r.Done? ==> |r.value| == |items|
    ensures r.Done? ==> forall k :: 0 <= k < |items| ==>
      Diagnose(items[k]).Done? && r.value[k] == BlockOf(items[k], Diagnose(items[k]).value)
    decreases |items|
  {
    if |items| == 0 then Done([])
    else
      match Diagnose(items[0])
      case Crash(f) => Crash(f)
      case Done(d) =>
        var tail := items[1..];
        assert forall k :: 1 <= k < |items| ==> items[k] == tail[k - 1];
        match Blocks(tail)
        case Crash(f) => Crash(f)
        case Done(rest) => Done([BlockOf(items[0], d)] + rest)
  }

  datatype Summary = Summary(total: int, verified: int, reviewNeeded: int)

  datatype Diagnostics = Diagnostics(summary: Summary, blocks: seq<Block>)

  /** Block k is the diagnostic block of record k, with its diagnosis. */
  predicate BlocksOf(reviewed: seq<Item>, bs: seq<Block>) {
    && |bs| == |reviewed|
    && forall k :: 0 <= k < |bs| ==>
         Diagnose(reviewed[k]).Done? && bs[k] == BlockOf(reviewed[k], Diagnose(reviewed[k]).value)
  }

  /** The content of the report: the counts, and the blocks unless nothing needs review. */
  function Build(items: seq<Item>): (r: Outcome<Diagnostics>)
    ensures r.Done? ==> r.value.summary == Summary(|items|, CountVerified(items), |items| - CountVerified(items))
    ensures r.Done? ==> r.value.summary.verified + r.value.summary.reviewNeeded == r.value.summary.total
    ensures r.Done? && r.value.summary.reviewNeeded == 0 ==> r.value.blocks == []
    ensures r.Done? ==> |r.value.blocks| == |Reviewed(items)|
    ensures r.Done? ==> forall k :: 0 <= k < |r.value.blocks| ==> r.value.blocks[k].id == Reviewed(items)[k].id
    ensures r.Done? ==> BlocksOf(Reviewed(items), r.value.blocks)
    ensures r.Crash? <==> exists x :: x in items && NeedsReview(x) && Diagnose(x).Crash?
  {
    var verified := CountVerified(items);
    var summary := Summary(|items|, verified, |items| - verified);
    var reviewed := Reviewed(items);
    if summary.reviewNeeded == 0 then
      NothingReviewedWhenAllVerified(items);
      Done(Diagnostics(summary, []))
    else
      assert forall x :: x in reviewed <==> x in items && NeedsReview(x);
      assert (exists k :: 0 <= k < |reviewed| && Diagnose(reviewed[k]).Crash?)
         <==> (exists x :: x in items && NeedsReview(x) && Diagnose(x).Crash?);
      match Blocks(reviewed)
      case Crash(f) => Crash(f)
      case Done(bs) => Done(Diagnostics(summary, bs))
  }

  /** An item needing review whose PDF authors are null aborts the export
      once it has a database title and no hijacked DOI. */
  lemma NullAuthorsAbort(items: seq<Item>, k: int)
    requires 0 <= k < |items|
    requires NeedsReview(items[k]) && items[k].dbTitle != "" && !Hijacked(items[k]) && items[k].authors.None?
    ensures Build(items).Crash?
  {
    assert items[k] in items;
  }

  const Rule: string := "=================================================="
  const Dashes: string := "--------------------------------------------------"

  function Disclaimer(): string {
    "* DISCLAIMER: This software is an experimental tool intended\n"
    + " to help verify bibliographic references, but is not 100% accurate. \n"
    + "It does not replace manual verification. Always check the original source.\n"
  }

  /** A block as printed; a null PDF title or author string prints as "null". */
  function RenderBlock(b: Block): string {
    "#" + IntToString(b.id) + "\n"
    + "\U{1F534} DIAGNOSIS: " + b.diagnosis.Message() + "\n"
    + Dashes + "\n"
    + "   PDF Title:   " + b.pdfTitle.GetOr("null") + "\n"
    + "   PDF Authors: " + b.pdfAuthors.GetOr("null") + "\n"
    + (if b.db.None? then "" else
         "\n"
         + "   DB Title:    " + b.db.value.title + "\n"
         + "   DB Authors:  " + b.db.value.authors + "\n"
         + "   Similarity:  " + IntToString(b.db.value.similarity) + "%\n")
    + (if b.doi.None? then "" else "   PDF DOI:     " + b.doi.value + "\n")
    + "\n"
  }

  function RenderBlocks(bs: seq<Block>): string
    decreases |bs|
  {
    if |bs| == 0 then "" else RenderBlock(bs[0]) + RenderBlocks(bs[1..])
  }

  /** The report text; `generated` is the formatted clock reading. */
  function Render(d: Diagnostics, generated: string, fileName: string): string {
    "CERCA - INTEGRITY DIAGNOSTIC REPORT\n"
    + "Generated: " + generated + "\n"
    + "File: " + fileName + "\n"
    + Disclaimer()
    + Rule + "\n\n"
    + "SUMMARY\n"
    + "-------\n"
    + "Total References: " + IntToString(d.summary.total) + "\n"
    + "\U{2705} Verified:       " + IntToString(d.summary.verified) + "\n"
    + "\U{26A0}\U{FE0F} Review Needed:  " + IntToString(d.summary.reviewNeeded) + "\n"
    + "\n" + Rule + "\n"
    + "DIAGNOSTICS: ITEMS REQUIRING ATTENTION\n"
    + Rule + "\n\n"
    + (if d.summary.reviewNeeded == 0 then "No issues detected. All references verified with high confidence.\n"
       else RenderBlocks(d.blocks))
    + Rule + "\n"
    + "End of Report\n"
  }

  /** What exportReport writes: the clock reading, the file name and the
      built diagnostics. The bytes written are `Text()`. */
  datatype Document = Document(generated: string, fileName: string, diagnostics: Diagnostics) {
    function Text(): string {
      Render(diagnostics, generated, fileName)
    }
  }

  /** exportReport: the document written, or the fault that aborts the write. */
  function Export(items: seq<Item>, generated: string, fileName: string): (r: Outcome<Document>)
    ensures r.Crash? <==> exists x :: x in items && NeedsReview(x) && Diagnose(x).Crash?
    ensures r.Done? ==> r.value.diagnostics.summary == Summary(|items|, CountVerified(items), |items| - CountVerified(items))
    ensures r.Done? ==> |r.value.diagnostics.blocks| == |Reviewed(items)|
    ensures r.Done? ==> BlocksOf(Reviewed(items), r.value.diagnostics.blocks)
    ensures r.Done? ==> r.value.generated == generated && r.value.fileName == fileName
  {
    match Build(items)
    case Crash(f) => Crash(f)
    case Done(d) => Done(Document(generated, fileName, d))
  }
}

=== FILE: scholar.dfy ===
/**
  SemanticScholarService: key-gated title search with raw-text fallback,
  up to three attempts. Every attempt is preceded by a sleep of the
  current wait; a 429 adds a second sleep of that length and doubles it; a
  403 gives up at once; a 200 returns the parse result; anything else,
  or an exception, moves on to the next attempt.
 */
module SemanticScholar {
  import opened Text
  import opened Scoring
  import opened Record
  import opened Wire

  /** Attempts are numbered 0..MaxRetries. */
  const MaxRetries: nat := 2
  /** The first wait, in milliseconds. */
  const InitialWait: int := 3000

  predicate IsRateLimited(r: Reply) {
    r.Response? && r.code == 429
  }

  predicate IsForbidden(r: Reply) {
    r.Response? && r.code == 403
  }

  /** How many of the requests were answered with 429. */
  function RateLimitedCount(send: Network, reqs: seq<Request>): (n: nat)
    ensures n <= |reqs|
  {
    if |reqs| == 0 then 0
    else (if IsRateLimited(send(reqs[0])) then 1 else 0) + RateLimitedCount(send, reqs[1..])
  }

  function Pow2(n: nat): (p: nat)
    ensures p >= 1
  {
    if n == 0 then 1 else 2 * Pow2(n - 1)
  }

  predicate NonDecreasing(xs: seq<int>) {
    forall i :: 0 < i < |xs| ==> xs[i - 1] <= xs[i]
  }

  /** The identifier the adapter derives from a hit (DOI, else "arXiv:" + id,
      else the url); it is logged nowhere and stored nowhere. */
  function ExternalId(c: Candidate): string {
    var id := if c.doi.Some? then c.doi.value else if c.arxiv.Some? then "arXiv:" + c.arxiv.value else "";
    if id == "" && c.url.Some? then c.url.value else id
  }

  /** The requests sent and the sleeps taken by the retry loop. */
  datatype Trace = Trace(sent: seq<Request>, waits: seq<int>)

  /** A reply after which the loop tries again: anything but a 200 or a 403
      (a 429, another code, or an exception). */
  predicate Retries(r: Reply) {
    !IsOk(r) && !IsForbidden(r)
  }

  /** The requests and sleeps of the retry loop from `attempt` on, with the
      current `wait`; they depend only on the replies. */
  function Tries(term: string, attempt: nat, wait: int, send: Network): (t: Trace)
    requires attempt <= MaxRetries + 1
    ensures |t.sent| <= MaxRetries + 1 - attempt
    ensures attempt <= MaxRetries ==> |t.sent| >= 1
    decreases MaxRetries + 1 - attempt
  {
    if attempt > MaxRetries then Trace([], [])
    else
      var req := Request(ScholarSearch, term, attempt);
      var reply := send(req);
      if !Retries(reply) then Trace([req], [wait])
      else
        var limited := IsRateLimited(reply);
        var rest := Tries(term, attempt + 1, if limited then wait * 2 else wait, send);
        Trace([req] + rest.sent, (if limited then [wait, wait] else [wait]) + rest.waits)
  }

  /** The attempts are numbered consecutively from `attempt`, all with the same term. */
  lemma {:induction false} TriesNumbered(term: string, attempt: nat, wait: int, send: Network)
    requires attempt <= MaxRetries + 1
    ensures var t := Tries(term, attempt, wait, send);
      forall k :: 0 <= k < |t.sent| ==> t.sent[k] == Request(ScholarSearch, term, attempt + k)
    decreases MaxRetries + 1 - attempt
  {
    if attempt <= MaxRetries {
      var req := Request(ScholarSearch, term, attempt);
      var reply := send(req);
      if !Retries(reply) {
        TriesEnd(term, attempt, wait, send);
      } else {
        var w := if IsRateLimited(reply) then wait * 2 else wait;
        var rest := Tries(term, attempt + 1, w, send);
        TriesRetry(term, attempt, wait, send);
        TriesNumbered(term, attempt + 1, w, send);
        var t := Tries(term, attempt, wait, send);
        forall k | 0 <= k < |t.sent|
          ensures t.sent[k] == Request(ScholarSearch, term, attempt + k)
        {
          if k > 0 {
            assert t.sent[k] == rest.sent[k - 1];
          }
        }
      }
    }
  }

  /** Every attempt but the last got a reply that retries; the loop ends
      before its last attempt only on a 200 or a 403. */
  lemma {:induction false} TriesStop(term: string, attempt: nat, wait: int, send: Network)
    requires attempt <= MaxRetries + 1
    ensures var t := Tries(term, attempt, wait, send);
      && (forall k :: 0 <= k < |t.sent| - 1 ==> Retries(send(t.sent[k])))
      && (0 < |t.sent| < MaxRetries + 1 - attempt ==> !Retries(send(t.sent[|t.sent| - 1])))
    decreases MaxRetries + 1 - attempt
  {
    var t := Tries(term, attempt, wait, send);
    if attempt <= MaxRetries {
      var req := Request(ScholarSearch, term, attempt);
      var reply := send(req);
      if Retries(reply) {
        var w := if IsRateLimited(reply) then wait * 2 else wait;
        var rest := Tries(term, attempt + 1, w, send);
        TriesStop(term, attempt + 1, w, send);
        assert t.sent == [req] + rest.sent;
        forall k | 0 <= k < |t.sent| - 1
          ensures Retries(send(t.sent[k]))
        {
          if k > 0 {
            assert t.sent[k] == rest.sent[k - 1];
          }
        }
        if 0 < |t.sent| < MaxRetries + 1 - attempt {
          assert t.sent[|t.sent| - 1] == rest.sent[|rest.sent| - 1];
        }
      }
    }
  }

  /** The retry loop sleeps once per attempt plus once more per 429. */
  lemma {:induction false} TriesSleepCount(term: string, attempt: nat, wait: int, send: Network)
    requires attempt <= MaxRetries + 1
    ensures var t := Tries(term, attempt, wait, send);
      |t.waits| == |t.sent| + RateLimitedCount(send, t.sent)
    decreases MaxRetries + 1 - attempt
  {
    if attempt <= MaxRetries {
      var req := Request(ScholarSearch, term, attempt);
      var reply := send(req);
      var t := Tries(term, attempt, wait, send);
      if !Retries(reply) {
        TriesEnd(term, attempt, wait, send);
        SleepCountStep(send, req, Trace([], []), [wait], t);
      } else {
        var limited := IsRateLimited(reply);
        var w := if limited then wait * 2 else wait;
        var rest := Tries(term, attempt + 1, w, send);
        TriesRetry(term, attempt, wait, send);
        TriesSleepCount(term, attempt + 1, w, send);
        SleepCountStep(send, req, rest, if limited then [wait, wait] else [wait], t);
      }
    }
  }

  /** The sleeps of a trace follow the doubling back-off from `wait`: the
      sleep before attempt k is `wait` doubled once per 429 among the
      earlier replies, and a 429 to attempt k repeats that sleep. */
  predicate Backoff(send: Network, t: Trace, wait: int) {
    forall k :: 0 <= k < |t.sent| ==> BackoffAt(send, t, wait, k)
  }

  predicate BackoffAt(send: Network, t: Trace, wait: int, k: nat)
    requires k < |t.sent|
  {
    var n := RateLimitedCount(send, t.sent[..k]);
    && k + n < |t.waits| && t.waits[k + n] == wait * Pow2(n)
    && (IsRateLimited(send(t.sent[k])) ==> k + n + 1 < |t.waits| && t.waits[k + n + 1] == wait * Pow2(n))
  }

  /** The retry loop sleeps the current wait before each attempt, sleeps it
      again after a 429 and then doubles it. */
  lemma {:induction false} TriesBackoff(term: string, attempt: nat, wait: int, send: Network)
    requires attempt <= MaxRetries + 1
    ensures Backoff(send, Tries(term, attempt, wait, send), wait)
    decreases MaxRetries + 1 - attempt
  {
    if attempt <= MaxRetries {
      var req := Request(ScholarSearch, term, attempt);
      var reply := send(req);
      var t := Tries(term, attempt, wait, send);
      if !Retries(reply) {
        TriesEnd(term, attempt, wait, send);
        BackoffStep(send, req, Trace([], []), wait, wait, [wait], t);
      } else {
        var limited := IsRateLimited(reply);
        var w := if limited then wait * 2 else wait;
        TriesRetry(term, attempt, wait, send);
        TriesBackoff(term, attempt + 1, w, send);
        BackoffStep(send, req, Tries(term, attempt + 1, w, send), wait, w, if limited then [wait, wait] else [wait], t);
      }
    }
  }

  lemma BackoffStep(send: Network, req: Request, rest: Trace, wait: int, w: int, pre: seq<int>, t: Trace)
    requires Backoff(send, rest, w)
    requires w == (if IsRateLimited(send(req)) then wait * 2 else wait)
    requires pre == (if IsRateLimited(send(req)) then [wait, wait] else [wait])
    requires t == Trace([req] + rest.sent, pre + rest.waits)
    ensures Backoff(send, t, wait)
  {
    forall k | 0 <= k < |t.sent|
      ensures BackoffAt(send, t, wait, k)
    {
      if k == 0 {
        assert t.sent[..0] == [];
        assert t.sent[0] == req;
      } else {
        assert BackoffAt(send, rest, w, k - 1);
        BackoffLater(send, req, rest, wait, w, pre, t, k);
      }
    }
  }

  /** Attempt k > 0 of the whole trace is attempt k - 1 of the rest, with
      one more doubling when the first reply was a 429. */
  lemma BackoffLater(send: Network, req: Request, rest: Trace, wait: int, w: int, pre: seq<int>, t: Trace, k: nat)
    requires t == Trace([req] + rest.sent, pre + rest.waits)
    requires 0 < k < |t.sent|
    requires BackoffAt(send, rest, w, k - 1)
    requires w == (if IsRateLimited(send(req)) then wait * 2 else wait)
    requires pre == (if IsRateLimited(send(req)) then [wait, wait] else [wait])
    ensures BackoffAt(send, t, wait, k)
  {
    var j := k - 1;
    var l := |pre| - 1;
    assert t.sent[..k] == [req] + rest.sent[..j];
    CountCons(send, req, rest.sent[..j]);
    var m := RateLimitedCount(send, rest.sent[..j]);
    assert t.sent[k] == rest.sent[j];
    assert t.waits[k + l + m] == rest.waits[j + m];
    if IsRateLimited(send(rest.sent[j])) {
      assert t.waits[k + l + m + 1] == rest.waits[j + m + 1];
    }
    DoubledWait(wait, w, l, m);
  }

  lemma DoubledWait(wait: int, w: int, l: nat, m: nat)
    requires l <= 1 && w == (if l == 1 then wait * 2 else wait)
    ensures w * Pow2(m) == wait * Pow2(l + m)
  {
    if l == 1 {
      assert Pow2(m + 1) == 2 * Pow2(m);
      assert wait * 2 * Pow2(m) == wait * (2 * Pow2(m));
    }
  }

  /** The sleeps of the retry loop start at the current wait, never
      decrease, and follow the doubling back-off. */
  lemma {:induction false} TriesWaits(term: string, attempt: nat, wait: int, send: Network)
    requires attempt <= MaxRetries + 1
    requires wait >= 0
    ensures var t := Tries(term, attempt, wait, send);
      && (|t.waits| > 0 ==> t.waits[0] == wait)
      && NonDecreasing(t.waits)
      && (forall k :: 0 <= k < |t.waits| ==> t.waits[k] >= wait)
      && Backoff(send, t, wait)
    decreases MaxRetries + 1 - attempt
  {
    var t := Tries(term, attempt, wait, send);
    TriesBackoff(term, attempt, wait, send);
    if attempt <= MaxRetries {
      var reply := send(Request(ScholarSearch, term, attempt));
      if Retries(reply) {
        var limited := IsRateLimited(reply);
        var w := if limited then wait * 2 else wait;
        var pre := if limited then [wait, wait] else [wait];
        var rest := Tries(term, attempt + 1, w, send);
        TriesWaits(term, attempt + 1, w, send);
        assert t.waits == pre + rest.waits;
        PrependWaits(pre, rest.waits, wait, w);
      }
    }
  }

  lemma SleepCountStep(send: Network, req: Request, rest: Trace, pre: seq<int>, t: Trace)
    requires |rest.waits| == |rest.sent| + RateLimitedCount(send, rest.sent)
    requires |pre| == 1 + (if IsRateLimited(send(req)) then 1 else 0)
    requires t == Trace([req] + rest.sent, pre + rest.waits)
    ensures |t.waits| == |t.sent| + RateLimitedCount(send, t.sent)
  {
    CountCons(send, req, rest.sent);
  }

  lemma CountCons(send: Network, req: Request, rest: seq<Request>)
    ensures RateLimitedCount(send, [req] + rest) == (if IsRateLimited(send(req)) then 1 else 0) + RateLimitedCount(send, rest)
  {
    assert ([req] + rest)[1..] == rest;
  }

  /** Sleeps of the current wait before a non-decreasing run of sleeps of
      at least a longer wait stay non-decreasing. */
  lemma PrependWaits(pre: seq<int>, rest: seq<int>, wait: int, w: int)
    requires forall k :: 0 <= k < |pre| ==> pre[k] == wait
    requires wait <= w && NonDecreasing(rest) && forall k :: 0 <= k < |rest| ==> rest[k] >= w
    ensures NonDecreasing(pre + rest)
    ensures forall k :: 0 <= k < |pre + rest| ==> (pre + rest)[k] >= wait
  {
    var xs := pre + rest;
    forall i | 0 < i < |xs|
      ensures xs[i - 1] <= xs[i]
    {
      if i > |pre| {
        assert xs[i - 1] == rest[i - 1 - |pre|] && xs[i] == rest[i - |pre|];
      } else if i == |pre| {
        assert xs[i] == rest[0];
      }
    }
  }

  /** The outcome of the loop: the parse result of the 200 that ended it,
      not found when it ended otherwise. */
  function Settle(it: Item, t: Trace, send: Network, fz: Fuzzy): (v: Visit)
    ensures v.sent == t.sent && v.waits == t.waits
    ensures v.found ==> |t.sent| > 0 && IsOk(send(t.sent[|t.sent| - 1]))
    ensures |t.sent| > 0 && IsOk(send(t.sent[|t.sent| - 1])) ==>
      JudgeHit(it, send(t.sent[|t.sent| - 1]).body, fz) == Scored(v.item, v.found)
    ensures |t.sent| > 0 && IsOk(send(t.sent[|t.sent| - 1])) ==>
      HitDecides(it, send(t.sent[|t.sent| - 1]).body, fz, Scored(v.item, v.found))
    ensures !v.found ==> v.item == it
    ensures v.found ==> DisplayThreshold < v.item.matchScore <= 100
    ensures v.found ==> v.item.status == (if v.item.matchScore > PassThreshold then Pass else Check)
    ensures v.found ==> v.item.verified == (it.verified || v.item.matchScore > PassThreshold)
    ensures SameSource(v.item, it)
  {
    if |t.sent| > 0 && IsOk(send(t.sent[|t.sent| - 1])) then
      var r := JudgeHit(it, send(t.sent[|t.sent| - 1]).body, fz);
      Visit(r.item, r.found, t.sent, t.waits)
    else Visit(it, false, t.sent, t.waits)
  }

  /** verify: nothing is sent (and nothing slept) without an API key or
      without a query term of at least 5 characters; otherwise the retry
      loop with the cleaned term, from attempt 0 and a wait of 3000. */
  function Verify(it: Item, send: Network, fz: Fuzzy, apiKey: string): (v: Visit)
    ensures apiKey == "" || SearchTerm(it).None? ==> v == Visit(it, false, [], [])
    ensures !v.found ==> v.item == it
    ensures v.found ==> DisplayThreshold < v.item.matchScore <= 100
    ensures v.found ==> v.item.status == (if v.item.matchScore > PassThreshold then Pass else Check)
    ensures v.found ==> v.item.verified == (it.verified || v.item.matchScore > PassThreshold)
    ensures SameSource(v.item, it)
  {
    if apiKey == "" then Visit(it, false, [], [])
    else
      match SearchTerm(it)
      case None => Visit(it, false, [], [])
      case Some(q) => Settle(it, Tries(CleanQuery(q), 0, InitialWait, send), send, fz)
  }

  /** With a key and a search term, the outcome is the retry loop's on the
      cleaned term, from attempt 0 and a wait of 3000. */
  lemma VerifyIsSettle(it: Item, send: Network, fz: Fuzzy, apiKey: string)
    requires apiKey != "" && SearchTerm(it).Some?
    ensures Verify(it, send, fz, apiKey)
      == Settle(it, Tries(CleanQuery(SearchTerm(it).value), 0, InitialWait, send), send, fz)
  {
  }

  /** With a key and a search term, the requests and sleeps are the retry
      loop's on the cleaned term. */
  lemma VerifyTrace(it: Item, send: Network, fz: Fuzzy, apiKey: string)
    requires apiKey != "" && SearchTerm(it).Some?
    ensures var t := Tries(CleanQuery(SearchTerm(it).value), 0, InitialWait, send);
      Verify(it, send, fz, apiKey).sent == t.sent && Verify(it, send, fz, apiKey).waits == t.waits
  {
    VerifyIsSettle(it, send, fz, apiKey);
  }

  /** With a key and a search term the record is found only on a final
      200, and a 200 carrying a hit is taken iff its floor-40 composite
      exceeds 50, which is then the stored score. */
  lemma VerifyOutcome(it: Item, send: Network, fz: Fuzzy, apiKey: string)
    requires apiKey != "" && SearchTerm(it).Some?
    ensures var v := Verify(it, send, fz, apiKey);
      && |v.sent| > 0
      && (v.found ==> IsOk(send(v.sent[|v.sent| - 1])))
      && (IsOk(send(v.sent[|v.sent| - 1])) ==> HitDecides(it, send(v.sent[|v.sent| - 1]).body, fz, Scored(v.item, v.found)))
  {
    var t := Tries(CleanQuery(SearchTerm(it).value), 0, InitialWait, send);
    VerifyIsSettle(it, send, fz, apiKey);
    SettleOutcome(it, t, send, fz);
  }

  lemma SettleOutcome(it: Item, t: Trace, send: Network, fz: Fuzzy)
    requires |t.sent| > 0
    ensures var v := Settle(it, t, send, fz);
      && |v.sent| > 0
      && (v.found ==> IsOk(send(v.sent[|v.sent| - 1])))
      && (IsOk(send(v.sent[|v.sent| - 1])) ==> HitDecides(it, send(v.sent[|v.sent| - 1]).body, fz, Scored(v.item, v.found)))
  {
  }

  /** With a key and a search term: one to three requests, numbered from 0,
      all with the cleaned term; one sleep per request plus one per 429,
      the first of 3000, never decreasing, and doubled after each 429
      once that 429's repeated sleep is taken. */
  lemma VerifyRequests(it: Item, send: Network, fz: Fuzzy, apiKey: string)
    requires apiKey != "" && SearchTerm(it).Some?
    ensures var v := Verify(it, send, fz, apiKey);
      && 1 <= |v.sent| <= MaxRetries + 1
      && (forall k :: 0 <= k < |v.sent| ==> v.sent[k] == Request(ScholarSearch, CleanQuery(SearchTerm(it).value), k))
      && |v.waits| == |v.sent| + RateLimitedCount(send, v.sent)
      && v.waits[0] == InitialWait && NonDecreasing(v.waits)
      && Backoff(send, Trace(v.sent, v.waits), InitialWait)
  {
    var q := CleanQuery(SearchTerm(it).value);
    VerifyTrace(it, send, fz, apiKey);
    TriesNumbered(q, 0, InitialWait, send);
    TriesSleepCount(q, 0, InitialWait, send);
    TriesWaits(q, 0, InitialWait, send);
  }

  /** 429, 429, then a good 200: found on the third attempt. Each back-off
      sleep repeats the wait before its attempt, so the sleeps are 3000,
      3000, 6000, 6000, 12000. */
  lemma BackoffThenSuccess(it: Item, send: Network, fz: Fuzzy, c: Candidate)
    requires SearchTerm(it).Some?
    requires var q := CleanQuery(SearchTerm(it).value);
      && send(Request(ScholarSearch, q, 0)) == Response(429, Malformed)
      && send(Request(ScholarSearch, q, 1)) == Response(429, Malformed)
      && send(Request(ScholarSearch, q, 2)) == Response(200, Hits(Some(c)))
    requires JudgeHit(it, Hits(Some(c)), fz).found
    ensures var v := Verify(it, send, fz, "key");
      v.found && |v.sent| == 3 && v.waits == [3000, 3000, 6000, 6000, 12000]
  {
    var q := CleanQuery(SearchTerm(it).value);
    BackoffTrace(q, send, c);
    VerifyIsSettle(it, send, fz, "key");
  }

  lemma BackoffTrace(q: string, send: Network, c: Candidate)
    requires send(Request(ScholarSearch, q, 0)) == Response(429, Malformed)
    requires send(Request(ScholarSearch, q, 1)) == Response(429, Malformed)
    requires send(Request(ScholarSearch, q, 2)) == Response(200, Hits(Some(c)))
    ensures Tries(q, 0, InitialWait, send)
      == Trace([Request(ScholarSearch, q, 0), Request(ScholarSearch, q, 1), Request(ScholarSearch, q, 2)],
               [3000, 3000, 6000, 6000, 12000])
  {
    TriesEnd(q, 2, 12000, send);
    TriesRetry(q, 1, 6000, send);
    TriesRetry(q, 0, 3000, send);
  }

  lemma TriesRetry(term: string, attempt: nat, wait: int, send: Network)
    requires attempt <= MaxRetries && Retries(send(Request(ScholarSearch, term, attempt)))
    ensures var limited := IsRateLimited(send(Request(ScholarSearch, term, attempt)));
      var rest := Tries(term, attempt + 1, if limited then wait * 2 else wait, send);
      Tries(term, attempt, wait, send)
        == Trace([Request(ScholarSearch, term, attempt)] + rest.sent, (if limited then [wait, wait] else [wait]) + rest.waits)
  {
  }

  lemma TriesEnd(term: string, attempt: nat, wait: int, send: Network)
    requires attempt <= MaxRetries && !Retries(send(Request(ScholarSearch, term, attempt)))
    ensures Tries(term, attempt, wait, send) == Trace([Request(ScholarSearch, term, attempt)], [wait])
  {
  }

  /** A 403 on the first attempt: one request, one sleep, not found. */
  lemma ForbiddenStopsAtOnce(it: Item, send: Network, fz: Fuzzy)
    requires SearchTerm(it).Some?
    requires send(Request(ScholarSearch, CleanQuery(SearchTerm(it).value), 0)) == Response(403, Malformed)
    ensures var v := Verify(it, send, fz, "key");
      !v.found && |v.sent| == 1 && v.waits == [InitialWait] && v.item == it
  {
    TriesEnd(CleanQuery(SearchTerm(it).value), 0, InitialWait, send);
    VerifyIsSettle(it, send, fz, "key");
  }

  /** Three failures of any other kind: three requests, three sleeps of 3000. */
  lemma ExhaustedAfterThree(it: Item, send: Network, fz: Fuzzy)
    requires SearchTerm(it).Some?
    requires forall k: nat :: k <= MaxRetries ==>
      send(Request(ScholarSearch, CleanQuery(SearchTerm(it).value), k)) == Response(500, Malformed)
    ensures var v := Verify(it, send, fz, "key");
      !v.found && |v.sent| == 3 && v.waits == [3000, 3000, 3000]
  {
    var q := CleanQuery(SearchTerm(it).value);
    assert send(Request(ScholarSearch, q, 0)) == Response(500, Malformed);
    assert send(Request(ScholarSearch, q, 1)) == Response(500, Malformed);
    assert send(Request(ScholarSearch, q, 2)) == Response(500, Malformed);
    FailureTrace(q, send);
    VerifyIsSettle(it, send, fz, "key");
  }

  lemma FailureTrace(q: string, send: Network)
    requires send(Request(ScholarSearch, q, 0)) == Response(500, Malformed)
    requires send(Request(ScholarSearch, q, 1)) == Response(500, Malformed)
    requires send(Request(ScholarSearch, q, 2)) == Response(500, Malformed)
    ensures Tries(q, 0, InitialWait, send)
      == Trace([Request(ScholarSearch, q, 0), Request(ScholarSearch, q, 1), Request(ScholarSearch, q, 2)], [3000, 3000, 3000])
  {
    assert Tries(q, 3, 3000, send) == Trace([], []);
    TriesRetry(q, 2, 3000, send);
    TriesRetry(q, 1, 3000, send);
    TriesRetry(q, 0, 3000, send);
  }

  /** The derived identifier never reaches the item: hits that differ only
      in doi, arxiv id and url give the same outcome. */
  lemma ExternalIdIgnored(it: Item, send1: Network, send2: Network, fz: Fuzzy, c: Candidate,
                          d: Option<string>, x: Option<string>, u: Option<string>)
    requires SearchTerm(it).Some?
    requires forall k: nat :: k <= MaxRetries ==>
      send1(Request(ScholarSearch, CleanQuery(SearchTerm(it).value), k)) == Response(200, Hits(Some(c)))
    requires forall k: nat :: k <= MaxRetries ==>
      send2(Request(ScholarSearch, CleanQuery(SearchTerm(it).value), k)) == Response(200, Hits(Some(c.(doi := d, arxiv := x, url := u))))
    ensures Verify(it, send1, fz, "key") == Verify(it, send2, fz, "key")
  {
    var q := CleanQuery(SearchTerm(it).value);
    var req := Request(ScholarSearch, q, 0);
    assert send1(req) == Response(200, Hits(Some(c)));
    assert send2(req) == Response(200, Hits(Some(c.(doi := d, arxiv := x, url := u))));
    TriesEnd(q, 0, InitialWait, send1);
    TriesEnd(q, 0, InitialWait, send2);
    VerifyIsSettle(it, send1, fz, "key");
    VerifyIsSettle(it, send2, fz, "key");
    SettleOnOk(it, req, InitialWait, send1, fz);
    SettleOnOk(it, req, InitialWait, send2, fz);
    HitIdsIgnored(it, c, c.(doi := d, arxiv := x, url := u), fz);
  }

  lemma SettleOnOk(it: Item, req: Request, wait: int, send: Network, fz: Fuzzy)
    requires IsOk(send(req))
    ensures var r := JudgeHit(it, send(req).body, fz);
      Settle(it, Trace([req], [wait]), send, fz) == Visit(r.item, r.found, [req], [wait])
  {
  }

  /** Scoring a hit reads only its title and authors. */
  lemma HitIdsIgnored(it: Item, c1: Candidate, c2: Candidate, fz: Fuzzy)
    requires c1.title == c2.title && c1.people == c2.people
    ensures JudgeHit(it, Hits(Some(c1)), fz) == JudgeHit(it, Hits(Some(c2)), fz)
  {
    assert CandidateTitle(c1) == CandidateTitle(c2);
  }
}

=== FILE: scoring.dfy ===
/**
  The match scorer shared by the four source adapters. The similarity
  primitives (FuzzySearch.ratio, partialRatio, tokenSortRatio) live in a
  library outside this model; they are parameters whose only known
  property is that they return a percentage.
 */
module Scoring {
  import opened Text

  /** A similarity value as returned by the fuzzy-matching library. */
  type Percent = x: int | 0 <= x <= 100

  /** The three similarity primitives the adapters call. */
  datatype Fuzzy = Fuzzy(
    ratio: (string, string) -> Percent,
    partialRatio: (string, string) -> Percent,
    tokenSortRatio: (string, string) -> Percent)

  /** Crossref discards the author-weighted score below this author similarity. */
  const CrossrefAuthorFloor: int := 50
  /** OpenAlex, Zenodo and Semantic Scholar use a lower author floor. */
  const SearchAuthorFloor: int := 40
  /** A candidate scoring above this is written back to the record. */
  const DisplayThreshold: int := 50
  /** A candidate scoring above this (in the adapters) is a PASS. */
  const PassThreshold: int := 75
  /** Title used by the PDF extractor when it found none. */
  const UnknownTitle: string := "Unknown Title"

  function Min(a: int, b: int): int {
    if a <= b then a else b
  }

  function Max(a: int, b: int): int {
    if a <= b then b else a
  }

  /** The composite score: a title match alone is capped at 50 unless the
      authors agree at least as well as `floor`; otherwise a 60/40 weighted
      mean, truncated. */
  function Composite(title: Percent, author: Percent, floor: int): (r: Percent)
    ensures author < floor ==> r <= DisplayThreshold && r <= title
    ensures author < floor && title <= DisplayThreshold ==> r == title
    ensures author >= floor ==> Min(title, author) <= r <= Max(title, author)
    ensures author >= floor && title == author ==> r == title
  {
    if author < floor then Min(title, 50) else (6 * title + 4 * author) / 10
  }

  /** Raising the title similarity never lowers the composite score. */
  lemma CompositeMonotoneInTitle(t1: Percent, t2: Percent, author: Percent, floor: int)
    requires t1 <= t2
    ensures Composite(t1, author, floor) <= Composite(t2, author, floor)
  {
  }

  /** Below the author floor no title similarity reaches the display
      threshold strictly, so such a candidate is never written back by the
      search adapters and never passes. */
  lemma LowAuthorNeverDisplayed(title: Percent, author: Percent, floor: int)
    requires author < floor
    ensures !(Composite(title, author, floor) > DisplayThreshold)
  {
  }

  /** Two composite examples: (90, 30) caps at 50, (90, 80) gives 86. */
  lemma ScorerExamples()
    ensures Composite(90, 30, SearchAuthorFloor) == 50
    ensures Composite(90, 80, SearchAuthorFloor) == 86
  {
  }

  /** Title similarity of a candidate title against the PDF side: partial
      ratio against the raw citation when the extractor found no title,
      full ratio against the PDF title otherwise, both lower-cased. */
  function TitleSimilarity(fz: Fuzzy, candidate: string, pdfTitle: string, rawText: string): (r: Percent)
    ensures pdfTitle == UnknownTitle ==> r == fz.partialRatio(ToLower(candidate), ToLower(rawText))
    ensures pdfTitle != UnknownTitle ==> r == fz.ratio(ToLower(candidate), ToLower(pdfTitle))
  {
    if pdfTitle == UnknownTitle then fz.partialRatio(ToLower(candidate), ToLower(rawText))
    else fz.ratio(ToLower(candidate), ToLower(pdfTitle))
  }

  /** Both sides are lower-cased before comparison, so the letter case of
      the candidate title never changes the similarity. */
  lemma CandidateCaseIgnored(fz: Fuzzy, candidate: string, pdfTitle: string, rawText: string)
    ensures TitleSimilarity(fz, ToLower(candidate), pdfTitle, rawText) == TitleSimilarity(fz, candidate, pdfTitle, rawText)
  {
    ToLowerIdempotent(candidate);
  }
}

=== FILE: text.dfy ===
/**
  String helpers that mirror the java.lang.String and java.util.regex
  behaviour the checker relies on: trim, ASCII lower-casing, substring
  search, the regex classes `\s` and `[a-zA-Z0-9]`, String.join and the
  "append a separator only when the builder is non-empty" idiom.
 */
module Text {

  /** Java's nullable references: None stands for null. */
  datatype Option<+T> = None | Some(value: T) {
    function GetOr(default: T): T {
      match this
      case Some(v) => v
      case None => default
    }
  }

  /** String.trim() drops every character whose code is at most U+0020. */
  predicate IsTrimmable(c: char) {
    c <= ' '
  }

  /** The regex class `\s` of java.util.regex: [ \t\n\x0B\f\r]. */
  predicate IsRegexSpace(c: char) {
    c == ' ' || c == '\t' || c == '\n' || c == '\U{0B}' || c == '\U{0C}' || c == '\r'
  }

  predicate IsAsciiLetter(c: char) {
    ('a' <= c <= 'z') || ('A' <= c <= 'Z')
  }

  predicate IsDigit(c: char) {
    '0' <= c <= '9'
  }

  predicate IsAsciiAlnum(c: char) {
    IsAsciiLetter(c) || IsDigit(c)
  }

  /** Every character of `s` is one that trim() drops. */
  predicate AllTrimmable(s: string) {
    forall i :: 0 <= i < |s| ==> IsTrimmable(s[i])
  }

  function TrimStart(s: string): (r: string)
    ensures |r| <= |s| && r == s[|s| - |r|..]
    ensures forall i :: 0 <= i < |s| - |r| ==> IsTrimmable(s[i])
    ensures r == [] || !IsTrimmable(r[0])
  {
    if |s| > 0 && IsTrimmable(s[0]) then TrimStart(s[1..]) else s
  }

  function TrimEnd(s: string): (r: string)
    ensures |r| <= |s| && r == s[..|r|]
    ensures forall i :: |r| <= i < |s| ==> IsTrimmable(s[i])
    ensures r == [] || !IsTrimmable(r[|r| - 1])
  {
    if |s| > 0 && IsTrimmable(s[|s| - 1]) then TrimEnd(s[..|s| - 1]) else s
  }

  /** `r` occurs in `s` starting at index `a`. */
  predicate InfixAt(r: string, s: string, a: int) {
    0 <= a && a + |r| <= |s| && s[a..a + |r|] == r
  }

  /** String.trim(): the longest infix that neither starts nor ends with a
      character at or below U+0020. */
  function Trim(s: string): (r: string)
    ensures InfixAt(r, s, |s| - |TrimStart(s)|)
    ensures r == [] || (!IsTrimmable(r[0]) && !IsTrimmable(r[|r| - 1]))
    ensures (forall i :: 0 <= i < |s| ==> IsTrimmable(s[i])) <==> r == []
  {
    TrimShape(s);
    TrimEnd(TrimStart(s))
  }

  lemma TrimShape(s: string)
    ensures var r := TrimEnd(TrimStart(s));
      && InfixAt(r, s, |s| - |TrimStart(s)|)
      && (r == [] || (!IsTrimmable(r[0]) && !IsTrimmable(r[|r| - 1])))
      && ((forall i :: 0 <= i < |s| ==> IsTrimmable(s[i])) <==> r == [])
  {
    var t := TrimStart(s);
    var r := TrimEnd(t);
    var a := |s| - |t|;
    assert r == s[a..][..|r|];
    assert r == s[a..a + |r|];
    assert InfixAt(r, s, a);
    if r != [] {
      assert t[0] == r[0];
      assert s[a] == t[0];
    }
    assert InfixAt(r, s, a);
  }

  /** trim() removes only trimmable characters: everything before and
      everything after the infix it keeps is at or below U+0020. */
  lemma TrimRemovesOnlyTrimmable(s: string)
    ensures var a := |s| - |TrimStart(s)|;
      a + |Trim(s)| <= |s| && AllTrimmable(s[..a]) && AllTrimmable(s[a + |Trim(s)|..])
  {
    TrimOuter(s);
  }

  lemma TrimOuter(s: string)
    ensures var t := TrimStart(s); var a := |s| - |t|;
      a + |TrimEnd(t)| <= |s| && AllTrimmable(s[..a]) && AllTrimmable(s[a + |TrimEnd(t)|..])
  {
    var t := TrimStart(s);
    var a := |s| - |t|;
    var r := TrimEnd(t);
    var head := s[..a];
    var tail := s[a + |r|..];
    forall i | 0 <= i < |head|
      ensures IsTrimmable(head[i])
    {
      assert head[i] == s[i];
    }
    forall i | 0 <= i < |tail|
      ensures IsTrimmable(tail[i])
    {
      assert tail[i] == s[a + |r| + i];
      assert s[a + |r| + i] == t[|r| + i];
    }
  }

  /** Each character of Trim(s) is the character of `s` at the trimmed offset. */
  lemma TrimChars(s: string)
    ensures var a := |s| - |TrimStart(s)|;
      forall i :: 0 <= i < |Trim(s)| ==> 0 <= a + i < |s| && Trim(s)[i] == s[a + i]
  {
    var a := |s| - |TrimStart(s)|;
    var r := Trim(s);
    assert InfixAt(r, s, a);
    forall i | 0 <= i < |r|
      ensures 0 <= a + i < |s| && r[i] == s[a + i]
    {
      assert r[i] == s[a..a + |r|][i];
    }
  }

  /** String.toLowerCase() restricted to ASCII letters. */
  function LowerChar(c: char): (r: char)
    ensures IsAsciiAlnum(c) <==> IsAsciiAlnum(r)
    ensures 'A' <= c <= 'Z' ==> 'a' <= r <= 'z'
    ensures !('A' <= c <= 'Z') ==> r == c
  {
    if 'A' <= c <= 'Z' then (c as int + 32) as char else c
  }

  function ToLower(s: string): (r: string)
    ensures |r| == |s|
    ensures forall i :: 0 <= i < |s| ==> r[i] == LowerChar(s[i])
  {
    seq(|s|, i requires 0 <= i < |s| => LowerChar(s[i]))
  }

  /** Lower-casing twice is lower-casing once. */
  lemma ToLowerIdempotent(s: string)
    ensures ToLower(ToLower(s)) == ToLower(s)
  {
    var t := ToLower(s);
    forall i | 0 <= i < |s|
      ensures ToLower(t)[i] == t[i]
    {
      assert LowerChar(LowerChar(s[i])) == LowerChar(s[i]);
    }
  }

  predicate IsPrefix(p: string, s: string) {
    |p| <= |s| && s[..|p|] == p
  }

  /** String.contains: `sub` occurs as a contiguous infix of `s`. */
  predicate Contains(s: string, sub: string)
    decreases |s|
  {
    IsPrefix(sub, s) || (|s| > 0 && Contains(s[1..], sub))
  }

  /** `c` occurs in `s` (String.contains of a one-character string). */
  predicate HasChar(s: string, c: char) {
    exists i :: 0 <= i < |s| && s[i] == c
  }

  /** The position of the first `c` in `s`, |s| when there is none
      (String.indexOf, with |s| in place of -1). */
  function IndexOf(s: string, c: char): (n: nat)
    ensures n <= |s|
    ensures forall i :: 0 <= i < n ==> s[i] != c
    ensures n == |s| || s[n] == c
    ensures n == |s| <==> !HasChar(s, c)
    decreases |s|
  {
    if |s| == 0 || s[0] == c then 0
    else
      var n := IndexOf(s[1..], c);
      assert forall i :: 1 <= i < n + 1 ==> s[i] == s[1..][i - 1];
      1 + n
  }

  lemma {:induction false} ContainsCharIsHasChar(s: string, c: char)
    ensures Contains(s, [c]) <==> HasChar(s, c)
    decreases |s|
  {
    if |s| > 0 {
      ContainsCharIsHasChar(s[1..], c);
      if IsPrefix([c], s) {
        assert s[0] == s[..1][0];
      }
      if s[0] == c {
        assert HasChar(s, c);
        assert IsPrefix([c], s);
      }
      if HasChar(s, c) && s[0] != c {
        var i :| 0 <= i < |s| && s[i] == c;
        assert s[1..][i - 1] == c;
      }
      if HasChar(s[1..], c) {
        var i :| 0 <= i < |s| - 1 && s[1..][i] == c;
        assert s[i + 1] == c;
      }
    }
  }

  /** String.join(sep, parts). */
  function Join(parts: seq<string>, sep: string): string
    decreases |parts|
  {
    if |parts| == 0 then ""
    else if |parts| == 1 then parts[0]
    else parts[0] + sep + Join(parts[1..], sep)
  }

  /** One StringBuilder step of the adapters' author loops:
      `if (sb.length() > 0) sb.append(sep); sb.append(part);` */
  function AppendPart(sb: string, part: string, sep: string): string {
    if |sb| > 0 then sb + sep + part else sb + part
  }

  /** The whole StringBuilder loop, starting from `sb`. */
  function Accumulate(sb: string, parts: seq<string>, sep: string): string
    decreases |parts|
  {
    if |parts| == 0 then sb else Accumulate(AppendPart(sb, parts[0], sep), parts[1..], sep)
  }

  lemma {:induction false} AccumulateFromNonEmpty(sb: string, parts: seq<string>, sep: string)
    requires |sb| > 0
    ensures Accumulate(sb, parts, sep) == if |parts| == 0 then sb else sb + sep + Join(parts, sep)
    decreases |parts|
  {
    if |parts| > 0 {
      var next := AppendPart(sb, parts[0], sep);
      assert next == sb + sep + parts[0];
      AccumulateFromNonEmpty(next, parts[1..], sep);
      if |parts| > 1 {
        calc {
          Accumulate(sb, parts, sep);
          next + sep + Join(parts[1..], sep);
          sb + sep + (parts[0] + sep + Join(parts[1..], sep));
        }
      }
    }
  }

  /** When no part is empty, the separator-on-demand loop builds exactly
      String.join(sep, parts). */
  lemma AccumulateIsJoin(parts: seq<string>, sep: string)
    requires forall i :: 0 <= i < |parts| ==> |parts[i]| > 0
    ensures Accumulate("", parts, sep) == Join(parts, sep)
  {
    if |parts| > 0 {
      assert AppendPart("", parts[0], sep) == parts[0];
      AccumulateFromNonEmpty(parts[0], parts[1..], sep);
    }
  }

  function DigitChar(d: int): char
    requires 0 <= d < 10
  {
    ('0' as int + d) as char
  }

  /** String.valueOf of a non-negative int: its decimal digits, no leading zero. */
  function NatToString(n: nat): (r: string)
    ensures |r| > 0
    ensures forall i :: 0 <= i < |r| ==> IsDigit(r[i])
    ensures r[0] == '0' ==> n == 0
    decreases n
  {
    if n < 10 then [DigitChar(n)] else NatToString(n / 10) + [DigitChar(n % 10)]
  }

  /** String.valueOf(int): a minus sign, then the digits of the magnitude. */
  function IntToString(n: int): (r: string)
    ensures |r| > 0
    ensures r[0] == '-' <==> n < 0
    ensures forall i :: 0 < i < |r| ==> IsDigit(r[i])
    ensures n >= 0 ==> IsDigit(r[0])
  {
    if n < 0 then "-" + NatToString(-n) else NatToString(n)
  }

  /** The value of a run of decimal digits (the reading side of NatToString). */
  function ParseDigits(s: string): nat
    requires forall i :: 0 <= i < |s| ==> IsDigit(s[i])
    decreases |s|
  {
    if |s| == 0 then 0
    else
      assert IsDigit(s[|s| - 1]);
      ParseDigits(s[..|s| - 1]) * 10 + (s[|s| - 1] as int - '0' as int)
  }

  /** Reading the digits back gives the number. */
  lemma {:induction false} NatToStringRoundTrip(n: nat)
    ensures ParseDigits(NatToString(n)) == n
    decreases n
  {
    if n >= 10 {
      var r := NatToString(n);
      assert r[..|r| - 1] == NatToString(n / 10);
      NatToStringRoundTrip(n / 10);
    }
  }
}

=== FILE: wire.dfy ===
/**
  What the adapters send and receive, with HTTP and JSON abstracted away,
  and the parts the OpenAlex, Zenodo and Semantic Scholar adapters share:
  the query-term choice, the query cleaning, the author join and the
  write-back of a candidate above the display threshold.
 */
module Wire {
  import opened Text
  import opened Scoring
  import opened Record

  datatype Endpoint = CrossrefWork | CrossrefQuery | OpenAlexSearch | ZenodoSearch | ScholarSearch

  /** One HTTP request: the endpoint, the (un-encoded) query term and the
      attempt number, which only the retrying adapter advances. */
  datatype Request = Request(endpoint: Endpoint, term: string, attempt: nat)

  /** An author entry of a candidate: Crossref's given/family pair, or the
      single display name of the other sources; each field may be absent. */
  datatype Person = Person(given: Option<string>, family: Option<string>, name: Option<string>)

  /** The top-ranked record of a response, as far as the adapters read it. */
  datatype Candidate = Candidate(
    title: Option<string>,
    people: seq<Person>,
    doi: Option<string>,
    arxiv: Option<string>,
    url: Option<string>)

  /** A response body: unreadable (the parser throws), a single work
      (Crossref's identifier lookup), or a ranked list reduced to its first
      element. Hits(None) is an empty list; for OpenAlex, Zenodo and
      Semantic Scholar it also stands for a body without the list, which
      those adapters treat the same way. A Crossref body whose message has
      no items array is Malformed: reading the array throws. */
  datatype Body = Malformed | Work(work: Candidate) | Hits(top: Option<Candidate>)

  /** A call either throws (timeout, connection failure) or gets a status code and a body. */
  datatype Reply = Thrown | Response(code: int, body: Body)

  /** The outside world: a deterministic answer to every request. */
  type Network = Request -> Reply

  /** What an adapter call leaves behind: the updated item, its boolean
      result, the requests in the order sent, and the sleeps in milliseconds. */
  datatype Visit = Visit(item: Item, found: bool, sent: seq<Request>, waits: seq<int>)

  /** The result of a parse-and-score step before it is wrapped in a Visit. */
  datatype Scored = Scored(item: Item, found: bool)

  predicate IsOk(r: Reply) {
    r.Response? && r.code == 200
  }

  /** The candidate title, "Unknown" when the record has none. */
  function CandidateTitle(c: Candidate): string {
    c.title.GetOr("Unknown")
  }

  /** The display names of the authors that have one, in order. */
  function Names(people: seq<Person>): (r: seq<string>)
    ensures |r| <= |people|
    ensures forall s :: s in r <==> exists i :: 0 <= i < |people| && people[i].name == Some(s)
  {
    if |people| == 0 then []
    else
      var rest := Names(people[1..]);
      assert forall i :: 1 <= i < |people| ==> people[i] == people[1..][i - 1];
      if people[0].name.Some? then [people[0].name.value] + rest else rest
  }

  /** Names keeps the authors' order and one entry per named author: an
      author added at the end contributes its name at the end, or nothing. */
  lemma {:induction false} NamesAppend(people: seq<Person>, p: Person)
    ensures Names(people + [p]) == Names(people) + (if p.name.Some? then [p.name.value] else [])
    decreases |people|
  {
    if |people| > 0 {
      assert (people + [p])[1..] == people[1..] + [p];
      NamesAppend(people[1..], p);
    } else {
      assert ([] + [p])[1..] == [];
    }
  }

  /** The "; "-separated author line built by OpenAlex, Zenodo and Semantic
      Scholar: entries without a name are skipped. */
  function NameLine(people: seq<Person>): string {
    Accumulate("", Names(people), "; ")
  }

  /** With non-empty names the author line is exactly the "; "-join of the
      names that are present. */
  lemma NameLineJoinsNames(people: seq<Person>)
    requires forall i :: 0 <= i < |people| && people[i].name.Some? ==> |people[i].name.value| > 0
    ensures NameLine(people) == Join(Names(people), "; ")
  {
    var ns := Names(people);
    forall k | 0 <= k < |ns|
      ensures |ns[k]| > 0
    {
      assert ns[k] in ns;
    }
    AccumulateIsJoin(ns, "; ");
  }

  /** The query term of Zenodo and Semantic Scholar: the PDF title, or the
      raw citation when the title is null, the "Unknown Title" sentinel or
      shorter than 5; None (no request) when that is still shorter than 5. */
  function SearchTerm(it: Item): (q: Option<string>)
    ensures q.Some? ==> |q.value| >= 5
    ensures q.Some? ==> q.value == it.rawText || Some(q.value) == it.pdfTitle
    ensures it.pdfTitle.Some? && it.pdfTitle.value != UnknownTitle && |it.pdfTitle.value| >= 5
            ==> q == it.pdfTitle
    ensures (it.pdfTitle.None? || it.pdfTitle.value == UnknownTitle || |it.pdfTitle.value| < 5)
            ==> (q.Some? <==> |it.rawText| >= 5) && (q.Some? ==> q.value == it.rawText)
  {
    var fallback := it.pdfTitle.None? || it.pdfTitle.value == UnknownTitle || |it.pdfTitle.value| < 5;
    var term := if fallback then it.rawText else it.pdfTitle.value;
    if |term| < 5 then None else Some(term)
  }

  /** A character kept by the query cleaning: [a-zA-Z0-9] or `\s`. */
  predicate IsQueryChar(c: char) {
    IsAsciiAlnum(c) || IsRegexSpace(c)
  }

  /** Every character outside [a-zA-Z0-9\s] replaced by a space. */
  function BlankSymbols(q: string): (r: string)
    ensures |r| == |q|
    ensures forall i :: 0 <= i < |q| ==> r[i] == (if IsQueryChar(q[i]) then q[i] else ' ')
  {
    seq(|q|, i requires 0 <= i < |q| => if IsQueryChar(q[i]) then q[i] else ' ')
  }

  /** The query cleaning of Zenodo and Semantic Scholar: symbols become
      spaces, then the result is trimmed. */
  function CleanQuery(q: string): (r: string)
    ensures |r| <= |q|
    ensures forall i :: 0 <= i < |r| ==> IsQueryChar(r[i])
    ensures r == [] || (!IsTrimmable(r[0]) && !IsTrimmable(r[|r| - 1]))
    ensures (forall i :: 0 <= i < |q| ==> IsQueryChar(q[i])) ==> r == Trim(q)
  {
    CleanQueryShape(q);
    Trim(BlankSymbols(q))
  }

  lemma CleanQueryShape(q: string)
    ensures var r := Trim(BlankSymbols(q));
      && |r| <= |q|
      && (forall i :: 0 <= i < |r| ==> IsQueryChar(r[i]))
      && ((forall i :: 0 <= i < |q| ==> IsQueryChar(q[i])) ==> r == Trim(q))
  {
    var b := BlankSymbols(q);
    var r := Trim(b);
    assert forall j :: 0 <= j < |b| ==> IsQueryChar(b[j]);
    TrimChars(b);
    if forall i :: 0 <= i < |q| ==> IsQueryChar(q[i]) {
      BlankSymbolsKeepsClean(q);
    }
  }

  lemma BlankSymbolsKeepsClean(q: string)
    requires forall i :: 0 <= i < |q| ==> IsQueryChar(q[i])
    ensures BlankSymbols(q) == q
  {
    var b := BlankSymbols(q);
    forall i | 0 <= i < |q|
      ensures b[i] == q[i]
    {
    }
  }

  lemma TrimTrimmed(s: string)
    requires s == [] || (!IsTrimmable(s[0]) && !IsTrimmable(s[|s| - 1]))
    ensures Trim(s) == s
  {
  }

  /** Cleaning a cleaned query changes nothing. */
  lemma CleanQueryIdempotent(q: string)
    ensures CleanQuery(CleanQuery(q)) == CleanQuery(q)
  {
    var c := CleanQuery(q);
    TrimTrimmed(c);
  }

  /** The deferred write-back of the search adapters, for a score above
      the display threshold: candidate data and score, then PASS (and
      verified) above 75, CHECK otherwise. */
  function Promote(it: Item, title: string, authors: string, score: Percent): (r: Item)
    requires score > DisplayThreshold
    ensures r.dbTitle == title && r.dbAuthors == authors && r.matchScore == score
    ensures r.status == (if score > PassThreshold then Pass else Check)
    ensures r.verified == (it.verified || score > PassThreshold)
    ensures SameSource(r, it)
  {
    var w := SetCrossrefData(it, title, authors, score).(status := Classify(score));
    if score > 75 then SetVerified(w, true) else w
  }

  /** Scoring of a search hit against an item with the author floor of 40:
      the author similarity throws on null PDF authors (nothing is written);
      otherwise the item is written iff the composite exceeds 50. */
  function Judge(it: Item, c: Candidate, titleSim: Percent, fz: Fuzzy): (r: Scored)
    ensures !r.found ==> r.item == it
    ensures r.found ==> it.authors.Some?
    ensures r.found ==> DisplayThreshold < r.item.matchScore <= 100
    ensures r.found ==> r.item.dbTitle == CandidateTitle(c) && r.item.dbAuthors == NameLine(c.people)
    ensures r.found ==> r.item.status == (if r.item.matchScore > PassThreshold then Pass else Check)
    ensures r.found ==> r.item.verified == (it.verified || r.item.matchScore > PassThreshold)
    ensures it.authors.Some? ==>
      (r.found <==> Composite(titleSim, fz.tokenSortRatio(NameLine(c.people), it.authors.value), SearchAuthorFloor) > DisplayThreshold)
    ensures r.found ==>
      r.item.matchScore == Composite(titleSim, fz.tokenSortRatio(NameLine(c.people), it.authors.value), SearchAuthorFloor)
    ensures SameSource(r.item, it)
  {
    if it.authors.None? then Scored(it, false)
    else
      var authors := NameLine(c.people);
      var score := Composite(titleSim, fz.tokenSortRatio(authors, it.authors.value), SearchAuthorFloor);
      if score > DisplayThreshold then Scored(Promote(it, CandidateTitle(c), authors, score), true)
      else Scored(it, false)
  }

  /** The score Zenodo and Semantic Scholar give a hit: the floor-40
      composite of the title similarity (partial ratio on the raw citation
      iff the PDF title is the sentinel) and the similarity of the hit's
      author line to the PDF authors. */
  function HitScore(it: Item, c: Candidate, fz: Fuzzy): Percent
    requires it.pdfTitle.Some? && it.authors.Some?
  {
    Composite(TitleSimilarity(fz, CandidateTitle(c), it.pdfTitle.value, it.rawText),
              fz.tokenSortRatio(NameLine(c.people), it.authors.value), SearchAuthorFloor)
  }

  /** The write-back rule for a body carrying a first hit, when the record
      has a PDF title and authors: the hit is taken iff its score exceeds 50,
      and then that score is stored. */
  predicate HitDecides(it: Item, body: Body, fz: Fuzzy, r: Scored) {
    body.Hits? && body.top.Some? && it.pdfTitle.Some? && it.authors.Some? ==>
      && (r.found <==> HitScore(it, body.top.value, fz) > DisplayThreshold)
      && (r.found ==> r.item.matchScore == HitScore(it, body.top.value, fz))
  }

  /** The parse-and-score step Zenodo and Semantic Scholar share: only a
      first hit counts; the title similarity dereferences the PDF title
      (null throws) and uses partial ratio on the raw citation exactly when
      the PDF title is the "Unknown Title" sentinel. */
  function JudgeHit(it: Item, body: Body, fz: Fuzzy): (r: Scored)
    ensures !r.found ==> r.item == it
    ensures r.found ==> body.Hits? && body.top.Some? && it.pdfTitle.Some? && it.authors.Some?
    ensures HitDecides(it, body, fz, r)
    ensures r.found ==> DisplayThreshold < r.item.matchScore <= 100
    ensures r.found ==> r.item.status == (if r.item.matchScore > PassThreshold then Pass else Check)
    ensures r.found ==> r.item.verified == (it.verified || r.item.matchScore > PassThreshold)
    ensures SameSource(r.item, it)
  {
    match body
    case Hits(Some(c)) =>
      if it.pdfTitle.None? then Scored(it, false)
      else Judge(it, c, TitleSimilarity(fz, CandidateTitle(c), it.pdfTitle.value, it.rawText), fz)
    case _ => Scored(it, false)
  }
}

=== FILE: zenodo.dfy ===
/**
  ZenodoService: a title search with raw-text fallback and a cleaned
  query, scored like the other search adapters (author floor 40, written
  back only above 50). The cascade calls it only for citations that
  mention Zenodo.
 */
module Zenodo {
  import opened Text
  import opened Scoring
  import opened Record
  import opened Wire

  /** verify. */
  function Verify(it: Item, send: Network, fz: Fuzzy): (v: Visit)
    ensures SearchTerm(it).None? ==> v == Visit(it, false, [], [])
    ensures SearchTerm(it).Some? ==>
      v.sent == [Request(ZenodoSearch, CleanQuery(SearchTerm(it).value), 0)] && v.waits == []
    ensures v.found ==> IsOk(send(v.sent[0])) && send(v.sent[0]).body.Hits? && send(v.sent[0]).body.top.Some?
    ensures v.found ==> it.pdfTitle.Some? && it.authors.Some?
    ensures SearchTerm(it).Some? && IsOk(send(v.sent[0])) ==> HitDecides(it, send(v.sent[0]).body, fz, Scored(v.item, v.found))
    ensures !v.found ==> v.item == it
    ensures v.found ==> DisplayThreshold < v.item.matchScore <= 100
    ensures v.found ==> v.item.status == (if v.item.matchScore > PassThreshold then Pass else Check)
    ensures v.found ==> v.item.verified == (it.verified || v.item.matchScore > PassThreshold)
    ensures SameSource(v.item, it)
  {
    match SearchTerm(it)
    case None => Visit(it, false, [], [])
    case Some(q) =>
      var req := Request(ZenodoSearch, CleanQuery(q), 0);
      var reply := send(req);
      var r := if IsOk(reply) then JudgeHit(it, reply.body, fz) else Scored(it, false);
      Visit(r.item, r.found, [req], [])
  }

  /** A short PDF title that is not the sentinel is searched through the raw
      citation but scored with the FULL ratio against that short title. */
  lemma ShortTitleSearchedRawScoredFull(it: Item, send: Network, fz: Fuzzy, c: Candidate)
    requires it.pdfTitle.Some? && it.pdfTitle.value != UnknownTitle && |it.pdfTitle.value| < 5
    requires |it.rawText| >= 5 && it.authors.Some?
    requires send(Request(ZenodoSearch, CleanQuery(it.rawText), 0)) == Response(200, Hits(Some(c)))
    ensures Verify(it, send, fz).sent == [Request(ZenodoSearch, CleanQuery(it.rawText), 0)]
    ensures var score := Composite(fz.ratio(ToLower(CandidateTitle(c)), ToLower(it.pdfTitle.value)),
                                   fz.tokenSortRatio(NameLine(c.people), it.authors.value), SearchAuthorFloor);
      Verify(it, send, fz).found <==> score > DisplayThreshold
  {
  }

  /** With the "Unknown Title" sentinel the hit is scored with the PARTIAL
      ratio against the raw citation. */
  lemma SentinelScoredPartial(it: Item, send: Network, fz: Fuzzy, c: Candidate)
    requires it.pdfTitle == Some(UnknownTitle) && |it.rawText| >= 5 && it.authors.Some?
    requires send(Request(ZenodoSearch, CleanQuery(it.rawText), 0)) == Response(200, Hits(Some(c)))
    ensures var score := Composite(fz.partialRatio(ToLower(CandidateTitle(c)), ToLower(it.rawText)),
                                   fz.tokenSortRatio(NameLine(c.people), it.authors.value), SearchAuthorFloor);
      (Verify(it, send, fz).found <==> score > DisplayThreshold)
      && (Verify(it, send, fz).found ==> Verify(it, send, fz).item.matchScore == score)
  {
  }
}
